=== FILE: README.md ===
# XDS.b document repository service — a Dafny model

This project models the core of the OpenMRS XDS.b repository module: the
service class `XDSbServiceImpl`. The service receives "Provide and Register
Document Set-b" submissions. It does the following:

- checks each document entry's metadata (unique id, class code, the two
  patient identifiers in CX form);
- checks the payload against the entry's hash and size slots, and fills
  those slots in when they are missing;
- refuses a document unique id that already has a content handler;
- resolves the patient, the encounter type, the form, the location and the
  providers (by role) against the OpenMRS stores, creating what is missing;
- patches the repository unique id into every entry and forwards the
  metadata to the document registry;
- records the content handler of each registered document when the
  registry answers with success;
- runs a small queue of items waiting for discrete-data processing.

The OpenMRS stores (patients, identifier types, providers, encounter roles,
encounter types, forms, locations, encounters, the queue) are classes whose
`seq` fields the methods update. Pure decisions (which record is found,
what is created, what a string splits into) are functions. Each method is
proved against the function that specifies it. The properties the service
promises are lemmas about those functions.

Modules (one file each):

| module | file | what it holds |
|---|---|---|
| `Outcomes` | outcomes.dfy | `Option`, `Result`, the error kinds the service raises, first/last-match scans |
| `Text` | text.dfy | Java string behaviour: `split` with and without limit, `replace`, `Integer.parseInt`, ASCII case folding |
| `Hex` | hex.dfy | `bytesToHex` and its decoding |
| `Entries` | entries.dfy | document entries, slots, classifications, external identifiers, slot lookups |
| `Integrity` | integrity.dfy | document/metadata matching, hash and size checks, hash and size slot filling |
| `Identifiers` | identifiers.dfy | CX patient identifiers and `parsePatientIdentifier` |
| `Metadata` | metadata.dfy | `validateMetadata` and `buildContentObjectFromDocument` |
| `Patients` | patients.dfy | patient names, addresses, identifier types, `sourcePatientInfo` intake |
| `PatientRegistry` | patientregistry.dfy | the patient store: find, create, add the local identifier |
| `Providers` | providers.dfy | providers, encounter roles, providers gathered by role |
| `RoleProviderMap` | roleprovidermap.dfy | `stringifyRoleProvidersMap` and its inverse |
| `EncounterContext` | encounter.dfy | encounter type, form, location, software version, encounter time |
| `IngestionQueue` | queue.dfy | the discrete-data queue |
| `Submission` | submission.dfy | per-document processing, the registry slot patch, handler registration |

Calls into code that is not part of this model become parameters:

- SHA-1 is a function `digest: seq<JByte> -> seq<JByte>`.
- `SimpleDateFormat.parse` is a function `string -> Option<int>`.
- `new Date()` is an integer `now`.
- The registry's answer is an `Option<RegistryResponse>`, where `None`
  stands for the exception the SOAP call raises.

`InfosetUtil` and the `Identifier` CX class are not part of this model
either. They are modelled as follows:

- `getSlotValue` returns the first value of the first slot of that name.
- `addOrOverwriteSlot` replaces every slot of that name, or appends one.
- `getSlotsFromRegistryObject` maps names to slots and fails on a repeated
  name.
- `Identifier` splits on `^` and `&`.

## Model

| member | source | states |
|---|---|---|
| Hex.BytesToHex | api/src/main/java/org/openmrs/module/xdsbrepository/impl/XDSbServiceImpl.java:95-105 | the hex string is twice as long as the input; characters 2j and 2j+1 are the table digits of the high and low nibble of byte j read as unsigned |
| Hex.HexOfAt | api/src/main/java/org/openmrs/module/xdsbrepository/impl/XDSbServiceImpl.java:95-105 | position-wise description of the specifying function: the digit pair of byte j sits at 2j, 2j+1 |
| Hex.HexDecodes | api/src/main/java/org/openmrs/module/xdsbrepository/impl/XDSbServiceImpl.java:95-105 | every output character is one of `0123456789ABCDEF`, and each pair decodes back to the unsigned byte value |
| Hex.HexInjective | api/src/main/java/org/openmrs/module/xdsbrepository/impl/XDSbServiceImpl.java:95-105 | two byte strings with the same hex string are equal (the encoding loses nothing) |
| Entries.IsClassifiedAsCDA | api/src/main/java/org/openmrs/module/xdsbrepository/impl/XDSbServiceImpl.java:221-229 | true exactly when some classification has the format-code scheme and the CDA format code, both compared ignoring ASCII case |
| Entries.IsCdaFormat | api/src/main/java/org/openmrs/module/xdsbrepository/impl/XDSbServiceImpl.java:224-226 | a classification with exactly the format-code scheme and the CDA code is CDA; a CDA one has a scheme and a code of those lengths |
| Entries.GetClassificationFromExtrinsicObject | api/src/main/java/org/openmrs/module/xdsbrepository/impl/XDSbServiceImpl.java:940-949 | the first classification with the scheme; none exactly when no classification has it |
| Entries.LastClassification | api/src/main/java/org/openmrs/module/xdsbrepository/impl/XDSbServiceImpl.java:351-360 | the last classification with the scheme (the loop keeps overwriting); none exactly when none has it |
| Entries.GetClassificationSlotsFromExtrinsicObject | api/src/main/java/org/openmrs/module/xdsbrepository/impl/XDSbServiceImpl.java:921-932 | one slot map per classification of the scheme, in order, each the name-to-slot map of that classification; fails exactly when one of them repeats a slot name |
| Entries.AddOrOverwriteSlot | api/src/main/java/org/openmrs/module/xdsbrepository/impl/XDSbServiceImpl.java:1264-1268 | afterwards the slot reads back the value; with no slot of that name one slot is appended, otherwise the length is unchanged |
| Entries.AddOrOverwriteIdempotent | api/src/main/java/org/openmrs/module/xdsbrepository/impl/XDSbServiceImpl.java:1264-1268 | overwriting twice with the same value is the same as overwriting once |
| Entries.AddOrOverwriteKeepsOthers | api/src/main/java/org/openmrs/module/xdsbrepository/impl/XDSbServiceImpl.java:1264-1268 | the lookup of every other slot name is unchanged |
| Integrity.ValidateDocumentMatchMetadata | api/src/main/java/org/openmrs/module/xdsbrepository/impl/XDSbServiceImpl.java:231-252 | succeeds iff the metadata ids equal the document keys; otherwise MISSING_DOCUMENT listing exactly ids minus keys, and only when that is empty MISSING_DOCUMENT_METADATA listing exactly keys minus ids |
| Integrity.IdsBeforeSnoc | api/src/main/java/org/openmrs/module/xdsbrepository/impl/XDSbServiceImpl.java:232-235 | the id set of the first i+1 entries is that of the first i plus entry i's id (the loop invariant of the id collection) |
| Integrity.SetsMatch | api/src/main/java/org/openmrs/module/xdsbrepository/impl/XDSbServiceImpl.java:237-246 | the union-then-remove sets equal the plain differences, and the two sets are equal iff both differences are empty |
| Integrity.ValidateContent | api/src/main/java/org/openmrs/module/xdsbrepository/impl/XDSbServiceImpl.java:299-328 | succeeds iff a present hash slot matches the payload digest ignoring case and a present size slot is a number equal to the payload length; the hash is checked first, then "not a number", then "incorrect size" |
| Integrity.LowerCaseHashAgrees | api/src/main/java/org/openmrs/module/xdsbrepository/impl/XDSbServiceImpl.java:307-308 | a hash slot holding the digest in lower-case hex is accepted |
| Integrity.WithHashSlot | api/src/main/java/org/openmrs/module/xdsbrepository/impl/XDSbServiceImpl.java:377-393 | the old slots are kept as a prefix; exactly one slot holding the hex digest of the payload is appended, and only when no hash value is present |
| Integrity.WithSizeSlot | api/src/main/java/org/openmrs/module/xdsbrepository/impl/XDSbServiceImpl.java:395-404 | the old slots are kept as a prefix; exactly one slot holding the decimal payload length is appended, and only when no size value is present |
| Integrity.AddHashSlot | api/src/main/java/org/openmrs/module/xdsbrepository/impl/XDSbServiceImpl.java:377-393 | the entry's slots become `WithHashSlot` of the old slots |
| Integrity.AddSizeSlot | api/src/main/java/org/openmrs/module/xdsbrepository/impl/XDSbServiceImpl.java:395-404 | the entry's slots become `WithSizeSlot` of the old slots |
| Integrity.HashFillLookups | api/src/main/java/org/openmrs/module/xdsbrepository/impl/XDSbServiceImpl.java:377-393 | other slot lookups are unchanged, an existing hash slot is untouched, and a missing one now reads the digest |
| Integrity.SizeFillLookups | api/src/main/java/org/openmrs/module/xdsbrepository/impl/XDSbServiceImpl.java:395-404 | other slot lookups are unchanged, an existing size slot is untouched, and a missing one now reads the payload length |
| Integrity.FillingKeepsOtherSlots | api/src/main/java/org/openmrs/module/xdsbrepository/impl/XDSbServiceImpl.java:266-267 | adding the hash and size slots changes no lookup of any other slot name |
| Integrity.FillingIdempotent | api/src/main/java/org/openmrs/module/xdsbrepository/impl/XDSbServiceImpl.java:266-267 | filling the hash and size slots a second time changes nothing |
| Integrity.FilledContentValidates | api/src/main/java/org/openmrs/module/xdsbrepository/impl/XDSbServiceImpl.java:264-267 | an entry that passed the content check still passes it after its slots are filled, and a slot that was missing now carries the payload's digest or length |
| Identifiers.ParsePatientIdentifier | api/src/main/java/org/openmrs/module/xdsbrepository/impl/XDSbServiceImpl.java:1030-1047 | after `&amp;` is unescaped: accepted iff the CX has an id value and an assigning-authority universal id, giving exactly those two; an empty value is "Empty identifier", and any other rejection is "assigning authority not specified" |
| Identifiers.ParseCx | api/src/main/java/org/openmrs/module/xdsbrepository/impl/XDSbServiceImpl.java:1033 | a CX is split on `^` and its fourth component on `&`; an identifier read is non-empty and has no `^`; an authority is read only when there is a `^`, and its universal id has no `&`; a string without `^` is only an identifier |
| Identifiers.UnescapeEscaped | api/src/main/java/org/openmrs/module/xdsbrepository/impl/XDSbServiceImpl.java:1031 | unescaping undoes escaping every `&` as `&amp;` |
| Identifiers.NoEscapeWithoutSemicolon | api/src/main/java/org/openmrs/module/xdsbrepository/impl/XDSbServiceImpl.java:1031 | unescaping leaves a string without `;` unchanged |
| Identifiers.FormatCxSpelled | api/src/main/java/org/openmrs/module/xdsbrepository/impl/XDSbServiceImpl.java:1033 | a formatted CX is `value^^^namespace&authority&type` |
| Identifiers.ParseFormatCx | api/src/main/java/org/openmrs/module/xdsbrepository/impl/XDSbServiceImpl.java:1033 | splitting a formatted CX gives back its components, with empty ones read as absent |
| Identifiers.AcceptsFormatted | api/src/main/java/org/openmrs/module/xdsbrepository/impl/XDSbServiceImpl.java:1030-1047 | every CX with a value and a universal id is accepted with exactly those two |
| Identifiers.AcceptsEscaped | api/src/main/java/org/openmrs/module/xdsbrepository/impl/XDSbServiceImpl.java:1030-1047 | the same CX with its `&` escaped as `&amp;` is accepted the same way |
| Identifiers.RejectsMissingValue | api/src/main/java/org/openmrs/module/xdsbrepository/impl/XDSbServiceImpl.java:1035-1037 | a CX with an empty value is rejected as "Empty identifier" |
| Identifiers.RejectsBareValue | api/src/main/java/org/openmrs/module/xdsbrepository/impl/XDSbServiceImpl.java:1039-1041 | a bare value with no components is rejected for the missing authority |
| Identifiers.RejectsMissingAuthorityId | api/src/main/java/org/openmrs/module/xdsbrepository/impl/XDSbServiceImpl.java:1039-1041 | a CX whose universal id is empty is rejected for the missing authority |
| Identifiers.RejectsEmptyAuthority | api/src/main/java/org/openmrs/module/xdsbrepository/impl/XDSbServiceImpl.java:1039-1041 | a CX whose fourth component is empty is rejected for the missing authority |
| Identifiers.TestIdentifierAccepted | api/src/main/java/org/openmrs/module/xdsbrepository/impl/XDSbServiceImpl.java:1030-1047 | `12345^^^&1.2.3&ISO` is accepted as value 12345, domain 1.2.3 |
| Identifiers.TestIdentifierBareValue | api/src/test/java/org/openmrs/module/xdsbrepository/impl/XDSbServiceTest.java:347-350 | `12345` is rejected |
| Identifiers.TestIdentifierEmptyAuthority | api/src/test/java/org/openmrs/module/xdsbrepository/impl/XDSbServiceTest.java:352-355 | `12345^^^^stuff` is rejected |
| Identifiers.TestIdentifierEmptyValue | api/src/test/java/org/openmrs/module/xdsbrepository/impl/XDSbServiceTest.java:357-360 | `^^^&1.2.3.4.5&ISO` is rejected as "Empty identifier" |
| Identifiers.TestIdentifierNotCx | api/src/test/java/org/openmrs/module/xdsbrepository/impl/XDSbServiceTest.java:362-365 | `this is a bad id` is rejected |
| Identifiers.TestIdentifierEmptyUniversalId | api/src/test/java/org/openmrs/module/xdsbrepository/impl/XDSbServiceTest.java:367-370 | `12345^^^test&&ISO` is rejected |
| Metadata.ValidateMetadata | api/src/main/java/org/openmrs/module/xdsbrepository/impl/XDSbServiceImpl.java:277-297 | passes iff unique id, class code, a parseable patient id and a parseable source patient id are all present; each missing item gives its own error, in that order; every error is a metadata error |
| Metadata.BuildContentObjectFromDocument | api/src/main/java/org/openmrs/module/xdsbrepository/impl/XDSbServiceImpl.java:345-375 | type code missing, then format code missing, is an error; a document absent from the request is a null dereference; otherwise the content carries the unique id, the document's bytes, the mime type and the last type and format codes |
| Patients.CreatePatientName | api/src/main/java/org/openmrs/module/xdsbrepository/impl/XDSbServiceImpl.java:1158-1187 | family and given come from components 0 and 1, and an empty or missing one becomes `*`; middle, suffix, prefix and degree come from components 2-5 while they exist |
| Patients.NameRoundTrip | api/src/main/java/org/openmrs/module/xdsbrepository/impl/XDSbServiceImpl.java:1158-1187 | a full XPN split on `^` yields exactly its six parts |
| Patients.ShortNameRoundTrip | api/src/main/java/org/openmrs/module/xdsbrepository/impl/XDSbServiceImpl.java:1158-1187 | `family^given` yields those two names and nothing else |
| Patients.AddressRoundTrip | api/src/main/java/org/openmrs/module/xdsbrepository/impl/XDSbServiceImpl.java:1195-1210 | a full XAD split on `^` yields exactly its six address parts |
| Patients.ShortAddress | api/src/main/java/org/openmrs/module/xdsbrepository/impl/XDSbServiceImpl.java:1195-1210 | fields past the last component stay empty; component 0 is always address line 1 |
| Patients.CreatePatientAddress | api/src/main/java/org/openmrs/module/xdsbrepository/impl/XDSbServiceImpl.java:1195-1210 | address line 1, line 2, city, state, postal code and country are components 0-5 while they exist; every field past the last component is absent |
| Patients.TypeWithUuid | api/src/main/java/org/openmrs/module/xdsbrepository/impl/XDSbServiceImpl.java:1053-1056 | the stored identifier type with that uuid, none exactly when no type has it |
| Patients.TypeWithName | api/src/main/java/org/openmrs/module/xdsbrepository/impl/XDSbServiceImpl.java:1058-1060 | the stored identifier type with that name, none exactly when no type has it |
| Patients.ResolveIdentifierType | api/src/main/java/org/openmrs/module/xdsbrepository/impl/XDSbServiceImpl.java:1049-1067 | always yields a stored type: the mapped uuid's type, else the type named after the domain, else a new type named after the domain appended to the store (only then is anything created) |
| Patients.ResolveStable | api/src/main/java/org/openmrs/module/xdsbrepository/impl/XDSbServiceImpl.java:1049-1067 | resolving the same domain again finds the same type and creates nothing |
| Patients.UnsupportedGenderCode | api/src/main/java/org/openmrs/module/xdsbrepository/impl/XDSbServiceImpl.java:1120 | true exactly for the one-letter codes O, U, A and N in either case |
| Patients.LocationNamed | api/src/main/java/org/openmrs/module/xdsbrepository/impl/XDSbServiceImpl.java:1128 | the location stored under that name; none exactly when no location has it |
| Patients.AddIdentifier | api/src/main/java/org/openmrs/module/xdsbrepository/impl/XDSbServiceImpl.java:1101 | afterwards the identifier is present; an identifier equal in value, type and location to one already there leaves the list unchanged; otherwise it is appended and the old list is a prefix |
| Patients.AddIdentifierIdempotent | api/src/main/java/org/openmrs/module/xdsbrepository/impl/XDSbServiceImpl.java:1101 | adding the same identifier twice is the same as adding it once |
| Patients.IntakeStep | api/src/main/java/org/openmrs/module/xdsbrepository/impl/XDSbServiceImpl.java:1091-1134 | one `sourcePatientInfo` value never removes a stored identifier type or a patient identifier, and keeps the type table numbered |
| Patients.IntakeStepEffects | api/src/main/java/org/openmrs/module/xdsbrepository/impl/XDSbServiceImpl.java:1092-1130 | a `PID-3` value succeeds iff its CX parses, and then appends its identifier at the default location under the type its domain resolves to, preferred iff that type is named `ECID`, unless an equal identifier is already there; a `PID-5` value appends its name; an unparseable `PID-7` value fails with the birth-date error, otherwise sets the birthdate; an O/U/A/N `PID-8` value fails with the unsupported-gender error, otherwise sets the gender; a `PID-11` value appends its address and sets the location its component 0 names (none when no location has that name); the step fails exactly in those three cases; no other value touches identifiers, types, names, addresses or the location |
| Patients.IntakeFold | api/src/main/java/org/openmrs/module/xdsbrepository/impl/XDSbServiceImpl.java:1091-1134 | the whole loop never removes an identifier type and keeps the table numbered |
| Patients.IntakeNames | api/src/main/java/org/openmrs/module/xdsbrepository/impl/XDSbServiceImpl.java:1102-1107 | the loop adds exactly the names of the `PID-5` values, in order, to the names it started with |
| Patients.IntakeAddresses | api/src/main/java/org/openmrs/module/xdsbrepository/impl/XDSbServiceImpl.java:1124-1130 | the loop adds exactly the addresses of the `PID-11` values, in order, to the addresses it started with |
| Patients.IntakeLocationIsLast | api/src/main/java/org/openmrs/module/xdsbrepository/impl/XDSbServiceImpl.java:1124-1128 | the location kept is the one named by component 0 of the last `PID-11` value (none when no location has that name); with no such value it is the starting one |
| Patients.IntakeIdentifiers | api/src/main/java/org/openmrs/module/xdsbrepository/impl/XDSbServiceImpl.java:1092-1101 | every `PID-3` value parses and its value ends up among the identifiers at the default location; the starting identifiers are kept, and without `PID-3` values nothing is added |
| Patients.IntakeRejectsUnsupportedGender | api/src/main/java/org/openmrs/module/xdsbrepository/impl/XDSbServiceImpl.java:1117-1123 | if the loop succeeds, no `PID-8` value was O, U, A or N in any case |
| Patients.IntakeBirthdatesParse | api/src/main/java/org/openmrs/module/xdsbrepository/impl/XDSbServiceImpl.java:1108-1116 | if the loop succeeds, every `PID-7` value, tag removed, parsed as a date |
| Patients.IntakeGenderIsLast | api/src/main/java/org/openmrs/module/xdsbrepository/impl/XDSbServiceImpl.java:1117-1123 | the gender is that of the last `PID-8` value, tag removed; with none it is unchanged |
| Patients.IntakeBirthdateIsLast | api/src/main/java/org/openmrs/module/xdsbrepository/impl/XDSbServiceImpl.java:1108-1116 | the birthdate is the parse of the last `PID-7` value, which parsed; with none it is unchanged |
| Patients.FinishPatient | api/src/main/java/org/openmrs/module/xdsbrepository/impl/XDSbServiceImpl.java:1136-1147 | afterwards the patient holds the caller's identifier, at the location of the last address or the default one; if no equal identifier was there it is appended, preferred, and nothing else is added; a missing gender becomes `U`, a present one is kept; a patient without names gets exactly the name given `*`, family `*`; names are otherwise kept, as are birthdate and addresses |
| Patients.CreatedPatient | api/src/main/java/org/openmrs/module/xdsbrepository/impl/XDSbServiceImpl.java:1081-1150 | a repeated slot name or a missing `sourcePatientInfo` slot is an error; on success the patient holds the caller's identifier, has a gender and a name, and identifier types only grow and stay numbered |
| Patients.CreatedGender | api/src/main/java/org/openmrs/module/xdsbrepository/impl/XDSbServiceImpl.java:1117-1123 | the created patient's gender is the last `PID-8` value, which is not O/U/A/N, or `U` when there is none |
| Patients.CreatedFold | api/src/main/java/org/openmrs/module/xdsbrepository/impl/XDSbServiceImpl.java:1083-1150 | a created patient is the finished result of the loop over the `sourcePatientInfo` values, starting from an empty patient at the default location |
| Patients.CreatedDemographics | api/src/main/java/org/openmrs/module/xdsbrepository/impl/XDSbServiceImpl.java:1102-1147 | a created patient's names are those of its `PID-5` values in order, or only the `*`/`*` placeholder when there is none; its addresses are those of its `PID-11` values in order; it holds the caller's identifier at the location named by the last `PID-11` value, else the default location |
| Patients.WithLocalIdentifier | api/src/main/java/org/openmrs/module/xdsbrepository/impl/XDSbServiceImpl.java:1011-1018 | afterwards the patient has the (value, type) identifier; when it was already present nothing changes, otherwise exactly that identifier is appended at the given location and not preferred |
| Patients.LocalIdentifierIdempotent | api/src/main/java/org/openmrs/module/xdsbrepository/impl/XDSbServiceImpl.java:1011-1018 | adding the local identifier twice is the same as adding it once |
| Patients.LocalIdentifierKeeps | api/src/main/java/org/openmrs/module/xdsbrepository/impl/XDSbServiceImpl.java:1011-1018 | every identifier the patient had is still there |
| PatientRegistry.EnterpriseId | api/src/main/java/org/openmrs/module/xdsbrepository/impl/XDSbServiceImpl.java:962-963 | the parsed document-entry patient id; a missing one is a null dereference |
| PatientRegistry.SourceId | api/src/main/java/org/openmrs/module/xdsbrepository/impl/XDSbServiceImpl.java:1001-1002 | the parsed source patient id slot; a missing one is a null dereference |
| PatientRegistry.MatchingPatients | api/src/main/java/org/openmrs/module/xdsbrepository/impl/XDSbServiceImpl.java:972 | exactly the stored patients holding the (value, type) identifier |
| PatientRegistry.IntakeErrorSticks | api/src/main/java/org/openmrs/module/xdsbrepository/impl/XDSbServiceImpl.java:1091-1134 | once a value fails, the loop's result is that failure whatever follows |
| PatientRegistry.TaggedSettles | api/src/main/java/org/openmrs/module/xdsbrepository/impl/XDSbServiceImpl.java:965-993 | a lookup outcome as `FindPatient` states it, followed by the source identifier's addition to the found or created patient, yields exactly the outcomes and store `findOrCreatePatient` promises |
| PatientRegistry.Registry.GetIdentifierType | api/src/main/java/org/openmrs/module/xdsbrepository/impl/XDSbServiceImpl.java:1049-1067 | returns and stores what `ResolveIdentifierType` decides; patients unchanged |
| PatientRegistry.Registry.CreatePatient | api/src/main/java/org/openmrs/module/xdsbrepository/impl/XDSbServiceImpl.java:1081-1150 | outcome and identifier-type table are those of `CreatedPatient` (whose names, addresses, gender and identifier are stated by `CreatedDemographics` and `CreatedGender`); the patient store is not touched |
| PatientRegistry.Registry.AddLocalIdentifierToPatient | api/src/main/java/org/openmrs/module/xdsbrepository/impl/XDSbServiceImpl.java:999-1019 | an unparseable source id leaves everything unchanged; otherwise the source type is resolved and only the patient's identifiers change, by `WithLocalIdentifier` |
| PatientRegistry.Registry.FindPatient | api/src/main/java/org/openmrs/module/xdsbrepository/impl/XDSbServiceImpl.java:965-990 | with the enterprise id's resolved type: more than one match is AMBIGUOUS; no match with auto-create unset is a null dereference, with any value but `"true"` UNKNOWN_PATID, and with `"true"` the `CreatedPatient` error or the created patient appended and returned; exactly one match returns that patient; the result holds the identifier |
| PatientRegistry.Registry.FindAndTag | api/src/main/java/org/openmrs/module/xdsbrepository/impl/XDSbServiceImpl.java:965-993 | for a parsed enterprise id: the outcomes of `FindPatient`, and then the source-identifier error, or the matched or created patient returned with `WithLocalIdentifier` applied and no other patient changed |
| PatientRegistry.Registry.FindOrCreatePatient | api/src/main/java/org/openmrs/module/xdsbrepository/impl/XDSbServiceImpl.java:961-994 | an unparseable or missing enterprise id fails with the store unchanged; otherwise the outcomes of `FindAndTag`: errors in the order above, the matched patient or the created one, given the source identifier; at most one patient is added and no other patient changes |
| Providers.GetEncounterRoleByName | api/src/main/java/org/openmrs/module/xdsbrepository/impl/XDSbServiceImpl.java:825-833 | the first role with exactly that name; none exactly when no role has it |
| Providers.RoleLookupStable | api/src/main/java/org/openmrs/module/xdsbrepository/impl/XDSbServiceImpl.java:825-833 | roles created later do not change a role already found |
| Providers.ProviderWithIdentifier | api/src/main/java/org/openmrs/module/xdsbrepository/impl/XDSbServiceImpl.java:850-855 | the first provider with that identifier; none exactly when no provider has it |
| Providers.NameScan | api/src/main/java/org/openmrs/module/xdsbrepository/impl/XDSbServiceImpl.java:859-864 | the first provider whose name starts with the given name and contains the family name; none exactly when no provider matches |
| Providers.CreateProvider | api/src/main/java/org/openmrs/module/xdsbrepository/impl/XDSbServiceImpl.java:880-911 | identifier is component 0; the person is named from components 2 and 1 when both are non-empty, otherwise from the identifier |
| Providers.ChooseProvider | api/src/main/java/org/openmrs/module/xdsbrepository/impl/XDSbServiceImpl.java:841-872 | no author person slot gives no provider; an empty value list, or an empty identifier with stored providers and fewer than 3 components, is an index error (and only these); a provider is found exactly when the identifier lookup (non-empty identifier) or the name scan (empty identifier) finds one, and it is the first one found; otherwise a provider is created from the components |
| Providers.CreatedNameMatches | api/src/main/java/org/openmrs/module/xdsbrepository/impl/XDSbServiceImpl.java:894-897 | a provider created with both names matches the name scan for them |
| Providers.ProviderFoundAgain | api/src/main/java/org/openmrs/module/xdsbrepository/impl/XDSbServiceImpl.java:841-872 | after a provider is created, the same author (with an identifier or both names) finds it instead of creating another |
| Providers.NamelessAuthorCreatedAgain | api/src/main/java/org/openmrs/module/xdsbrepository/impl/XDSbServiceImpl.java:856-868 | an author with no identifier and no given name is created again on every submission |
| Providers.ResolveRole | api/src/main/java/org/openmrs/module/xdsbrepository/impl/XDSbServiceImpl.java:787-794 | an existing role with exactly that name is reused and nothing is created; otherwise one role with that name is appended; roles stay numbered, and role names that were distinct stay distinct |
| Providers.AddToBucket | api/src/main/java/org/openmrs/module/xdsbrepository/impl/XDSbServiceImpl.java:796-802 | the provider is added to the role's set (opened if new); every other role's set is unchanged |
| Providers.CoveredStable | api/src/main/java/org/openmrs/module/xdsbrepository/impl/XDSbServiceImpl.java:776-814 | a provider already filed under a role stays filed as roles and sets grow |
| Providers.RolesFold | api/src/main/java/org/openmrs/module/xdsbrepository/impl/XDSbServiceImpl.java:784-803 | the inner loop over role names only appends roles, keeps providers, and only grows sets |
| Providers.RolesFoldWellFormed | api/src/main/java/org/openmrs/module/xdsbrepository/impl/XDSbServiceImpl.java:784-803 | the inner loop keeps every set non-empty, keyed by a stored role, and holding stored providers |
| Providers.RolesFoldCovers | api/src/main/java/org/openmrs/module/xdsbrepository/impl/XDSbServiceImpl.java:784-803 | after the inner loop the provider is in the set of every listed role name |
| Providers.AuthorStep | api/src/main/java/org/openmrs/module/xdsbrepository/impl/XDSbServiceImpl.java:777-813 | one author classification fails exactly when choosing its provider fails; otherwise the provider table becomes the choice's and roles and sets only grow |
| Providers.AuthorStepFiles | api/src/main/java/org/openmrs/module/xdsbrepository/impl/XDSbServiceImpl.java:780-813 | the author's provider is filed under every role named in its `authorRole` slot, or under the unknown role when the slot is absent |
| Providers.AuthorStepWellFormed | api/src/main/java/org/openmrs/module/xdsbrepository/impl/XDSbServiceImpl.java:776-814 | one author classification keeps the gathering well formed (every set non-empty) |
| Providers.ProvidersByRole | api/src/main/java/org/openmrs/module/xdsbrepository/impl/XDSbServiceImpl.java:769-817 | the whole gathering only appends roles and providers and only grows sets |
| Providers.FiledStable | api/src/main/java/org/openmrs/module/xdsbrepository/impl/XDSbServiceImpl.java:776-814 | an author's provider filed under its roles (or the unknown role) stays filed as roles and sets grow |
| Providers.ProvidersByRoleFiles | api/src/main/java/org/openmrs/module/xdsbrepository/impl/XDSbServiceImpl.java:776-814 | after a successful gathering, the provider each author classification chose is in the set of every role its `authorRole` slot names, or in the unknown role's set when it has no such slot |
| Providers.ProvidersByRoleWellFormed | api/src/main/java/org/openmrs/module/xdsbrepository/impl/XDSbServiceImpl.java:769-817 | every value of the result map is a non-empty set keyed by a stored role |
| Providers.ByRoleErrorSticks | api/src/main/java/org/openmrs/module/xdsbrepository/impl/XDSbServiceImpl.java:776-814 | once an author fails, the gathering's result is that failure |
| Providers.EveryNamedRoleIsKey | api/src/main/java/org/openmrs/module/xdsbrepository/impl/XDSbServiceImpl.java:780-803 | every role name in any author's `authorRole` slot is a key of the result map |
| Providers.LastAuthorKeyed | api/src/main/java/org/openmrs/module/xdsbrepository/impl/XDSbServiceImpl.java:780-803 | a role named by the last author is a key after its step |
| Providers.KeyedStable | api/src/main/java/org/openmrs/module/xdsbrepository/impl/XDSbServiceImpl.java:776-814 | a key stays a key as roles and sets grow |
| Providers.UnknownRoleUsed | api/src/main/java/org/openmrs/module/xdsbrepository/impl/XDSbServiceImpl.java:804-813 | when some author has no `authorRole` slot, the unknown role is a key of the result |
| Providers.ProviderRegistry.FindOrCreateProvider | api/src/main/java/org/openmrs/module/xdsbrepository/impl/XDSbServiceImpl.java:841-872 | returns the id `ChooseProvider` picks and stores a created provider; on error nothing is stored |
| Providers.ProviderRegistry.FileUnderRoles | api/src/main/java/org/openmrs/module/xdsbrepository/impl/XDSbServiceImpl.java:784-803 | the map and role table after the inner loop are those of `RolesFold` |
| Providers.ProviderRegistry.GatherAuthor | api/src/main/java/org/openmrs/module/xdsbrepository/impl/XDSbServiceImpl.java:777-813 | outcome, map, roles and providers are those of `AuthorStep` |
| Providers.ProviderRegistry.GatherAuthors | api/src/main/java/org/openmrs/module/xdsbrepository/impl/XDSbServiceImpl.java:776-814 | outcome, map, roles and providers are those of `ProvidersByRole` |
| Providers.ProviderRegistry.FindOrCreateProvidersByRole | api/src/main/java/org/openmrs/module/xdsbrepository/impl/XDSbServiceImpl.java:769-817 | a repeated slot name in an author classification fails with nothing changed; otherwise the result is that of `ProvidersByRole` over the author slot maps, and on success every author's provider is filed under its roles or the unknown role |
| RoleProviderMap.JoinProviderIds | api/src/main/java/org/openmrs/module/xdsbrepository/impl/XDSbServiceImpl.java:488-494 | a null provider is a null dereference; otherwise the ids joined by `,` with no trailing separator |
| RoleProviderMap.StringifyRoleProvidersMap | api/src/main/java/org/openmrs/module/xdsbrepository/impl/XDSbServiceImpl.java:481-500 | a null provider is a null dereference; otherwise `role:p,p|role:p` over the entries in order |
| RoleProviderMap.SerializeSegments | api/src/main/java/org/openmrs/module/xdsbrepository/impl/XDSbServiceImpl.java:481-500 | an empty map gives `""`; n roles give n-1 `|` and the segments, in order, when split on `|` |
| RoleProviderMap.IdListAvoids | api/src/main/java/org/openmrs/module/xdsbrepository/impl/XDSbServiceImpl.java:488-494 | a joined id list contains no `:` or `|`, and no single id contains `,` |
| RoleProviderMap.ParseSegmentOf | api/src/main/java/org/openmrs/module/xdsbrepository/impl/XDSbServiceImpl.java:485-495 | one `role:ids` segment parses back to its role and ids |
| RoleProviderMap.SerializeRoundTrip | api/src/main/java/org/openmrs/module/xdsbrepository/impl/XDSbServiceImpl.java:481-500 | parsing the serialised map gives back every role and its provider ids, in order, when every role has a provider |
| EncounterContext.EncounterTypeUuid | api/src/main/java/org/openmrs/module/xdsbrepository/impl/XDSbServiceImpl.java:514-521 | `/`-segment 2 of the entry id, or `""` when there is none; never contains `/` |
| EncounterContext.FormUuid | api/src/main/java/org/openmrs/module/xdsbrepository/impl/XDSbServiceImpl.java:743-747 | `/`-segment 3 of the entry id; none exactly when Java's `split` gives fewer than 4 segments (trailing empties dropped) |
| EncounterContext.SegmentsBeyond | api/src/main/java/org/openmrs/module/xdsbrepository/impl/XDSbServiceImpl.java:743-744 | Java's `split` has more than k pieces iff some piece at k or later is non-empty |
| EncounterContext.EntryIdSegments | api/src/main/java/org/openmrs/module/xdsbrepository/impl/XDSbServiceImpl.java:514-521 | for an id built from `/`-free segments, the type uuid is segment 2 and the form uuid segment 3 |
| EncounterContext.CdaEncounterUuid | api/src/main/java/org/openmrs/module/xdsbrepository/impl/XDSbServiceImpl.java:625-630 | an extension without `/` is kept; a compound one yields its second segment, unless Java's `split` leaves one piece; the result has a `/` only when unchanged |
| EncounterContext.NotBlankWithSlash | api/src/main/java/org/openmrs/module/xdsbrepository/impl/XDSbServiceImpl.java:625 | a string containing `/` is not blank |
| EncounterContext.CdaEncounterUuidIdempotent | api/src/main/java/org/openmrs/module/xdsbrepository/impl/XDSbServiceImpl.java:625-630 | extracting twice is the same as once |
| EncounterContext.GetAuthorInstitutionSlot | api/src/main/java/org/openmrs/module/xdsbrepository/impl/XDSbServiceImpl.java:599-608 | with no author classification it is a null dereference; otherwise the last `authorInstitution` slot of the first author, none exactly when it has none |
| EncounterContext.GetLocationCodeFromSlot | api/src/main/java/org/openmrs/module/xdsbrepository/impl/XDSbServiceImpl.java:661-670 | an empty value list gives `""`; a value without `^` is returned as is; otherwise `^`-component 9, and an index error when `split` leaves fewer than 10 |
| EncounterContext.XonLocationCode | api/src/main/java/org/openmrs/module/xdsbrepository/impl/XDSbServiceImpl.java:661-670 | an XON with a non-empty component 9 yields that component |
| EncounterContext.ClampToNow | api/src/main/java/org/openmrs/module/xdsbrepository/impl/XDSbServiceImpl.java:588-589 | the result is the earlier of the date and now: never later than either, and the date itself iff it is not after now |
| EncounterContext.ChooseEncounterType | api/src/main/java/org/openmrs/module/xdsbrepository/impl/XDSbServiceImpl.java:509-540 | the first type with the id's uuid, else the first type named after the class code, else a new type with that uuid and name |
| EncounterContext.EncounterTypeFoundAgain | api/src/main/java/org/openmrs/module/xdsbrepository/impl/XDSbServiceImpl.java:509-540 | a type just created is found by the next identical lookup |
| EncounterContext.ChooseForm | api/src/main/java/org/openmrs/module/xdsbrepository/impl/XDSbServiceImpl.java:742-759 | no form when the id has no segment 3; else the first form with that uuid, else a new form named and identified by it |
| EncounterContext.ChooseLocation | api/src/main/java/org/openmrs/module/xdsbrepository/impl/XDSbServiceImpl.java:672-697 | the first location whose site-code attribute equals the code, else a new location named by the code that carries it |
| EncounterContext.SoftwareVersionOf | api/src/main/java/org/openmrs/module/xdsbrepository/impl/XDSbServiceImpl.java:707-726 | none exactly when no attribute has the software-version type |
| EncounterContext.WithSoftwareVersion | api/src/main/java/org/openmrs/module/xdsbrepository/impl/XDSbServiceImpl.java:707-726 | afterwards the version reads back; a missing attribute is appended; an existing one is updated and all other attributes are kept |
| EncounterContext.SoftwareVersionReplaces | api/src/main/java/org/openmrs/module/xdsbrepository/impl/XDSbServiceImpl.java:707-726 | setting a version and then another is the same as setting the second alone |
| EncounterContext.ServiceStartTime | api/src/main/java/org/openmrs/module/xdsbrepository/impl/XDSbServiceImpl.java:576-578 | the first value of the `serviceStartTime` slot; a missing slot is a null dereference, an empty one an index error, and a repeated slot name an error |
| EncounterContext.ContextRegistry.FindOrCreateEncounterType | api/src/main/java/org/openmrs/module/xdsbrepository/impl/XDSbServiceImpl.java:509-540 | no class code is a null dereference; otherwise returns and stores what `ChooseEncounterType` decides |
| EncounterContext.ContextRegistry.FindOrCreateForm | api/src/main/java/org/openmrs/module/xdsbrepository/impl/XDSbServiceImpl.java:742-759 | returns and stores what `ChooseForm` decides |
| EncounterContext.ContextRegistry.FindOrCreateLocation | api/src/main/java/org/openmrs/module/xdsbrepository/impl/XDSbServiceImpl.java:651-697 | a bad location code fails with nothing stored; otherwise returns and stores what `ChooseLocation` decides |
| EncounterContext.ContextRegistry.SetSoftwareVersionForLocation | api/src/main/java/org/openmrs/module/xdsbrepository/impl/XDSbServiceImpl.java:699-726 | only that location's attributes change, by `WithSoftwareVersion` |
| EncounterContext.ContextRegistry.PlaceEncounter | api/src/main/java/org/openmrs/module/xdsbrepository/impl/XDSbServiceImpl.java:576-582 | the time slot, institution and location code are checked in that order; on success it returns the time text and a stored location carrying the entry's software version |
| EncounterContext.ContextRegistry.CreateNewEncounter | api/src/main/java/org/openmrs/module/xdsbrepository/impl/XDSbServiceImpl.java:570-597 | the errors of `PlaceEncounter` in its order, then an unparseable time, which is a `ParseException` (a repository error, not a metadata error); a new encounter's time is the clamp of the parsed time, its uuid is the given one iff not blank, its location is stored with the version, and it has a form iff the id has segment 3 |
| EncounterContext.ContextRegistry.FindOrCreateEncounter | api/src/main/java/org/openmrs/module/xdsbrepository/impl/XDSbServiceImpl.java:542-558 | a non-blank uuid already stored returns the first encounter with it; otherwise the outcome is exactly that of `CreateNewEncounter` with the document's uuid (or `""`): the same errors in the same order, or a new encounter with its time, uuid, versioned location and form; a new encounter never reuses a stored uuid |
| IngestionQueue.NextQueued | api/src/main/java/org/openmrs/module/xdsbrepository/impl/XDSbServiceImpl.java:1222-1231 | the earliest queued item; none exactly when no item is queued |
| IngestionQueue.CountQueuedUpdate | api/src/main/java/org/openmrs/module/xdsbrepository/impl/XDSbServiceImpl.java:1222-1243 | changing one item's status changes the waiting count by that change alone |
| IngestionQueue.DequeueMovesOn | api/src/main/java/org/openmrs/module/xdsbrepository/impl/XDSbServiceImpl.java:1222-1231 | a dequeue lowers the waiting count by one, and the next dequeue picks a later item or none |
| IngestionQueue.DiscreteDataQueue.Queue | api/src/main/java/org/openmrs/module/xdsbrepository/impl/XDSbServiceImpl.java:1214-1218 | the item is appended with status QUEUED and the add time; the waiting count grows by one |
| IngestionQueue.DiscreteDataQueue.Dequeue | api/src/main/java/org/openmrs/module/xdsbrepository/impl/XDSbServiceImpl.java:1222-1231 | none exactly when nothing is queued (then nothing changes); otherwise the earliest queued item becomes PROCESSING with the update time, and only it changes |
| IngestionQueue.DiscreteDataQueue.Complete | api/src/main/java/org/openmrs/module/xdsbrepository/impl/XDSbServiceImpl.java:1235-1243 | status SUCCESSFUL iff `successful`, else FAILED, with the update time; a stored item is replaced in place, an unknown one appended; the waiting count never grows |
| Submission.GetDocumentUniqueId | api/src/main/java/org/openmrs/module/xdsbrepository/impl/XDSbServiceImpl.java:330-343 | fails with the duplicate-id error exactly when the unique id already has a content handler; otherwise returns the unique id |
| Submission.RegisteredIdsAreDuplicates | api/src/main/java/org/openmrs/module/xdsbrepository/impl/XDSbServiceImpl.java:144-150 | after a successful registration, a document with one of the registered ids is refused as a duplicate |
| Submission.ProcessOutcome | api/src/main/java/org/openmrs/module/xdsbrepository/impl/XDSbServiceImpl.java:257-270 | errors in the order metadata, duplicate id, content object, content check; on success the metadata and content checks pass, the id is the entry's unique id, not yet registered, and the payload is the entry's document |
| Submission.ProcessedEntryValidates | api/src/main/java/org/openmrs/module/xdsbrepository/impl/XDSbServiceImpl.java:264-267 | a processed entry's filled-in slots pass the content check again |
| Submission.ProcessDocumentMetadata | api/src/main/java/org/openmrs/module/xdsbrepository/impl/XDSbServiceImpl.java:257-270 | on error the entry's slots are untouched; on success it returns the unique id and the slots gain the hash and size slots |
| Submission.EventFor | api/src/main/java/org/openmrs/module/xdsbrepository/impl/XDSbServiceImpl.java:1254-1262 | ITI-61 exactly when some entry is not a stable document entry, ITI-42 otherwise |
| Submission.EventForSnoc | api/src/main/java/org/openmrs/module/xdsbrepository/impl/XDSbServiceImpl.java:1259-1262 | the event after one more entry, as the loop computes it |
| Submission.PatchIdempotent | api/src/main/java/org/openmrs/module/xdsbrepository/impl/XDSbServiceImpl.java:1264-1268 | patching the repository id twice is the same as patching it once |
| Submission.DocumentRepository.PatchEntries | api/src/main/java/org/openmrs/module/xdsbrepository/impl/XDSbServiceImpl.java:1259-1275 | every entry's slots get the repository unique id overwritten or added, and the event code is `EventFor` |
| Submission.DocumentRepository.SendMetadataToRegistry | api/src/main/java/org/openmrs/module/xdsbrepository/impl/XDSbServiceImpl.java:1249-1300 | every entry then reads the repository unique id; an unreachable registry is REG_NOT_AVAIL; otherwise the registry's answer is returned |
| Submission.DocumentRepository.RegisterDocuments | api/src/main/java/org/openmrs/module/xdsbrepository/impl/XDSbServiceImpl.java:137-155 | the handler of every id is recorded iff the registry answered with the success status; otherwise the handlers are unchanged |
| Submission.DocumentRepository.RegisterDocument | api/src/main/java/org/openmrs/module/xdsbrepository/impl/XDSbServiceImpl.java:121-133 | the one handler is recorded iff the registry answered with the success status |

## Left out

- `provideAndRegisterDocumentSetB` (lines 166-219) and `storeDocument` (410-472) are left out. They only chain the modelled steps, and their remaining work calls content handlers (`saveContent`, CDA import, HL7 parsing) that are not part of this model.
- The SOAP call to the registry, its port factory and the audit logging are left out. The registry's answer is an input.
- `getRegistryUrl` and its `MalformedURLException` are left out. The repository unique id global property is a constructor parameter of `DocumentRepository`.
- The `JAXBException` that `addOrOverwriteSlot` may raise and the service ignores is not modelled.
- `getDocumentHandlerClass` and its `ClassNotFoundException` are not modelled. The handler registry (the DAO) is a map from unique id to handler name.
- The XML/XPath and HL7 parsing that extract the encounter uuid from a payload are left out. Only the string post-processing (`CdaEncounterUuid`) is modelled.
- `getSoftwareVersionAttributeType` (728-740) is not modelled: the attribute type is a constructor parameter.
- SHA-1, `SimpleDateFormat` and the clock are parameters. Leniency of date parsing is whatever the supplied function does.
- Transactions are not modelled. An error part way leaves earlier creations (identifier types, roles, providers, locations) in the stores, as the model's state shows. A rollback would undo them.
- Stored entities are values held by index, not shared objects, so aliasing between a returned entity and the store is not captured.
- Java `HashMap`/`HashSet` iteration order is not captured. `stringifyRoleProvidersMap` takes the role entries and each role's providers as sequences in iteration order.
- Providers in a role's set are identified by id. `Set<Provider>` equality by object identity is not modelled.
- Case folding, whitespace and digits are ASCII only: `equalsIgnoreCase` for the hash, the CDA format code and the gender codes, `StringUtils.isNotBlank`, and `Integer.parseInt` for the size slot. Java's `parseInt` also accepts any Unicode decimal digit (through `Character.digit`); the model rejects such a size as not a number.
- A person's display name (`getName()`) used by the provider name scan is given + " " + family.
- Retired roles, providers, types and locations are not modelled. Lookups see every stored record.
- The unknown encounter role is the OpenMRS core role with uuid `EncounterRole.UNKNOWN_ENCOUNTER_ROLE_UUID`. It is assumed to be in the role store, and its position there is a constructor parameter of `ProviderRegistry`.
- Random uuids the OpenMRS stores assign are not modelled. Records are numbered by position.
- The DAO's queue is a FIFO of items numbered by position. Its persistence is not modelled.
- `InfosetUtil` and the `Identifier` CX parser are not part of this model. The behaviour assumed for them is stated above.
- Integrity.FillingIdempotent: proved only for slot lists whose first hash and size slots carry a value. A present slot with an empty value list reads as missing, so filling would append a second slot each time.
- Providers.ProvidersByRole: its own contract states only growth. Where each author's provider is filed is stated by `ProvidersByRoleFiles`, and that every set is non-empty by `ProvidersByRoleWellFormed`.
- `Patient.addIdentifier` is not part of this model. `AddIdentifier` assumes it drops an identifier equal in value, type and location to one the patient has, and appends any other.
- Patients.FinishPatient: names and addresses are sequences in insertion order. OpenMRS keeps them in sorted sets, so their iteration order and the merging of equal names or addresses are not modelled.
- Patients.IntakeStep: the same holds for the names and addresses each step appends.

=== FILE: encounter.dfy ===
/**
 * The encounter context read off a document entry: its encounter type and form
 * from the `/`-segments of the entry id, the location from the author
 * institution, the software version recorded on that location, and the
 * encounter time, which never lies in the future.
 */
module EncounterContext {

  import opened Outcomes
  import opened Text
  import opened Entries

  /** The encounter type uuid: `/`-segment 2 of the entry id, or "" when the id
      has no such segment. */
  function EncounterTypeUuid(entryId: string): (r: string)
    ensures r == FieldOr(SplitAll(entryId, '/'), 2)
    ensures '/' !in r
  {
    SplitJavaFieldOr(entryId, '/', 2);
    SplitAllFields(entryId, '/');
    var segs := SplitJava(entryId, '/');
    if |segs| > 2 then segs[2] else ""
  }

  /** The form uuid: `/`-segment 3 of the entry id; there is no form when Java's
      split yields fewer than four segments, that is when every field from the
      fourth on is empty. */
  function FormUuid(entryId: string): (r: Option<string>)
    ensures r.None? <==> forall k :: 3 <= k < |SplitAll(entryId, '/')| ==> SplitAll(entryId, '/')[k] == ""
    ensures r.Some? ==> 3 < |SplitAll(entryId, '/')| && r.value == SplitAll(entryId, '/')[3]
  {
    SplitJavaFieldOr(entryId, '/', 3);
    SegmentsBeyond(entryId, '/', 3);
    var segs := SplitJava(entryId, '/');
    if |segs| < 4 then None else Some(segs[3])
  }

  /** Java's split has more than `k` fields (for `k` at least 1) exactly when
      a field from `k` on is non-empty. */
  lemma SegmentsBeyond(s: string, d: char, k: nat)
    requires k >= 1
    ensures |SplitJava(s, d)| > k <==> exists j :: k <= j < |SplitAll(s, d)| && SplitAll(s, d)[j] != ""
  {
    if d in s {
      SplitJavaLength(s, d, k);
    } else {
      SplitAllNoDelimiter(s, d);
    }
  }

  /** An entry id made of at least four `/`-separated segments yields segment 2
      as encounter type uuid and a non-empty segment 3 as form uuid. */
  lemma EntryIdSegments(segments: seq<string>)
    requires |segments| >= 4 && segments[3] != ""
    requires forall k :: 0 <= k < |segments| ==> '/' !in segments[k]
    ensures EncounterTypeUuid(JoinWith(segments, '/')) == segments[2]
    ensures FormUuid(JoinWith(segments, '/')) == Some(segments[3])
  {
    SplitAllJoin(segments, '/');
  }

  /** Java whitespace in the ASCII range: space, tab to carriage return, and the
      four separators 0x1C to 0x1F. */
  predicate JavaWhitespace(c: char)
  {
    c == ' ' || (9 <= c as int <= 13) || (28 <= c as int <= 31)
  }

  /** `StringUtils.isNotBlank`. */
  predicate IsNotBlank(s: string)
  {
    exists k :: 0 <= k < |s| && !JavaWhitespace(s[k])
  }

  /** The post-processing of the CDA id extension: a compound id keeps its second
      `/`-segment, when Java's split yields one. */
  function CdaEncounterUuid(extension: string): (r: string)
    ensures '/' !in extension ==> r == extension
    ensures '/' in extension && (exists k :: 1 <= k < |SplitAll(extension, '/')| && SplitAll(extension, '/')[k] != "") ==>
              r == SplitAll(extension, '/')[1]
    ensures '/' in extension && (forall k :: 1 <= k < |SplitAll(extension, '/')| ==> SplitAll(extension, '/')[k] == "") ==>
              r == extension
    ensures '/' in r ==> r == extension
  {
    if IsNotBlank(extension) && '/' in extension then
      SplitJavaLength(extension, '/', 1);
      SplitJavaFieldOr(extension, '/', 1);
      SplitAllFields(extension, '/');
      var ids := SplitJava(extension, '/');
      if |ids| > 1 then ids[1] else extension
    else
      NotBlankWithSlash(extension);
      extension
  }

  /** A string holding `/` is never blank, so the blank test of the
      post-processing only matters for strings without one. */
  lemma NotBlankWithSlash(s: string)
    ensures '/' in s ==> IsNotBlank(s)
  {
    if '/' in s {
      var k :| 0 <= k < |s| && s[k] == '/';
      assert !JavaWhitespace(s[k]);
    }
  }

  /** The post-processing is idempotent: its result is never compound again, or
      is the unchanged extension. */
  lemma CdaEncounterUuidIdempotent(extension: string)
    ensures CdaEncounterUuid(CdaEncounterUuid(extension)) == CdaEncounterUuid(extension)
  {
  }

  /** `getAuthorInstitutionSlot`: the last authorInstitution slot of the first
      author classification; without an author classification the scan
      dereferences null. */
  function GetAuthorInstitutionSlot(cls: seq<Classification>): (r: Result<Option<Slot>>)
    ensures r.Err? <==> GetClassificationFromExtrinsicObject(cls, AuthorScheme).None?
    ensures r.Err? ==> r.error == Runtime(NullPointer)
    ensures r.Ok? ==>
              var slots := GetClassificationFromExtrinsicObject(cls, AuthorScheme).value.slots;
              (r.value.None? <==> forall k :: 0 <= k < |slots| ==> slots[k].name != SlotAuthorInstitution) &&
              (r.value.Some? ==> exists k :: 0 <= k < |slots| && slots[k] == r.value.value &&
                                   r.value.value.name == SlotAuthorInstitution &&
                                   forall j :: k < j < |slots| ==> slots[j].name != SlotAuthorInstitution)
  {
    match GetClassificationFromExtrinsicObject(cls, AuthorScheme)
    case None => Err(Runtime(NullPointer))
    case Some(c) =>
      match LastIndex(c.slots, (s: Slot) => s.name == SlotAuthorInstitution)
      case None => Ok(None)
      case Some(i) => Ok(Some(c.slots[i]))
  }

  /** `getLocationCodeFromSlot`: "" for an empty slot; the first value as is when
      it holds no `^`; otherwise its `^`-component 9 (the organization
      identifier of an XON), which Java's split must reach. */
  function GetLocationCodeFromSlot(slot: Slot): (r: Result<string>)
    ensures |slot.values| == 0 ==> r == Ok("")
    ensures |slot.values| > 0 && '^' !in slot.values[0] ==> r == Ok(slot.values[0])
    ensures r.Err? <==> |slot.values| > 0 && '^' in slot.values[0] &&
                        forall k :: 9 <= k < |SplitAll(slot.values[0], '^')| ==> SplitAll(slot.values[0], '^')[k] == ""
    ensures r.Err? ==> r.error == Runtime(IndexOutOfBounds)
    ensures r.Ok? && |slot.values| > 0 && '^' in slot.values[0] ==>
              9 < |SplitAll(slot.values[0], '^')| && r.value == SplitAll(slot.values[0], '^')[9]
  {
    if |slot.values| == 0 then Ok("")
    else
      var code := slot.values[0];
      if '^' !in code then Ok(code)
      else
        SplitJavaLength(code, '^', 9);
        SplitJavaFieldOr(code, '^', 9);
        var comps := SplitJava(code, '^');
        if |comps| > 9 then Ok(comps[9]) else Err(Runtime(IndexOutOfBounds))
  }

  /** An XON whose tenth component is filled yields that component as the
      location code. */
  lemma XonLocationCode(slot: Slot, components: seq<string>)
    requires |slot.values| > 0 && slot.values[0] == JoinWith(components, '^')
    requires |components| >= 10 && components[9] != ""
    requires forall k :: 0 <= k < |components| ==> '^' !in components[k]
    ensures GetLocationCodeFromSlot(slot) == Ok(components[9])
  {
    SplitAllJoin(components, '^');
    SplitAllFields(slot.values[0], '^');
    assert '^' in slot.values[0] by {
      if '^' !in slot.values[0] {
        SplitAllNoDelimiter(slot.values[0], '^');
      }
    }
  }

  /** The encounter time as stored: the parsed service start time, moved back to
      now when it lies in the future. */
  function ClampToNow(date: int, now: int): (r: int)
    ensures r <= now && r <= date
    ensures r == date || r == now
    ensures date <= now <==> r == date
  {
    if date > now then now else date
  }

  /** An encounter type; a type created without a uuid from the entry id gets a
      generated one, represented by `None`. */
  datatype EncounterType = EncounterType(id: nat, uuid: Option<string>, name: string)

  /** A form, identified by its uuid. */
  datatype Form = Form(id: nat, uuid: string, name: string, version: string)

  const FormVersion := "1"

  /** A location attribute: its attribute type (by uuid) and value. */
  datatype LocationAttribute = LocationAttribute(attributeType: string, value: string)

  datatype Location = Location(id: nat, name: string, attributes: seq<LocationAttribute>)

  /** An encounter as `createNewEncounter` assembles it (it is not saved there). */
  datatype Encounter = Encounter(uuid: Option<string>, location: nat, datetime: int, form: Option<nat>)

  /** Either a stored record (by id) or a new one to be saved. */
  datatype Choice<T> = Existing(id: nat) | New(record: T)

  /** Find the encounter type by the id's uuid (when there is one), then by the
      class code as name, or create one named after the class code. */
  function ChooseEncounterType(types: seq<EncounterType>, uuid: string, classCode: string): (r: Choice<EncounterType>)
    ensures r.Existing? ==> r.id < |types|
    ensures r.Existing? && uuid != "" && (exists k :: 0 <= k < |types| && types[k].uuid == Some(uuid)) ==>
              types[r.id].uuid == Some(uuid) && forall j :: 0 <= j < r.id ==> types[j].uuid != Some(uuid)
    ensures r.Existing? && (uuid == "" || forall k :: 0 <= k < |types| ==> types[k].uuid != Some(uuid)) ==>
              types[r.id].name == classCode && forall j :: 0 <= j < r.id ==> types[j].name != classCode
    ensures r.New? <==> (uuid == "" || forall k :: 0 <= k < |types| ==> types[k].uuid != Some(uuid)) &&
                        forall k :: 0 <= k < |types| ==> types[k].name != classCode
    ensures r.New? ==> r.record == EncounterType(|types|, if uuid == "" then None else Some(uuid), classCode)
  {
    var byUuid := if uuid == "" then None else FirstIndex(types, (t: EncounterType) => t.uuid == Some(uuid));
    if byUuid.Some? then Existing(byUuid.value)
    else
      match FirstIndex(types, (t: EncounterType) => t.name == classCode)
      case Some(i) => Existing(i)
      case None => New(EncounterType(|types|, if uuid == "" then None else Some(uuid), classCode))
  }

  /** A second entry with the same id and class code finds the type the first
      one created. */
  lemma EncounterTypeFoundAgain(types: seq<EncounterType>, uuid: string, classCode: string)
    requires ChooseEncounterType(types, uuid, classCode).New?
    ensures var t := ChooseEncounterType(types, uuid, classCode).record;
            ChooseEncounterType(types + [t], uuid, classCode) == Existing(|types|)
  {
    var t := ChooseEncounterType(types, uuid, classCode).record;
    var all := types + [t];
    assert all[|types|] == t;
    assert forall k :: 0 <= k < |types| ==> all[k] == types[k];
  }

  /** Find the form whose uuid is the id's segment 3, or create one under that
      uuid; no segment 3 means no form. */
  function ChooseForm(forms: seq<Form>, entryId: string): (r: Option<Choice<Form>>)
    ensures r.None? <==> FormUuid(entryId).None?
    ensures r.Some? && r.value.Existing? ==>
              r.value.id < |forms| && forms[r.value.id].uuid == FormUuid(entryId).value &&
              forall j :: 0 <= j < r.value.id ==> forms[j].uuid != FormUuid(entryId).value
    ensures r.Some? && r.value.New? ==>
              (forall k :: 0 <= k < |forms| ==> forms[k].uuid != FormUuid(entryId).value) &&
              r.value.record == Form(|forms|, FormUuid(entryId).value, FormUuid(entryId).value, FormVersion)
  {
    match FormUuid(entryId)
    case None => None
    case Some(formId) =>
      match FirstIndex(forms, (f: Form) => f.uuid == formId)
      case Some(i) => Some(Existing(i))
      case None => Some(New(Form(|forms|, formId, formId, FormVersion)))
  }

  /** Whether a location carries the site-code attribute with this value. */
  predicate HasSiteCode(loc: Location, lookupType: string, code: string)
  {
    LocationAttribute(lookupType, code) in loc.attributes
  }

  /** Find the location by its site-code attribute, or create one named after
      the code and carrying it. */
  function ChooseLocation(locations: seq<Location>, lookupType: string, code: string): (r: Choice<Location>)
    ensures r.Existing? ==> r.id < |locations| && HasSiteCode(locations[r.id], lookupType, code) &&
                            forall j :: 0 <= j < r.id ==> !HasSiteCode(locations[j], lookupType, code)
    ensures r.New? <==> forall k :: 0 <= k < |locations| ==> !HasSiteCode(locations[k], lookupType, code)
    ensures r.New? ==> r.record == Location(|locations|, code, [LocationAttribute(lookupType, code)]) &&
                       HasSiteCode(r.record, lookupType, code)
  {
    match FirstIndex(locations, (l: Location) => HasSiteCode(l, lookupType, code))
    case Some(i) => Existing(i)
    case None => New(Location(|locations|, code, [LocationAttribute(lookupType, code)]))
  }

  /** Position of the first attribute of the software-version type. */
  function VersionIndex(attrs: seq<LocationAttribute>, versionType: string): Option<nat>
  {
    FirstIndex(attrs, (a: LocationAttribute) => a.attributeType == versionType)
  }

  /** The version recorded in the attributes: that of the first attribute of the
      software-version type. */
  function SoftwareVersionOf(attrs: seq<LocationAttribute>, versionType: string): (r: Option<string>)
    ensures r.None? <==> forall k :: 0 <= k < |attrs| ==> attrs[k].attributeType != versionType
  {
    match VersionIndex(attrs, versionType)
    case None => None
    case Some(i) => Some(attrs[i].value)
  }

  /** The attributes after recording a software version: the first attribute
      of the software-version type takes the value, or one is added; every
      other attribute stays. */
  function WithSoftwareVersion(attrs: seq<LocationAttribute>, versionType: string, version: string): (r: seq<LocationAttribute>)
    ensures SoftwareVersionOf(r, versionType) == Some(version)
    ensures SoftwareVersionOf(attrs, versionType).None? ==> r == attrs + [LocationAttribute(versionType, version)]
    ensures SoftwareVersionOf(attrs, versionType).Some? ==>
              |r| == |attrs| && forall k :: 0 <= k < |attrs| && k != VersionIndex(attrs, versionType).value ==> r[k] == attrs[k]
  {
    match VersionIndex(attrs, versionType)
    case Some(i) =>
      var r := attrs[i := LocationAttribute(versionType, version)];
      assert forall j :: 0 <= j < i ==> r[j] == attrs[j];
      FirstIndexAt(r, (a: LocationAttribute) => a.attributeType == versionType, i);
      r
    case None =>
      var r := attrs + [LocationAttribute(versionType, version)];
      assert forall j :: 0 <= j < |attrs| ==> r[j] == attrs[j];
      FirstIndexAt(r, (a: LocationAttribute) => a.attributeType == versionType, |attrs|);
      r
  }

  /** Recording a version twice is recording the second one: the later version
      replaces the earlier instead of adding an attribute. */
  lemma SoftwareVersionReplaces(attrs: seq<LocationAttribute>, versionType: string, v1: string, v2: string)
    ensures WithSoftwareVersion(WithSoftwareVersion(attrs, versionType, v1), versionType, v2) ==
            WithSoftwareVersion(attrs, versionType, v2)
  {
    var once := WithSoftwareVersion(attrs, versionType, v1);
    match VersionIndex(attrs, versionType)
    case Some(i) =>
      assert forall j :: 0 <= j < i ==> once[j] == attrs[j];
      FirstIndexAt(once, (a: LocationAttribute) => a.attributeType == versionType, i);
    case None =>
      assert forall j :: 0 <= j < |attrs| ==> once[j] == attrs[j];
      FirstIndexAt(once, (a: LocationAttribute) => a.attributeType == versionType, |attrs|);
  }

  /** The service start time as `createNewEncounter` reads it: through the map
      of slots by name (which refuses a repeated name), dereferencing the slot
      and taking its first value. With distinct names this is the first value
      of the first slot so named. */
  function ServiceStartTime(slots: seq<Slot>): (r: Result<string>)
    ensures r.Ok? <==> DistinctNames(slots) && GetSlotValue(slots, SlotServiceStartTime).Some?
    ensures r.Ok? ==> r.value == GetSlotValue(slots, SlotServiceStartTime).value
    ensures DistinctNames(slots) && FindSlot(slots, SlotServiceStartTime).None? ==> r == Err(Runtime(NullPointer))
    ensures (DistinctNames(slots) && FindSlot(slots, SlotServiceStartTime).Some? &&
             |FindSlot(slots, SlotServiceStartTime).value.values| == 0) ==> r == Err(Runtime(IndexOutOfBounds))
    ensures !DistinctNames(slots) ==> r.Err? && r.error.SlotNameNotUnique?
  {
    match SlotsByName(slots)
    case Err(e) => Err(e)
    case Ok(byName) =>
      if SlotServiceStartTime !in byName then Err(Runtime(NullPointer))
      else if |byName[SlotServiceStartTime].values| == 0 then Err(Runtime(IndexOutOfBounds))
      else Ok(byName[SlotServiceStartTime].values[0])
  }

  /** The encounter types, forms and locations the repository keeps. */
  class ContextRegistry {
    var encounterTypes: seq<EncounterType>
    var forms: seq<Form>
    var locations: seq<Location>
    /** The stored encounters, only looked up here. */
    var encounters: seq<Encounter>
    /** The uuid of the attribute type holding a location's site code. */
    const lookupAttributeType: string
    /** The uuid of the attribute type holding the sending software's version. */
    const softwareVersionType: string

    ghost predicate Valid()
      reads this
    {
      (forall k :: 0 <= k < |encounterTypes| ==> encounterTypes[k].id == k) &&
      (forall k :: 0 <= k < |forms| ==> forms[k].id == k) &&
      (forall k :: 0 <= k < |locations| ==> locations[k].id == k)
    }

    constructor(lookupType: string, versionType: string)
      ensures Valid()
      ensures encounterTypes == [] && forms == [] && locations == [] && encounters == []
      ensures lookupAttributeType == lookupType && softwareVersionType == versionType
    {
      encounterTypes := [];
      forms := [];
      locations := [];
      encounters := [];
      lookupAttributeType := lookupType;
      softwareVersionType := versionType;
    }

    /** `findOrCreateEncounterType`: the class code is read from the first
        classCode classification, which must exist. */
    method FindOrCreateEncounterType(eot: DocumentEntry) returns (r: Result<nat>)
      requires Valid()
      modifies this
      ensures Valid() && forms == old(forms) && locations == old(locations) && encounters == old(encounters)
      ensures var cc := GetClassificationFromExtrinsicObject(eot.classifications, ClassCodeScheme);
              (cc.None? ==> r == Err(Runtime(NullPointer)) && encounterTypes == old(encounterTypes)) &&
              (cc.Some? ==>
                 match ChooseEncounterType(old(encounterTypes), EncounterTypeUuid(eot.id), cc.value.nodeRepresentation)
                 case Existing(id) => r == Ok(id) && encounterTypes == old(encounterTypes)
                 case New(t) => r == Ok(t.id) && encounterTypes == old(encounterTypes) + [t])
    {
      var classCodeCT := GetClassificationFromExtrinsicObject(eot.classifications, ClassCodeScheme);
      if classCodeCT.None? {
        return Err(Runtime(NullPointer));
      }
      var choice := ChooseEncounterType(encounterTypes, EncounterTypeUuid(eot.id), classCodeCT.value.nodeRepresentation);
      match choice {
        case Existing(id) =>
          r := Ok(id);
        case New(t) =>
          encounterTypes := encounterTypes + [t];
          r := Ok(t.id);
      }
    }

    /** `findOrCreateForm`. */
    method FindOrCreateForm(eot: DocumentEntry) returns (r: Option<nat>)
      requires Valid()
      modifies this
      ensures Valid() && encounterTypes == old(encounterTypes) && locations == old(locations) && encounters == old(encounters)
      ensures match ChooseForm(old(forms), eot.id)
              case None => r.None? && forms == old(forms)
              case Some(Existing(id)) => r == Some(id) && forms == old(forms)
              case Some(New(f)) => r == Some(f.id) && forms == old(forms) + [f]
    {
      var choice := ChooseForm(forms, eot.id);
      match choice {
        case None =>
          r := None;
        case Some(Existing(id)) =>
          r := Some(id);
        case Some(New(f)) =>
          forms := forms + [f];
          r := Some(f.id);
      }
    }

    /** `findOrCreateLocation`: the location whose site code is the slot's
        location code. */
    method FindOrCreateLocation(authorInstitution: Slot) returns (r: Result<nat>)
      requires Valid()
      modifies this
      ensures Valid() && encounterTypes == old(encounterTypes) && forms == old(forms) && encounters == old(encounters)
      ensures r.Ok? ==> r.value < |locations|
      ensures match GetLocationCodeFromSlot(authorInstitution)
              case Err(e) => r == Err(e) && locations == old(locations)
              case Ok(code) =>
                match ChooseLocation(old(locations), lookupAttributeType, code)
                case Existing(id) => r == Ok(id) && locations == old(locations)
                case New(l) => r == Ok(l.id) && locations == old(locations) + [l]
    {
      var code := GetLocationCodeFromSlot(authorInstitution);
      if code.Err? {
        return Err(code.error);
      }
      var choice := ChooseLocation(locations, lookupAttributeType, code.value);
      match choice {
        case Existing(id) =>
          r := Ok(id);
        case New(l) =>
          locations := locations + [l];
          r := Ok(l.id);
      }
    }

    /** `setSoftwareVersionForLocation`: scan the location's attributes for the
        software-version type, update the first one found or add one. */
    method SetSoftwareVersionForLocation(loc: nat, version: string)
      requires Valid() && loc < |locations|
      modifies this
      ensures Valid() && encounterTypes == old(encounterTypes) && forms == old(forms) && encounters == old(encounters)
      ensures locations == old(locations)[loc := old(locations)[loc].(attributes :=
                WithSoftwareVersion(old(locations)[loc].attributes, softwareVersionType, version))]
    {
      var attrs := locations[loc].attributes;
      var i := 0;
      while i < |attrs| && attrs[i].attributeType != softwareVersionType
        invariant 0 <= i <= |attrs|
        invariant forall j :: 0 <= j < i ==> attrs[j].attributeType != softwareVersionType
      {
        i := i + 1;
      }
      var updated;
      if i == |attrs| {
        updated := attrs + [LocationAttribute(softwareVersionType, version)];
      } else {
        assert VersionIndex(attrs, softwareVersionType) == Some(i);
        updated := attrs[i := LocationAttribute(softwareVersionType, version)];
      }
      locations := locations[loc := locations[loc].(attributes := updated)];
    }

    /** What `createNewEncounter` yields, against the forms and locations it
        started from: the errors of the time slot, the author institution and
        the location code, in that order, leaving the forms (and, for the first
        two, the locations) unchanged; then an unparseable time; otherwise an
        encounter dated at the parsed time clamped to now, with the given uuid
        iff it is not blank, at a stored location carrying the entry's software
        version, with a form iff the entry id has a form segment. */
    ghost predicate NewEncounterMade(r: Result<Encounter>, eot: DocumentEntry, encounterUuid: string,
                                     parseTime: string -> Option<int>, now: int, forms0: seq<Form>, locations0: seq<Location>)
      reads this, eot
    {
      var t := ServiceStartTime(eot.slots);
      var inst := GetAuthorInstitutionSlot(eot.classifications);
      (t.Err? ==> r == Err(t.error) && forms == forms0 && locations == locations0) &&
      (t.Ok? && inst.Err? ==> r == Err(inst.error) && forms == forms0 && locations == locations0) &&
      (t.Ok? && inst.Ok? && inst.value.None? ==> r == Err(Runtime(NullPointer)) && forms == forms0) &&
      (t.Ok? && inst.Ok? && inst.value.Some? && GetLocationCodeFromSlot(inst.value.value).Err? ==>
         r == Err(GetLocationCodeFromSlot(inst.value.value).error) && forms == forms0) &&
      (t.Ok? && inst.Ok? && inst.value.Some? && GetLocationCodeFromSlot(inst.value.value).Ok? &&
       parseTime(t.value).None? ==>
         r == Err(ServiceStartTimeUnparseable(t.value)) && forms == forms0) &&
      (r.Ok? ==>
         t.Ok? && parseTime(t.value).Some? &&
         r.value.datetime == ClampToNow(parseTime(t.value).value, now) && r.value.datetime <= now &&
         r.value.uuid == (if IsNotBlank(encounterUuid) then Some(encounterUuid) else None) &&
         r.value.location < |locations| &&
         (eot.contentVersion.Some? ==>
            SoftwareVersionOf(locations[r.value.location].attributes, softwareVersionType) == eot.contentVersion) &&
         (r.value.form.None? <==> FormUuid(eot.id).None?))
    }

    /** `createNewEncounter`: the encounter is placed at the author
        institution's location (which records the sending software's version),
        dated at the parsed service start time clamped to now, and given the
        form of the entry id. */
    method CreateNewEncounter(eot: DocumentEntry, encounterUuid: string, parseTime: string -> Option<int>, now: int)
      returns (r: Result<Encounter>)
      requires Valid()
      modifies this
      ensures Valid() && encounterTypes == old(encounterTypes) && encounters == old(encounters)
      ensures old(forms) <= forms && |locations| >= |old(locations)|
      ensures NewEncounterMade(r, eot, encounterUuid, parseTime, now, old(forms), old(locations))
    {
      var placed := PlaceEncounter(eot);
      if placed.Err? {
        return Err(placed.error);
      }
      var (time, location) := placed.value;
      var date := parseTime(time);
      if date.None? {
        return Err(ServiceStartTimeUnparseable(time));
      }
      var form := FindOrCreateForm(eot);
      var uuid := if IsNotBlank(encounterUuid) then Some(encounterUuid) else None;
      r := Ok(Encounter(uuid, location, ClampToNow(date.value, now), form));
    }

    /** The first half of `createNewEncounter`: the service start time is read,
        the location is found or created from the author institution, and the
        entry's content version is recorded on it. */
    method PlaceEncounter(eot: DocumentEntry) returns (r: Result<(string, nat)>)
      requires Valid()
      modifies this
      ensures Valid() && encounterTypes == old(encounterTypes) && encounters == old(encounters) && forms == old(forms)
      ensures |locations| >= |old(locations)|
      ensures var t := ServiceStartTime(eot.slots);
              var inst := GetAuthorInstitutionSlot(eot.classifications);
              (t.Err? ==> r == Err(t.error) && locations == old(locations)) &&
              (t.Ok? && inst.Err? ==> r == Err(inst.error) && locations == old(locations)) &&
              (t.Ok? && inst.Ok? && inst.value.None? ==> r == Err(Runtime(NullPointer))) &&
              (t.Ok? && inst.Ok? && inst.value.Some? && GetLocationCodeFromSlot(inst.value.value).Err? ==>
                 r == Err(GetLocationCodeFromSlot(inst.value.value).error)) &&
              (r.Ok? <==> t.Ok? && inst.Ok? && inst.value.Some? && GetLocationCodeFromSlot(inst.value.value).Ok?) &&
              (r.Ok? ==>
                 r.value.0 == t.value && r.value.1 < |locations| &&
                 (eot.contentVersion.Some? ==>
                    SoftwareVersionOf(locations[r.value.1].attributes, softwareVersionType) == eot.contentVersion))
    {
      var time := ServiceStartTime(eot.slots);
      if time.Err? {
        return Err(time.error);
      }
      var authorInstitution := GetAuthorInstitutionSlot(eot.classifications);
      if authorInstitution.Err? {
        return Err(authorInstitution.error);
      }
      if authorInstitution.value.None? {
        return Err(Runtime(NullPointer));
      }
      var location := FindOrCreateLocation(authorInstitution.value.value);
      if location.Err? {
        return Err(location.error);
      }
      if eot.contentVersion.Some? {
        SetSoftwareVersionForLocation(location.value, eot.contentVersion.value);
      }
      r := Ok((time.value, location.value));
    }

    /** `findOrCreateEncounter`: a stored encounter whose uuid is the one read
        from the document (`None` when there is no document or no id in it),
        or else a new one. */
    method FindOrCreateEncounter(eot: DocumentEntry, documentUuid: Option<string>, parseTime: string -> Option<int>, now: int)
      returns (r: Result<Choice<Encounter>>)
      requires Valid()
      modifies this
      ensures Valid() && encounterTypes == old(encounterTypes) && encounters == old(encounters)
      ensures documentUuid.Some? && IsNotBlank(documentUuid.value) &&
              (exists k :: 0 <= k < |encounters| && encounters[k].uuid == documentUuid) ==>
                r.Ok? && r.value.Existing? && forms == old(forms) && locations == old(locations)
      ensures r.Ok? && r.value.Existing? ==>
                r.value.id < |encounters| && encounters[r.value.id].uuid == documentUuid &&
                forall j :: 0 <= j < r.value.id ==> encounters[j].uuid != documentUuid
      ensures !(documentUuid.Some? && IsNotBlank(documentUuid.value) &&
                (exists k :: 0 <= k < |encounters| && encounters[k].uuid == documentUuid)) ==>
                (r.Ok? ==> r.value.New?) &&
                NewEncounterMade(if r.Err? then Err(r.error) else if r.value.New? then Ok(r.value.record) else Err(Runtime(NullPointer)),
                                 eot, documentUuid.GetOr(""), parseTime, now, old(forms), old(locations))
      ensures r.Ok? && r.value.New? ==>
                r.value.record.datetime <= now &&
                r.value.record.uuid == (if documentUuid.Some? && IsNotBlank(documentUuid.value) then documentUuid else None) &&
                forall k :: 0 <= k < |encounters| ==> r.value.record.uuid.None? || encounters[k].uuid != r.value.record.uuid
    {
      var encounterUuid := "";
      if documentUuid.Some? {
        encounterUuid := documentUuid.value;
        if IsNotBlank(encounterUuid) {
          var hit := FirstIndex(encounters, (e: Encounter) => e.uuid == documentUuid);
          if hit.Some? {
            return Ok(Existing(hit.value));
          }
        }
      }
      var created := CreateNewEncounter(eot, encounterUuid, parseTime, now);
      if created.Err? {
        return Err(created.error);
      }
      r := Ok(New(created.value));
    }
  }
}

=== FILE: entries.dfy ===
/**
 * Document entries (ebRIM extrinsic objects) as the repository sees them: named
 * multi-valued slots, classifications that carry slots of their own, and external
 * identifiers. Only the entry's own slot list is changed by the repository.
 */
module Entries {

  import opened Outcomes
  import opened Text

  datatype Slot = Slot(name: string, values: seq<string>)

  datatype Classification = Classification(scheme: string, nodeRepresentation: string, slots: seq<Slot>)

  datatype ExternalIdentifier = ExternalIdentifier(scheme: string, value: string)

  // Identification and classification schemes of IHE XDS.b (IHE ITI Technical
  // Framework volume 3, section 4.2.5).
  const DocumentEntryType: string := "urn:uuid:7edca82f-054d-47f2-a032-9b2a5b5186c1"
  const ClassCodeScheme: string := "urn:uuid:41a5887f-8865-4c09-adf7-e362475b143a"
  const FormatCodeScheme: string := "urn:uuid:a09d5840-386c-46f2-b5ad-9c3699a4309d"
  const TypeCodeScheme: string := "urn:uuid:f0306f51-975f-434e-a61c-c59651d33983"
  const AuthorScheme: string := "urn:uuid:93606bcf-9494-43ec-9b4e-a7748d1a838d"
  const UniqueIdScheme: string := "urn:uuid:2e82c1f6-a085-4c72-9da3-8640a32e42ab"
  const PatientIdScheme: string := "urn:uuid:58a6f841-87b3-4a3e-92fd-a8ffeff98427"

  const SlotSourcePatientId: string := "sourcePatientId"
  const SlotSourcePatientInfo: string := "sourcePatientInfo"
  const SlotServiceStartTime: string := "serviceStartTime"
  const SlotAuthorPerson: string := "authorPerson"
  const SlotRepositoryUniqueId: string := "repositoryUniqueId"
  const SlotHash: string := "hash"
  const SlotSize: string := "size"
  const SlotAuthorRole: string := "authorRole"
  const SlotAuthorInstitution: string := "authorInstitution"
  const SlotCodingScheme: string := "codingScheme"
  const CdaFormatCode: string := "CDAR2/IHE 1.0"

  /** One document's metadata. */
  class DocumentEntry {
    const id: string
    const objectType: string
    const mimeType: string
    const externalIdentifiers: seq<ExternalIdentifier>
    const classifications: seq<Classification>
    const contentVersion: Option<string>
    var slots: seq<Slot>

    constructor (id: string, objectType: string, mimeType: string,
                 externalIdentifiers: seq<ExternalIdentifier>,
                 classifications: seq<Classification>,
                 contentVersion: Option<string>, slots: seq<Slot>)
      ensures this.id == id && this.objectType == objectType && this.mimeType == mimeType
      ensures this.externalIdentifiers == externalIdentifiers
      ensures this.classifications == classifications
      ensures this.contentVersion == contentVersion && this.slots == slots
    {
      this.id := id;
      this.objectType := objectType;
      this.mimeType := mimeType;
      this.externalIdentifiers := externalIdentifiers;
      this.classifications := classifications;
      this.contentVersion := contentVersion;
      this.slots := slots;
    }
  }

  /** The first slot with the given name. */
  function FindSlot(slots: seq<Slot>, name: string): (r: Option<Slot>)
    ensures r.Some? ==> r.value in slots && r.value.name == name
    ensures r.None? <==> forall k :: 0 <= k < |slots| ==> slots[k].name != name
  {
    match FirstIndex(slots, (s: Slot) => s.name == name)
    case None => None
    case Some(i) => Some(slots[i])
  }

  /** The first value of the first slot with the given name, or None when there
      is no such slot or its value list is empty. */
  function GetSlotValue(slots: seq<Slot>, name: string): (r: Option<string>)
    ensures r.Some? <==> FindSlot(slots, name).Some? && |FindSlot(slots, name).value.values| > 0
    ensures r.Some? ==> r.value == FindSlot(slots, name).value.values[0]
  {
    match FindSlot(slots, name)
    case None => None
    case Some(s) => if |s.values| == 0 then None else Some(s.values[0])
  }

  /** Appending a slot never changes which slot a name finds, unless nothing
      had that name before. */
  lemma FindSlotAppend(slots: seq<Slot>, s: Slot, name: string)
    ensures FindSlot(slots, name).Some? ==> FindSlot(slots + [s], name) == FindSlot(slots, name)
    ensures FindSlot(slots, name).None? && s.name == name ==> FindSlot(slots + [s], name) == Some(s)
    ensures FindSlot(slots, name).None? && s.name != name ==> FindSlot(slots + [s], name).None?
  {
    FirstIndexAppend(slots, s, (t: Slot) => t.name == name);
    assert (slots + [s])[|slots|] == s;
    assert forall k :: 0 <= k < |slots| ==> (slots + [s])[k] == slots[k];
  }

  /** The value of the first external identifier in the given scheme. */
  function ExternalIdentifierValue(ids: seq<ExternalIdentifier>, scheme: string): (r: Option<string>)
    ensures r.Some? ==> ExternalIdentifier(scheme, r.value) in ids
    ensures r.None? <==> forall k :: 0 <= k < |ids| ==> ids[k].scheme != scheme
  {
    match FirstIndex(ids, (e: ExternalIdentifier) => e.scheme == scheme)
    case None => None
    case Some(i) => Some(ids[i].value)
  }

  /** `getClassificationFromExtrinsicObject`: the first classification in the scheme. */
  function GetClassificationFromExtrinsicObject(cls: seq<Classification>, scheme: string): (r: Option<Classification>)
    ensures r.Some? ==> r.value.scheme == scheme
    ensures r.Some? ==> exists k :: 0 <= k < |cls| && cls[k] == r.value &&
                          forall j :: 0 <= j < k ==> cls[j].scheme != scheme
    ensures r.None? <==> forall k :: 0 <= k < |cls| ==> cls[k].scheme != scheme
  {
    match FirstIndex(cls, (c: Classification) => c.scheme == scheme)
    case None => None
    case Some(i) => Some(cls[i])
  }

  /** The last classification in the scheme: the typeCode and formatCode loops
      keep overwriting their variable and so end on the last match. */
  function LastClassification(cls: seq<Classification>, scheme: string): (r: Option<Classification>)
    ensures r.Some? ==> r.value.scheme == scheme
    ensures r.Some? ==> exists k :: 0 <= k < |cls| && cls[k] == r.value &&
                          forall j :: k < j < |cls| ==> cls[j].scheme != scheme
    ensures r.None? <==> forall k :: 0 <= k < |cls| ==> cls[k].scheme != scheme
  {
    match LastIndex(cls, (c: Classification) => c.scheme == scheme)
    case None => None
    case Some(i) => Some(cls[i])
  }

  /** No two slots share a name. */
  predicate DistinctNames(slots: seq<Slot>)
  {
    forall i, j :: 0 <= i < j < |slots| ==> slots[i].name != slots[j].name
  }

  /** `InfosetUtil.getSlotsFromRegistryObject`: the slots keyed by name, built in
      list order; a name seen a second time is refused (a JAXBException). */
  function SlotsByName(slots: seq<Slot>): (r: Result<map<string, Slot>>)
    ensures r.Ok? <==> DistinctNames(slots)
    ensures r.Err? ==> exists k :: 0 <= k < |slots| && r.error == SlotNameNotUnique(slots[k].name)
    ensures r.Ok? ==> r.value.Keys == set k | 0 <= k < |slots| :: slots[k].name
    ensures r.Ok? ==> forall k :: 0 <= k < |slots| ==> r.value[slots[k].name] == slots[k]
    decreases |slots|
  {
    if |slots| == 0 then Ok(map[])
    else
      var init := slots[..|slots| - 1];
      var last := slots[|slots| - 1];
      DistinctNamesSnoc(slots);
      match SlotsByName(init)
      case Err(e) => Err(e)
      case Ok(m) =>
        if last.name in m then Err(SlotNameNotUnique(last.name))
        else Ok(m[last.name := last])
  }

  lemma DistinctNamesSnoc(slots: seq<Slot>)
    requires |slots| > 0
    ensures var init := slots[..|slots| - 1];
            (forall k :: 0 <= k < |init| ==> init[k] == slots[k]) &&
            (DistinctNames(slots) <==>
               DistinctNames(init) && forall k :: 0 <= k < |init| ==> init[k].name != slots[|slots| - 1].name)
  {
  }

  /** With distinct names, the keyed view and the first-match scan agree. */
  lemma SlotsByNameAgrees(slots: seq<Slot>, name: string)
    requires DistinctNames(slots)
    ensures name in SlotsByName(slots).value <==> FindSlot(slots, name).Some?
    ensures name in SlotsByName(slots).value ==> SlotsByName(slots).value[name] == FindSlot(slots, name).value
  {
    var m := SlotsByName(slots).value;
    if FindSlot(slots, name).Some? {
      var i := FirstIndex(slots, (s: Slot) => s.name == name).value;
      assert m[slots[i].name] == slots[i];
    }
  }

  /** The classifications in the scheme, in document order. */
  function ClassificationsIn(cls: seq<Classification>, scheme: string): (r: seq<Classification>)
    ensures forall c :: c in r <==> c in cls && c.scheme == scheme
  {
    if |cls| == 0 then []
    else if cls[0].scheme == scheme then [cls[0]] + ClassificationsIn(cls[1..], scheme)
    else ClassificationsIn(cls[1..], scheme)
  }

  /** `getClassificationSlotsFromExtrinsicObject`: the keyed slots of every
      classification in the scheme, in document order; the first classification
      with a repeated slot name stops the scan. */
  function GetClassificationSlotsFromExtrinsicObject(cls: seq<Classification>, scheme: string): (r: Result<seq<map<string, Slot>>>)
    ensures r.Ok? <==> forall c :: c in cls && c.scheme == scheme ==> SlotsByName(c.slots).Ok?
    ensures r.Ok? ==> |r.value| == |ClassificationsIn(cls, scheme)|
    ensures r.Ok? ==> forall k :: 0 <= k < |r.value| ==>
                        SlotsByName(ClassificationsIn(cls, scheme)[k].slots) == Ok(r.value[k])
  {
    if |cls| == 0 then Ok([])
    else if cls[0].scheme != scheme then GetClassificationSlotsFromExtrinsicObject(cls[1..], scheme)
    else match SlotsByName(cls[0].slots)
      case Err(e) => Err(e)
      case Ok(m) =>
        match GetClassificationSlotsFromExtrinsicObject(cls[1..], scheme)
        case Err(e) => Err(e)
        case Ok(rest) => Ok([m] + rest)
  }

  /** The classification marks the document as a CDA document (both names
      compared ignoring case). */
  function IsCdaFormat(c: Classification): (b: bool)
    ensures c.scheme == FormatCodeScheme && c.nodeRepresentation == CdaFormatCode ==> b
    ensures b ==> |c.scheme| == |FormatCodeScheme| && |c.nodeRepresentation| == |CdaFormatCode|
  {
    EqualsIgnoreCase(c.scheme, FormatCodeScheme) && EqualsIgnoreCase(c.nodeRepresentation, CdaFormatCode)
  }

  /** `isClassifiedAsCDA`: some classification is the CDA format code. */
  function IsClassifiedAsCDA(cls: seq<Classification>): (r: bool)
    ensures r <==> exists k :: 0 <= k < |cls| && IsCdaFormat(cls[k])
  {
    if |cls| == 0 then false
    else IsCdaFormat(cls[0]) || IsClassifiedAsCDA(cls[1..])
  }

  /** `InfosetUtil.addOrOverwriteSlot`: every slot of that name now holds just
      the value; with no such slot, one is appended. */
  function AddOrOverwriteSlot(slots: seq<Slot>, name: string, value: string): (r: seq<Slot>)
    ensures FindSlot(slots, name).Some? ==> |r| == |slots|
    ensures FindSlot(slots, name).None? ==> r == slots + [Slot(name, [value])]
    ensures GetSlotValue(r, name) == Some(value)
  {
    if FindSlot(slots, name).Some? then
      var r := seq(|slots|, k requires 0 <= k < |slots| =>
                     if slots[k].name == name then Slot(name, [value]) else slots[k]);
      var j := FirstIndex(slots, (s: Slot) => s.name == name).value;
      assert r[j].name == name;
      var i := FirstIndex(r, (s: Slot) => s.name == name).value;
      assert r[i] == Slot(name, [value]);
      r
    else
      FindSlotAppend(slots, Slot(name, [value]), name);
      slots + [Slot(name, [value])]
  }

  /** Overwriting the same slot twice is the same as once. */
  lemma AddOrOverwriteIdempotent(slots: seq<Slot>, name: string, value: string)
    ensures AddOrOverwriteSlot(AddOrOverwriteSlot(slots, name, value), name, value)
            == AddOrOverwriteSlot(slots, name, value)
  {
    var once := AddOrOverwriteSlot(slots, name, value);
    assert FindSlot(once, name).Some?;
    var twice := AddOrOverwriteSlot(once, name, value);
    assert |twice| == |once|;
    if FindSlot(slots, name).Some? {
      forall k | 0 <= k < |once| ensures twice[k] == once[k] { }
    } else {
      forall k | 0 <= k < |once| ensures twice[k] == once[k] {
        if k < |slots| { assert slots[k].name != name; }
      }
    }
  }

  /** Slots with other names are left as they were. */
  lemma AddOrOverwriteKeepsOthers(slots: seq<Slot>, name: string, value: string, other: string)
    requires other != name
    ensures FindSlot(AddOrOverwriteSlot(slots, name, value), other) == FindSlot(slots, other)
  {
    var r := AddOrOverwriteSlot(slots, name, value);
    if FindSlot(slots, name).Some? {
      assert forall k :: 0 <= k < |r| ==> (r[k].name == other <==> slots[k].name == other);
      assert forall k :: 0 <= k < |r| && slots[k].name == other ==> r[k] == slots[k];
      match FindSlot(slots, other)
      case None =>
      case Some(s) =>
        var i := FirstIndex(slots, (t: Slot) => t.name == other).value;
        assert FirstIndex(r, (t: Slot) => t.name == other) == Some(i) by {
          FirstIndexSame(slots, r, (t: Slot) => t.name == other);
        }
    } else {
      FindSlotAppend(slots, Slot(name, [value]), other);
    }
  }

  lemma {:induction false} FirstIndexSame<T>(a: seq<T>, b: seq<T>, p: T -> bool)
    requires |a| == |b|
    requires forall k :: 0 <= k < |a| ==> p(a[k]) == p(b[k])
    ensures FirstIndex(a, p) == FirstIndex(b, p)
  {
    if |a| > 0 {
      FirstIndexSame(a[1..], b[1..], p);
    }
  }
}

=== FILE: hex.dfy ===
/**
 * `bytesToHex`: upper-case hexadecimal rendering of a byte array, used for the
 * SHA-1 digest that is compared with, or written into, a document's hash slot.
 */
module Hex {

  /** A Java `byte`: signed, 8 bits. */
  type JByte = b: int | -128 <= b < 128

  const HexDigits: string := "0123456789ABCDEF"

  /** `b & 0xFF`: the unsigned value with the same low eight bits. */
  function Unsigned(b: JByte): (v: nat)
    ensures v < 256 && (v - b) % 256 == 0
  {
    if b < 0 then b + 256 else b
  }

  /** The two hexadecimal characters of one byte, high nibble first. */
  function HexPair(b: JByte): string
  {
    [HexDigits[Unsigned(b) / 16], HexDigits[Unsigned(b) % 16]]
  }

  /** The hexadecimal rendering, byte by byte. */
  function HexOf(bytes: seq<JByte>): (r: string)
    ensures |r| == 2 * |bytes|
  {
    if |bytes| == 0 then [] else HexPair(bytes[0]) + HexOf(bytes[1..])
  }

  /** Characters 2j and 2j+1 of the rendering are the high and low nibble of byte j. */
  lemma {:induction false} HexOfAt(bytes: seq<JByte>, j: nat)
    requires j < |bytes|
    ensures HexOf(bytes)[2 * j] == HexDigits[Unsigned(bytes[j]) / 16]
    ensures HexOf(bytes)[2 * j + 1] == HexDigits[Unsigned(bytes[j]) % 16]
  {
    if j > 0 {
      HexOfAt(bytes[1..], j - 1);
    } else if |bytes| > 1 {
      HexOfAt(bytes[1..], 0);
    }
  }

  method BytesToHex(bytes: seq<JByte>) returns (hex: string)
    ensures |hex| == 2 * |bytes|
    ensures forall j :: 0 <= j < |bytes| ==>
      hex[2 * j] == HexDigits[Unsigned(bytes[j]) / 16] &&
      hex[2 * j + 1] == HexDigits[Unsigned(bytes[j]) % 16]
    ensures hex == HexOf(bytes)
  {
    var hexChars := new char[|bytes| * 2];
    for j := 0 to |bytes|
      invariant forall k :: 0 <= k < j ==>
        hexChars[2 * k] == HexDigits[Unsigned(bytes[k]) / 16] &&
        hexChars[2 * k + 1] == HexDigits[Unsigned(bytes[k]) % 16]
    {
      var v := Unsigned(bytes[j]);
      // v >>> 4 and v & 0x0F on a value below 256
      hexChars[j * 2] := HexDigits[v / 16];
      hexChars[j * 2 + 1] := HexDigits[v % 16];
    }
    hex := hexChars[..];
    forall i | 0 <= i < |hex|
      ensures hex[i] == HexOf(bytes)[i]
    {
      HexOfAt(bytes, i / 2);
      assert i == 2 * (i / 2) || i == 2 * (i / 2) + 1;
    }
  }

  /** Value of a hexadecimal digit in either case; 16 for anything else. */
  function HexDigitValue(c: char): nat
  {
    if '0' <= c <= '9' then c as int - '0' as int
    else if 'A' <= c <= 'F' then c as int - 'A' as int + 10
    else if 'a' <= c <= 'f' then c as int - 'a' as int + 10
    else 16
  }

  /** Every character of the rendering is a digit of the table, and reading the
      pairs back yields the unsigned bytes: the rendering loses nothing. */
  lemma HexDecodes(bytes: seq<JByte>, j: nat)
    requires j < |bytes|
    ensures HexOf(bytes)[2 * j] in HexDigits && HexOf(bytes)[2 * j + 1] in HexDigits
    ensures 16 * HexDigitValue(HexOf(bytes)[2 * j]) + HexDigitValue(HexOf(bytes)[2 * j + 1])
            == Unsigned(bytes[j])
  {
    HexOfAt(bytes, j);
    var v := Unsigned(bytes[j]);
    DigitValueOfTable(v / 16);
    DigitValueOfTable(v % 16);
  }

  lemma DigitValueOfTable(n: nat)
    requires n < 16
    ensures HexDigitValue(HexDigits[n]) == n
  {
  }

  /** Two byte arrays with the same rendering are equal. */
  lemma {:induction false} HexInjective(a: seq<JByte>, b: seq<JByte>)
    requires HexOf(a) == HexOf(b)
    ensures a == b
  {
    forall j | 0 <= j < |a|
      ensures a[j] == b[j]
    {
      HexDecodes(a, j);
      HexDecodes(b, j);
    }
  }
}

=== FILE: identifiers.dfy ===
/**
 * HL7 v2 CX patient identifiers as they appear in XDS.b metadata:
 * `value^^^namespace&universalId&universalIdType`. The universal id of the
 * assigning authority is the identifier's domain.
 */
module Identifiers {

  import opened Outcomes
  import opened Text

  datatype AssigningAuthority = AssigningAuthority(namespace: Option<string>, authorityId: Option<string>, idType: Option<string>)

  /** A parsed CX value; empty components are absent. */
  datatype Identifier = Identifier(identifier: Option<string>, authority: Option<AssigningAuthority>)

  /** A patient identifier that passed the checks: a value within a domain. */
  datatype PatientId = PatientId(value: string, domain: string)

  /** Component `k`, absent when missing or empty. */
  function Component(parts: seq<string>, k: nat): (r: Option<string>)
    ensures r.Some? <==> k < |parts| && parts[k] != ""
    ensures r.Some? ==> r.value == parts[k]
  {
    if k < |parts| && parts[k] != "" then Some(parts[k]) else None
  }

  /** The CX splitter: components on `^`, the assigning authority (component 4)
      into sub-components on `&`. */
  function ParseCx(cx: string): (r: Identifier)
    ensures r.identifier.Some? ==> r.identifier.value != "" && '^' !in r.identifier.value
    ensures r.authority.Some? ==> '^' in cx
    ensures r.authority.Some? && r.authority.value.authorityId.Some? ==> '&' !in r.authority.value.authorityId.value
    ensures '^' !in cx ==> r.authority.None? && r.identifier == (if cx == "" then None else Some(cx))
  {
    SplitAllShape(cx, '^');
    var parts := SplitAll(cx, '^');
    if |parts| < 4 || parts[3] == "" then Identifier(Component(parts, 0), None)
    else
      var sub := SplitAll(parts[3], '&');
      SplitAllShape(parts[3], '&');
      Identifier(Component(parts, 0), Some(AssigningAuthority(Component(sub, 0), Component(sub, 1), Component(sub, 2))))
  }

  /** Writes a CX value with the assigning authority in component 4. */
  function FormatCx(value: string, namespace: string, authorityId: string, idType: string): string
  {
    JoinWith([value, "", "", JoinWith([namespace, authorityId, idType], '&')], '^')
  }

  /** The composed identifier written out component by component. */
  lemma FormatCxSpelled(value: string, namespace: string, authorityId: string, idType: string)
    ensures FormatCx(value, namespace, authorityId, idType) ==
            value + "^^^" + namespace + "&" + authorityId + "&" + idType
  {
    var authority := [namespace, authorityId, idType];
    assert authority[1..] == [authorityId, idType] && authority[1..][1..] == [idType];
    assert JoinWith([authorityId, idType], '&') == authorityId + "&" + idType;
    var joined := JoinWith(authority, '&');
    assert joined == namespace + "&" + authorityId + "&" + idType;
    var cx := [value, "", "", joined];
    assert cx[1..] == ["", "", joined] && cx[1..][1..] == ["", joined] && cx[1..][1..][1..] == [joined];
    assert JoinWith(["", joined], '^') == "^" + joined;
    assert JoinWith(["", "", joined], '^') == "^^" + joined;
  }

  /** The markup escape of `&` that is undone before parsing. */
  const EscapedAmpersand: string := "&amp;"

  /** `parsePatientIdentifier`: unescape `&amp;`, parse, then demand a value and
      an assigning-authority id, in that order. */
  function ParsePatientIdentifier(id: string): (r: Result<PatientId>)
    ensures var cx := ParseCx(ReplaceAll(id, EscapedAmpersand, "&"));
            (r.Ok? <==> cx.identifier.Some? && cx.authority.Some? && cx.authority.value.authorityId.Some?) &&
            (cx.identifier.None? ==> r == Err(RepositoryMetadataError(EmptyIdentifier))) &&
            (cx.identifier.Some? && r.Err? ==> r == Err(RepositoryMetadataError(NoAssigningAuthority))) &&
            (r.Ok? ==> r.value == PatientId(cx.identifier.value, cx.authority.value.authorityId.value))
  {
    var cx := ParseCx(ReplaceAll(id, EscapedAmpersand, "&"));
    if cx.identifier.None? then Err(RepositoryMetadataError(EmptyIdentifier))
    else if cx.authority.None? || cx.authority.value.authorityId.None? then
      Err(RepositoryMetadataError(NoAssigningAuthority))
    else Ok(PatientId(cx.identifier.value, cx.authority.value.authorityId.value))
  }

  /** A value free of the CX delimiters and of `;`. */
  predicate PlainComponent(s: string)
  {
    '^' !in s && '&' !in s && ';' !in s
  }

  /** Text without `;` holds no escaped ampersand. */
  lemma NoEscapeWithoutSemicolon(s: string)
    requires ';' !in s
    ensures ReplaceAll(s, EscapedAmpersand, "&") == s
  {
    forall i | 0 <= i && i + 5 <= |s|
      ensures !OccursAt(s, EscapedAmpersand, i)
    {
      assert s[i + 4] in s;
    }
    ReplaceAbsent(s, EscapedAmpersand, "&");
  }

  /** Parsing reads back what formatting wrote. */
  lemma ParseFormatCx(value: string, namespace: string, authorityId: string, idType: string)
    requires PlainComponent(value) && PlainComponent(namespace)
    requires PlainComponent(authorityId) && PlainComponent(idType)
    ensures ParseCx(FormatCx(value, namespace, authorityId, idType)) ==
            Identifier(if value == "" then None else Some(value),
                       Some(AssigningAuthority(if namespace == "" then None else Some(namespace),
                                               if authorityId == "" then None else Some(authorityId),
                                               if idType == "" then None else Some(idType))))
  {
    var subs := [namespace, authorityId, idType];
    var auth := JoinWith(subs, '&');
    SplitAllJoin(subs, '&');
    assert auth != "" by {
      JoinLength(subs, '&');
    }
    assert '^' !in auth by {
      JoinAvoids(subs, '&', '^');
    }
    SplitAllJoin([value, "", "", auth], '^');
  }

  /** A joined string is at least as long as its first piece. */
  lemma JoinLength(pieces: seq<string>, d: char)
    requires |pieces| >= 2
    ensures |JoinWith(pieces, d)| > |pieces[0]|
  {
  }

  /** A well-formed CX value is accepted with its value and universal id. */
  lemma AcceptsFormatted(value: string, namespace: string, authorityId: string, idType: string)
    requires PlainComponent(value) && PlainComponent(namespace)
    requires PlainComponent(authorityId) && PlainComponent(idType)
    requires value != "" && authorityId != ""
    ensures ParsePatientIdentifier(FormatCx(value, namespace, authorityId, idType)) == Ok(PatientId(value, authorityId))
  {
    var cx := FormatCx(value, namespace, authorityId, idType);
    assert ';' !in JoinWith([namespace, authorityId, idType], '&') by {
      JoinAvoids([namespace, authorityId, idType], '&', ';');
    }
    JoinAvoids([value, "", "", JoinWith([namespace, authorityId, idType], '&')], '^', ';');
    NoEscapeWithoutSemicolon(cx);
    ParseFormatCx(value, namespace, authorityId, idType);
  }

  /** Without a value there is no identifier, whatever the authority. */
  lemma RejectsMissingValue(namespace: string, authorityId: string, idType: string)
    requires PlainComponent(namespace) && PlainComponent(authorityId) && PlainComponent(idType)
    requires authorityId != ""
    ensures ParsePatientIdentifier(FormatCx("", namespace, authorityId, idType)) == Err(RepositoryMetadataError(EmptyIdentifier))
  {
    var cx := FormatCx("", namespace, authorityId, idType);
    assert ';' !in JoinWith([namespace, authorityId, idType], '&') by {
      JoinAvoids([namespace, authorityId, idType], '&', ';');
    }
    JoinAvoids(["", "", "", JoinWith([namespace, authorityId, idType], '&')], '^', ';');
    NoEscapeWithoutSemicolon(cx);
    ParseFormatCx("", namespace, authorityId, idType);
  }

  /** A value with no `^` at all has no assigning authority. */
  lemma RejectsBareValue(value: string)
    requires value != "" && PlainComponent(value)
    ensures ParsePatientIdentifier(value) == Err(RepositoryMetadataError(NoAssigningAuthority))
  {
    NoEscapeWithoutSemicolon(value);
    SplitAllNoDelimiter(value, '^');
  }

  /** Without a universal id there is no assigning authority. */
  lemma RejectsMissingAuthorityId(value: string, namespace: string, idType: string)
    requires PlainComponent(value) && PlainComponent(namespace) && PlainComponent(idType)
    requires value != ""
    ensures ParsePatientIdentifier(FormatCx(value, namespace, "", idType)) == Err(RepositoryMetadataError(NoAssigningAuthority))
  {
    var cx := FormatCx(value, namespace, "", idType);
    assert ';' !in JoinWith([namespace, "", idType], '&') by {
      JoinAvoids([namespace, "", idType], '&', ';');
    }
    JoinAvoids([value, "", "", JoinWith([namespace, "", idType], '&')], '^', ';');
    NoEscapeWithoutSemicolon(cx);
    ParseFormatCx(value, namespace, "", idType);
  }

  /** An empty fourth component is no assigning authority, whatever follows it. */
  lemma RejectsEmptyAuthority(pieces: seq<string>)
    requires |pieces| >= 4 && pieces[0] != "" && pieces[3] == ""
    requires forall k :: 0 <= k < |pieces| ==> PlainComponent(pieces[k])
    ensures ParsePatientIdentifier(JoinWith(pieces, '^')) == Err(RepositoryMetadataError(NoAssigningAuthority))
  {
    var j := JoinWith(pieces, '^');
    JoinAvoids(pieces, '^', ';');
    NoEscapeWithoutSemicolon(j);
    SplitAllJoin(pieces, '^');
  }

  /** Writes every `&` as `&amp;`, as an XML serialiser does. */
  function EscapeAmpersands(s: string): (r: string)
  {
    if |s| == 0 then ""
    else if s[0] == '&' then EscapedAmpersand + EscapeAmpersands(s[1..])
    else [s[0]] + EscapeAmpersands(s[1..])
  }

  /** The unescaping step undoes the escaping of every `&`. */
  lemma {:induction false} UnescapeEscaped(s: string)
    ensures ReplaceAll(EscapeAmpersands(s), EscapedAmpersand, "&") == s
  {
    if |s| > 0 {
      var e := EscapeAmpersands(s);
      UnescapeEscaped(s[1..]);
      if s[0] == '&' {
        assert e[..5] == EscapedAmpersand;
        assert e[5..] == EscapeAmpersands(s[1..]);
      } else {
        assert e[0] == s[0] && e[1..] == EscapeAmpersands(s[1..]);
        assert |e| < 5 || e[..5] != EscapedAmpersand by {
          if |e| >= 5 { assert e[..5][0] == s[0]; }
        }
      }
      assert s == [s[0]] + s[1..];
    }
  }

  /** The escaped form travels through unchanged: `value^^^&amp;id&amp;type` is
      accepted as `value^^^&id&type` is. */
  lemma AcceptsEscaped(value: string, namespace: string, authorityId: string, idType: string)
    requires PlainComponent(value) && PlainComponent(namespace)
    requires PlainComponent(authorityId) && PlainComponent(idType)
    requires value != "" && authorityId != ""
    ensures ParsePatientIdentifier(EscapeAmpersands(FormatCx(value, namespace, authorityId, idType)))
            == Ok(PatientId(value, authorityId))
  {
    UnescapeEscaped(FormatCx(value, namespace, authorityId, idType));
    ParseFormatCx(value, namespace, authorityId, idType);
  }

  // The identifiers the repository's own tests submit: one accepted, five refused.

  lemma TestIdentifierAccepted()
    ensures ParsePatientIdentifier("12345^^^&1.2.3&ISO") == Ok(PatientId("12345", "1.2.3"))
  {
    FormatCxSpelled("12345", "", "1.2.3", "ISO");
    assert "12345^^^&1.2.3&ISO" == FormatCx("12345", "", "1.2.3", "ISO");
    AcceptsFormatted("12345", "", "1.2.3", "ISO");
  }

  lemma TestIdentifierBareValue()
    ensures ParsePatientIdentifier("12345") == Err(RepositoryMetadataError(NoAssigningAuthority))
  {
    RejectsBareValue("12345");
  }

  lemma TestIdentifierNotCx()
    ensures ParsePatientIdentifier("this is a bad id") == Err(RepositoryMetadataError(NoAssigningAuthority))
  {
    RejectsBareValue("this is a bad id");
  }

  lemma TestIdentifierEmptyAuthority()
    ensures ParsePatientIdentifier("12345^^^^stuff") == Err(RepositoryMetadataError(NoAssigningAuthority))
  {
    assert "12345^^^^stuff" == JoinWith(["12345", "", "", "", "stuff"], '^');
    RejectsEmptyAuthority(["12345", "", "", "", "stuff"]);
  }

  lemma TestIdentifierEmptyUniversalId()
    ensures ParsePatientIdentifier("12345^^^test&&ISO") == Err(RepositoryMetadataError(NoAssigningAuthority))
  {
    FormatCxSpelled("12345", "test", "", "ISO");
    assert "12345^^^test&&ISO" == FormatCx("12345", "test", "", "ISO");
    RejectsMissingAuthorityId("12345", "test", "ISO");
  }

  lemma TestIdentifierEmptyValue()
    ensures ParsePatientIdentifier("^^^&1.2.3.4.5&ISO") == Err(RepositoryMetadataError(EmptyIdentifier))
  {
    FormatCxSpelled("", "", "1.2.3.4.5", "ISO");
    assert "^^^&1.2.3.4.5&ISO" == FormatCx("", "", "1.2.3.4.5", "ISO");
    RejectsMissingValue("", "1.2.3.4.5", "ISO");
  }
}

=== FILE: integrity.dfy ===
/**
 * Integrity of a submission: every document has metadata and every metadata
 * entry has a document; a declared hash and size agree with the payload; and a
 * missing hash or size slot is filled in from the payload.
 */
module Integrity {

  import opened Outcomes
  import opened Text
  import opened Hex
  import opened Entries

  /** A Java byte array: its length is a non-negative `int`. */
  type Bytes = b: seq<JByte> | |b| <= 0x7FFF_FFFF

  /** The ids of the document entries. */
  function MetadataIds(entries: seq<DocumentEntry>): set<string>
  {
    IdsBefore(entries, |entries|)
  }

  /** The ids of the first `n` document entries. */
  function IdsBefore(entries: seq<DocumentEntry>, n: nat): set<string>
    requires n <= |entries|
  {
    set k | 0 <= k < n :: entries[k].id
  }

  lemma IdsBeforeSnoc(entries: seq<DocumentEntry>, i: nat)
    requires i < |entries|
    ensures IdsBefore(entries, i + 1) == IdsBefore(entries, i) + {entries[i].id}
  {
  }

  /** `validateDocumentMatchMetadata`: the entry ids and the document keys must be
      the same set; documents named by metadata but absent are reported first. */
  method ValidateDocumentMatchMetadata(entries: seq<DocumentEntry>, documents: map<string, Bytes>)
    returns (r: Result<()>)
    ensures r.Ok? <==> MetadataIds(entries) == documents.Keys
    ensures MetadataIds(entries) - documents.Keys != {} ==>
              r == Err(MissingDocument(MetadataIds(entries) - documents.Keys))
    ensures MetadataIds(entries) - documents.Keys == {} && r.Err? ==>
              r == Err(MissingDocumentMetadata(documents.Keys - MetadataIds(entries)))
  {
    var metadataIds: set<string> := {};
    for i := 0 to |entries|
      invariant metadataIds == IdsBefore(entries, i)
    {
      IdsBeforeSnoc(entries, i);
      metadataIds := metadataIds + {entries[i].id};
    }
    var allIds := metadataIds + documents.Keys;
    var missingDocs := allIds - documents.Keys;
    var missingMetadata := allIds - metadataIds;
    SetsMatch(metadataIds, documents.Keys);
    if |missingDocs| > 0 {
      return Err(MissingDocument(missingDocs));
    }
    if |missingMetadata| > 0 {
      return Err(MissingDocumentMetadata(missingMetadata));
    }
    return Ok(());
  }

  /** Two sets are equal exactly when neither has an element the other lacks. */
  lemma SetsMatch(a: set<string>, b: set<string>)
    ensures (a + b) - b == a - b && (a + b) - a == b - a
    ensures a == b <==> |a - b| == 0 && |b - a| == 0
  {
    if |a - b| == 0 && |b - a| == 0 {
      assert a - b == {} && b - a == {};
      assert forall x :: x in a <==> x in b by {
        forall x ensures x in a <==> x in b {
          if x in a { assert x !in a - b; }
          if x in b { assert x !in b - a; }
        }
      }
    }
  }

  /** The hash slot is absent, or names the payload's digest in either case. */
  predicate HashAgrees(slots: seq<Slot>, payload: Bytes, digest: seq<JByte> -> seq<JByte>)
  {
    match GetSlotValue(slots, SlotHash)
    case None => true
    case Some(hash) => EqualsIgnoreCase(HexOf(digest(payload)), hash)
  }

  /** The size slot is absent, or is a decimal `int` equal to the payload length. */
  predicate SizeAgrees(slots: seq<Slot>, payload: Bytes)
  {
    match GetSlotValue(slots, SlotSize)
    case None => true
    case Some(size) => ParseInt(size) == Some(|payload|)
  }

  /** `validateContent`: the hash is checked before the size. */
  function ValidateContent(slots: seq<Slot>, payload: Bytes, digest: seq<JByte> -> seq<JByte>): (r: Result<()>)
    ensures r.Ok? <==> HashAgrees(slots, payload, digest) && SizeAgrees(slots, payload)
    ensures !HashAgrees(slots, payload, digest) ==> r == Err(RepositoryMetadataError(HashIncorrect))
    ensures HashAgrees(slots, payload, digest) && GetSlotValue(slots, SlotSize).Some? &&
            ParseInt(GetSlotValue(slots, SlotSize).value).None? ==>
              r == Err(RepositoryMetadataError(SizeNotNumber))
    ensures HashAgrees(slots, payload, digest) && GetSlotValue(slots, SlotSize).Some? &&
            ParseInt(GetSlotValue(slots, SlotSize).value).Some? && !SizeAgrees(slots, payload) ==>
              r == Err(RepositoryMetadataError(SizeIncorrect))
  {
    var hashCheck :=
      match GetSlotValue(slots, SlotHash)
      case None => Ok(())
      case Some(hash) =>
        if !EqualsIgnoreCase(HexOf(digest(payload)), hash) then Err(RepositoryMetadataError(HashIncorrect))
        else Ok(());
    if hashCheck.Err? then hashCheck
    else
      match GetSlotValue(slots, SlotSize)
      case None => Ok(())
      case Some(sizeStr) =>
        match ParseInt(sizeStr)
        case None => Err(RepositoryMetadataError(SizeNotNumber))
        case Some(size) => if size != |payload| then Err(RepositoryMetadataError(SizeIncorrect)) else Ok(())
  }

  /** The slot list after `addHashSlot`. */
  function WithHashSlot(slots: seq<Slot>, payload: Bytes, digest: seq<JByte> -> seq<JByte>): (r: seq<Slot>)
    ensures |slots| <= |r| <= |slots| + 1 && r[..|slots|] == slots
    ensures |r| > |slots| <==> GetSlotValue(slots, SlotHash).None?
    ensures |r| > |slots| ==> r[|slots|] == Slot(SlotHash, [HexOf(digest(payload))])
  {
    if GetSlotValue(slots, SlotHash).None? then slots + [Slot(SlotHash, [HexOf(digest(payload))])]
    else slots
  }

  /** The slot list after `addSizeSlot`. */
  function WithSizeSlot(slots: seq<Slot>, payload: Bytes): (r: seq<Slot>)
    ensures |slots| <= |r| <= |slots| + 1 && r[..|slots|] == slots
    ensures |r| > |slots| <==> GetSlotValue(slots, SlotSize).None?
    ensures |r| > |slots| ==> r[|slots|] == Slot(SlotSize, [NatToString(|payload|)])
  {
    if GetSlotValue(slots, SlotSize).None? then slots + [Slot(SlotSize, [NatToString(|payload|)])]
    else slots
  }

  /** `addHashSlot`: appends the upper-case hexadecimal digest when no hash is given. */
  method AddHashSlot(eot: DocumentEntry, payload: Bytes, digest: seq<JByte> -> seq<JByte>)
    modifies eot
    ensures eot.slots == WithHashSlot(old(eot.slots), payload, digest)
  {
    var hashValue := GetSlotValue(eot.slots, SlotHash);
    if hashValue.None? {
      var hex := BytesToHex(digest(payload));
      eot.slots := eot.slots + [Slot(SlotHash, [hex])];
    }
  }

  /** `addSizeSlot`: appends the decimal payload length when no size is given. */
  method AddSizeSlot(eot: DocumentEntry, payload: Bytes)
    modifies eot
    ensures eot.slots == WithSizeSlot(old(eot.slots), payload)
  {
    var sizeValue := GetSlotValue(eot.slots, SlotSize);
    if sizeValue.None? {
      eot.slots := eot.slots + [Slot(SlotSize, [NatToString(|payload|)])];
    }
  }

  /** What `addHashSlot` does to the lookups: the size slot and any other slot are
      found as before, a hash slot found before is found again, and where there
      was none the digest now is. */
  lemma HashFillLookups(slots: seq<Slot>, payload: Bytes, digest: seq<JByte> -> seq<JByte>, name: string)
    ensures var h := WithHashSlot(slots, payload, digest);
            (name != SlotHash ==> FindSlot(h, name) == FindSlot(slots, name)) &&
            (FindSlot(slots, SlotHash).Some? ==> FindSlot(h, SlotHash) == FindSlot(slots, SlotHash)) &&
            (FindSlot(slots, SlotHash).None? ==> GetSlotValue(h, SlotHash) == Some(HexOf(digest(payload))))
  {
    var h := WithHashSlot(slots, payload, digest);
    if |h| > |slots| {
      assert h == slots + [h[|slots|]];
      FindSlotAppend(slots, h[|slots|], name);
      FindSlotAppend(slots, h[|slots|], SlotHash);
    }
  }

  /** What `addSizeSlot` does to the lookups, likewise. */
  lemma SizeFillLookups(slots: seq<Slot>, payload: Bytes, name: string)
    ensures var s := WithSizeSlot(slots, payload);
            (name != SlotSize ==> FindSlot(s, name) == FindSlot(slots, name)) &&
            (FindSlot(slots, SlotSize).Some? ==> FindSlot(s, SlotSize) == FindSlot(slots, SlotSize)) &&
            (FindSlot(slots, SlotSize).None? ==> GetSlotValue(s, SlotSize) == Some(NatToString(|payload|)))
  {
    var s := WithSizeSlot(slots, payload);
    if |s| > |slots| {
      assert s == slots + [s[|slots|]];
      FindSlotAppend(slots, s[|slots|], name);
      FindSlotAppend(slots, s[|slots|], SlotSize);
    }
  }

  /** Filling in the hash and size never disturbs a slot of another name. */
  lemma FillingKeepsOtherSlots(slots: seq<Slot>, payload: Bytes, digest: seq<JByte> -> seq<JByte>, name: string)
    requires name != SlotHash && name != SlotSize
    ensures FindSlot(WithSizeSlot(WithHashSlot(slots, payload, digest), payload), name) == FindSlot(slots, name)
  {
    HashFillLookups(slots, payload, digest, name);
    SizeFillLookups(WithHashSlot(slots, payload, digest), payload, name);
  }

  /** A slot list in which the first slot of that name, if any, carries a value. */
  predicate FilledWhereNamed(slots: seq<Slot>, name: string)
  {
    FindSlot(slots, name).None? || |FindSlot(slots, name).value.values| > 0
  }

  /** Filling in is idempotent once the named slots carry a value. */
  lemma FillingIdempotent(slots: seq<Slot>, payload: Bytes, digest: seq<JByte> -> seq<JByte>)
    requires FilledWhereNamed(slots, SlotHash) && FilledWhereNamed(slots, SlotSize)
    ensures var once := WithSizeSlot(WithHashSlot(slots, payload, digest), payload);
            WithSizeSlot(WithHashSlot(once, payload, digest), payload) == once
  {
    var h := WithHashSlot(slots, payload, digest);
    HashFillLookups(slots, payload, digest, SlotSize);
    SizeFillLookups(h, payload, SlotHash);
    var once := WithSizeSlot(h, payload);
    assert GetSlotValue(once, SlotHash).Some?;
    assert GetSlotValue(once, SlotSize).Some?;
  }

  /** What the repository fills in, its own check accepts: a document that passed
      `validateContent` still passes after `addHashSlot` and `addSizeSlot`, and a
      document that had neither slot now carries both, with the payload's values. */
  lemma FilledContentValidates(slots: seq<Slot>, payload: Bytes, digest: seq<JByte> -> seq<JByte>)
    requires ValidateContent(slots, payload, digest).Ok?
    ensures var filled := WithSizeSlot(WithHashSlot(slots, payload, digest), payload);
            ValidateContent(filled, payload, digest).Ok? &&
            (FindSlot(slots, SlotHash).None? ==> GetSlotValue(filled, SlotHash) == Some(HexOf(digest(payload)))) &&
            (FindSlot(slots, SlotSize).None? ==> GetSlotValue(filled, SlotSize) == Some(NatToString(|payload|)))
  {
    var h := WithHashSlot(slots, payload, digest);
    HashFillLookups(slots, payload, digest, SlotSize);
    var filled := WithSizeSlot(h, payload);
    SizeFillLookups(h, payload, SlotHash);
    assert HashAgrees(slots, payload, digest) && SizeAgrees(slots, payload);
    if FindSlot(slots, SlotHash).None? {
      assert GetSlotValue(filled, SlotHash) == Some(HexOf(digest(payload)));
    } else {
      assert GetSlotValue(filled, SlotHash) == GetSlotValue(slots, SlotHash);
    }
    assert HashAgrees(filled, payload, digest);
    if FindSlot(slots, SlotSize).None? {
      assert GetSlotValue(filled, SlotSize) == Some(NatToString(|payload|));
      ParseFormatted(|payload|);
    } else {
      assert GetSlotValue(filled, SlotSize) == GetSlotValue(slots, SlotSize);
    }
    assert SizeAgrees(filled, payload);
  }

  /** The hash comparison ignores case: a lower-case rendering of the digest passes. */
  lemma LowerCaseHashAgrees(slots: seq<Slot>, payload: Bytes, digest: seq<JByte> -> seq<JByte>)
    requires var hex := HexOf(digest(payload));
             GetSlotValue(slots, SlotHash) == Some(seq(|hex|, i requires 0 <= i < |hex| => LowerAscii(hex[i])))
    ensures HashAgrees(slots, payload, digest)
  {
  }
}

=== FILE: metadata.dfy ===
/**
 * The metadata a document entry must carry before the repository accepts it, and
 * the content object built from an entry and its document.
 */
module Metadata {

  import opened Outcomes
  import opened Text
  import opened Entries
  import opened Identifiers
  import opened Integrity

  /** `validateMetadata`: unique id, classCode, a parseable patient id and a
      parseable source patient id, checked in that order. */
  function ValidateMetadata(eot: DocumentEntry): (r: Result<()>)
    reads eot
    ensures r.Ok? <==>
              ExternalIdentifierValue(eot.externalIdentifiers, UniqueIdScheme).Some? &&
              GetClassificationFromExtrinsicObject(eot.classifications, ClassCodeScheme).Some? &&
              ExternalIdentifierValue(eot.externalIdentifiers, PatientIdScheme).Some? &&
              ParsePatientIdentifier(ExternalIdentifierValue(eot.externalIdentifiers, PatientIdScheme).value).Ok? &&
              GetSlotValue(eot.slots, SlotSourcePatientId).Some? &&
              ParsePatientIdentifier(GetSlotValue(eot.slots, SlotSourcePatientId).value).Ok?
    ensures ExternalIdentifierValue(eot.externalIdentifiers, UniqueIdScheme).None? ==>
              r == Err(RepositoryMetadataError(UniqueIdMissing))
    ensures ExternalIdentifierValue(eot.externalIdentifiers, UniqueIdScheme).Some? &&
            GetClassificationFromExtrinsicObject(eot.classifications, ClassCodeScheme).None? ==>
              r == Err(RepositoryMetadataError(ClassCodeMissing))
    ensures ExternalIdentifierValue(eot.externalIdentifiers, UniqueIdScheme).Some? &&
            GetClassificationFromExtrinsicObject(eot.classifications, ClassCodeScheme).Some? &&
            ExternalIdentifierValue(eot.externalIdentifiers, PatientIdScheme).None? ==>
              r == Err(RepositoryMetadataError(PatientIdMissing))
    ensures ExternalIdentifierValue(eot.externalIdentifiers, UniqueIdScheme).Some? &&
            GetClassificationFromExtrinsicObject(eot.classifications, ClassCodeScheme).Some? &&
            ExternalIdentifierValue(eot.externalIdentifiers, PatientIdScheme).Some? &&
            ParsePatientIdentifier(ExternalIdentifierValue(eot.externalIdentifiers, PatientIdScheme).value).Ok? &&
            GetSlotValue(eot.slots, SlotSourcePatientId).None? ==>
              r == Err(RepositoryMetadataError(SourcePatientIdMissing))
    ensures r.Err? ==> r.error.RepositoryMetadataError?
  {
    if ExternalIdentifierValue(eot.externalIdentifiers, UniqueIdScheme).None? then
      Err(RepositoryMetadataError(UniqueIdMissing))
    else if GetClassificationFromExtrinsicObject(eot.classifications, ClassCodeScheme).None? then
      Err(RepositoryMetadataError(ClassCodeMissing))
    else
      match ExternalIdentifierValue(eot.externalIdentifiers, PatientIdScheme)
      case None => Err(RepositoryMetadataError(PatientIdMissing))
      case Some(id) =>
        match ParsePatientIdentifier(id)
        case Err(e) => Err(e)
        case Ok(_) =>
          match GetSlotValue(eot.slots, SlotSourcePatientId)
          case None => Err(RepositoryMetadataError(SourcePatientIdMissing))
          case Some(sourceId) =>
            match ParsePatientIdentifier(sourceId)
            case Err(e) => Err(e)
            case Ok(_) => Ok(())
  }

  /** A code and the scheme it is drawn from (absent when the classification
      carries no codingScheme slot). */
  datatype CodedValue = CodedValue(code: string, codingScheme: Option<string>)

  /** What the content handlers receive. */
  datatype Content = Content(uniqueId: string, payload: Bytes, typeCode: CodedValue, formatCode: CodedValue, mimeType: string)

  function CodedValueOf(c: Classification): CodedValue
  {
    CodedValue(c.nodeRepresentation, GetSlotValue(c.slots, SlotCodingScheme))
  }

  /** `buildContentObjectFromDocument`: the type and format codes come from the
      last classification in each scheme (exact scheme match); the payload is the
      document stored under the entry's id, and a missing one is a null
      dereference. */
  function BuildContentObjectFromDocument(docUniqueId: string, eot: DocumentEntry, documents: map<string, Bytes>): (r: Result<Content>)
    reads eot
    ensures LastClassification(eot.classifications, TypeCodeScheme).None? ==>
              r == Err(RepositoryMetadataError(TypeCodeMissing))
    ensures LastClassification(eot.classifications, TypeCodeScheme).Some? &&
            LastClassification(eot.classifications, FormatCodeScheme).None? ==>
              r == Err(RepositoryMetadataError(FormatCodeMissing))
    ensures r.Ok? <==> LastClassification(eot.classifications, TypeCodeScheme).Some? &&
                       LastClassification(eot.classifications, FormatCodeScheme).Some? &&
                       eot.id in documents
    ensures r.Err? && LastClassification(eot.classifications, TypeCodeScheme).Some? &&
            LastClassification(eot.classifications, FormatCodeScheme).Some? ==>
              r == Err(Runtime(NullPointer))
    ensures r.Ok? ==> r.value.uniqueId == docUniqueId && r.value.payload == documents[eot.id] &&
                      r.value.mimeType == eot.mimeType
    ensures r.Ok? ==> exists k :: 0 <= k < |eot.classifications| &&
                        eot.classifications[k].scheme == TypeCodeScheme &&
                        r.value.typeCode == CodedValueOf(eot.classifications[k]) &&
                        forall j :: k < j < |eot.classifications| ==> eot.classifications[j].scheme != TypeCodeScheme
    ensures r.Ok? ==> exists k :: 0 <= k < |eot.classifications| &&
                        eot.classifications[k].scheme == FormatCodeScheme &&
                        r.value.formatCode == CodedValueOf(eot.classifications[k]) &&
                        forall j :: k < j < |eot.classifications| ==> eot.classifications[j].scheme != FormatCodeScheme
  {
    match LastClassification(eot.classifications, TypeCodeScheme)
    case None => Err(RepositoryMetadataError(TypeCodeMissing))
    case Some(typeCode) =>
      match LastClassification(eot.classifications, FormatCodeScheme)
      case None => Err(RepositoryMetadataError(FormatCodeMissing))
      case Some(formatCode) =>
        if eot.id !in documents then Err(Runtime(NullPointer))
        else Ok(Content(docUniqueId, documents[eot.id], CodedValueOf(typeCode), CodedValueOf(formatCode), eot.mimeType))
  }
}

=== FILE: outcomes.dfy ===
/**
 * Optional values, the repository's error taxonomy, and first/last-match scans
 * over sequences. Java's `null` returns become `None`; its exceptions become `Err`.
 */
module Outcomes {

  datatype Option<+T> = None | Some(value: T)
  {
    function GetOr(default: T): T
    {
      match this
      case Some(v) => v
      case None => default
    }
  }

  /** Why a document entry's metadata was refused (XDS_ERR_REPOSITORY_METADATA_ERROR). */
  datatype MetadataProblem =
    | UniqueIdMissing
    | ClassCodeMissing
    | PatientIdMissing
    | SourcePatientIdMissing
    | EmptyIdentifier
    | NoAssigningAuthority
    | HashIncorrect
    | SizeIncorrect
    | SizeNotNumber
    | TypeCodeMissing
    | FormatCodeMissing
    | BirthDateUnparseable(value: string)

  /** Java runtime exceptions that the source does not catch itself. */
  datatype RuntimeFault = NullPointer | IndexOutOfBounds

  /** Everything an operation of the repository can fail with. */
  datatype XdsError =
    | MissingDocument(ids: set<string>)           // XDS_ERR_MISSING_DOCUMENT
    | MissingDocumentMetadata(ids: set<string>)   // XDS_ERR_MISSING_DOCUMENT_METADATA
    | RepositoryMetadataError(problem: MetadataProblem)
    | DocumentUniqueIdDuplicate(id: string)       // XDS_ERR_DOCUMENT_UNIQUE_ID_ERROR
    | UnknownPatientId(id: string)                // XDS_ERR_UNKNOWN_PATID
    | RegistryNotAvailable                        // XDS_ERR_REG_NOT_AVAIL
    | AmbiguousPatient(id: string)                // PatientIdentifierException
    | UnsupportedGender(code: string)             // UnsupportedGenderException
    | SlotNameNotUnique(name: string)             // JAXBException from the slot-map helper
    | ServiceStartTimeUnparseable(value: string)  // ParseException, reported as XDS_ERR_REPOSITORY_ERROR
    | Runtime(fault: RuntimeFault)

  datatype Result<+T> = Ok(value: T) | Err(error: XdsError)

  /** Index of the first element satisfying `p`: a `for` loop that returns on
      its first hit. */
  function FirstIndex<T>(s: seq<T>, p: T -> bool): (r: Option<nat>)
    ensures r.Some? ==> r.value < |s| && p(s[r.value])
    ensures r.Some? ==> forall j :: 0 <= j < r.value ==> !p(s[j])
    ensures r.None? ==> forall j :: 0 <= j < |s| ==> !p(s[j])
  {
    if |s| == 0 then None
    else if p(s[0]) then Some(0)
    else match FirstIndex(s[1..], p)
      case None => None
      case Some(i) => Some(i + 1)
  }

  /** Index of the last element satisfying `p`: a loop that keeps overwriting
      its result on every hit. */
  function LastIndex<T>(s: seq<T>, p: T -> bool): (r: Option<nat>)
    ensures r.Some? ==> r.value < |s| && p(s[r.value])
    ensures r.Some? ==> forall j :: r.value < j < |s| ==> !p(s[j])
    ensures r.None? ==> forall j :: 0 <= j < |s| ==> !p(s[j])
  {
    if |s| == 0 then None
    else if p(s[|s| - 1]) then Some(|s| - 1)
    else LastIndex(s[..|s| - 1], p)
  }

  /** An index holding a match with no match before it is the first match. */
  lemma {:induction false} FirstIndexAt<T>(s: seq<T>, p: T -> bool, i: nat)
    requires i < |s| && p(s[i])
    requires forall j :: 0 <= j < i ==> !p(s[j])
    ensures FirstIndex(s, p) == Some(i)
  {
    if i > 0 {
      FirstIndexAt(s[1..], p, i - 1);
    }
  }

  /** Appending never changes an existing first match. */
  lemma {:induction false} FirstIndexAppend<T>(s: seq<T>, x: T, p: T -> bool)
    ensures FirstIndex(s, p).Some? ==> FirstIndex(s + [x], p) == FirstIndex(s, p)
    ensures FirstIndex(s, p).None? && p(x) ==> FirstIndex(s + [x], p) == Some(|s|)
    ensures FirstIndex(s, p).None? && !p(x) ==> FirstIndex(s + [x], p).None?
  {
    if |s| == 0 {
      assert s + [x] == [x];
    } else {
      assert (s + [x])[0] == s[0];
      assert (s + [x])[1..] == s[1..] + [x];
      FirstIndexAppend(s[1..], x, p);
    }
  }
}

=== FILE: patientregistry.dfy ===
/**
 * The patient store the repository writes to: identifier types and patients
 * that methods change in place, as `findOrCreatePatient` and its helpers do.
 */
module PatientRegistry {

  import opened Outcomes
  import opened Text
  import opened Entries
  import opened Identifiers
  import opened Patients

  /** The enterprise patient id of an entry, parsed; a missing one reaches
      `replaceAll` as `null`. */
  function EnterpriseId(eot: DocumentEntry): (r: Result<PatientId>)
    ensures ExternalIdentifierValue(eot.externalIdentifiers, PatientIdScheme).None? ==> r == Err(Runtime(NullPointer))
    ensures ExternalIdentifierValue(eot.externalIdentifiers, PatientIdScheme).Some? ==>
              r == ParsePatientIdentifier(ExternalIdentifierValue(eot.externalIdentifiers, PatientIdScheme).value)
  {
    match ExternalIdentifierValue(eot.externalIdentifiers, PatientIdScheme)
    case None => Err(Runtime(NullPointer))
    case Some(cx) => ParsePatientIdentifier(cx)
  }

  /** The source patient id of an entry, parsed, with the same null case. */
  function SourceId(eot: DocumentEntry): (r: Result<PatientId>)
    reads eot
    ensures GetSlotValue(eot.slots, SlotSourcePatientId).None? ==> r == Err(Runtime(NullPointer))
    ensures GetSlotValue(eot.slots, SlotSourcePatientId).Some? ==>
              r == ParsePatientIdentifier(GetSlotValue(eot.slots, SlotSourcePatientId).value)
  {
    match GetSlotValue(eot.slots, SlotSourcePatientId)
    case None => Err(Runtime(NullPointer))
    case Some(cx) => ParsePatientIdentifier(cx)
  }

  /** `getPatients(null, value, [type], true)`: the positions of the patients that
      carry exactly this identifier. */
  function MatchingPatients(ps: seq<Patient>, value: string, typeId: nat): (r: set<nat>)
    ensures forall k: nat :: k in r <==> k < |ps| && HasIdentifier(ps[k].identifiers, value, typeId)
  {
    set k: nat | k < |ps| && HasIdentifier(ps[k].identifiers, value, typeId)
  }

  /** A set of one element holds nothing but the element it is known to hold. */
  lemma OnlyMember(found: set<nat>, k: nat)
    requires |found| == 1 && k in found
    ensures found == {k}
  {
    var rest := found - {k};
    assert found == rest + {k};
    assert |rest| == 0;
  }

  /** The outcome of one step of the fold is final once it is an error. */
  lemma {:induction false} IntakeErrorSticks(values: seq<string>, i: nat, s0: Intake, settings: Settings, parseDate: string -> Option<int>)
    requires i <= |values|
    requires IntakeFold(values[..i], s0, settings, parseDate).Err?
    ensures IntakeFold(values, s0, settings, parseDate) == IntakeFold(values[..i], s0, settings, parseDate)
    decreases |values| - i
  {
    if i < |values| {
      assert values[..i + 1][..i] == values[..i];
      IntakeErrorSticks(values, i + 1, s0, settings, parseDate);
    } else {
      assert values[..i] == values;
    }
  }

  /** The outcome once the lookup settled on position `k`, whose patient was `p`
      with the identifier-type table `types`: the source identifier `src`'s
      error, or `k` with the source identifier added to `p` in the store `ps`. */
  ghost predicate LocalAdded(settings: Settings, src: Result<PatientId>, ps: seq<Patient>, r: Result<nat>,
                             k: nat, p: Patient, types: seq<IdentifierType>)
  {
    (src.Err? ==> r == Err(src.error)) &&
    (src.Ok? ==>
       var res := ResolveIdentifierType(types, settings.identifierMapping, src.value.domain);
       r == Ok(k) && k < |ps| &&
       ps[k] == p.(identifiers := WithLocalIdentifier(p.identifiers, src.value.value, res.idType.id, settings.defaultLocation)))
  }

  /** What `findOrCreatePatient` promises once the enterprise id has parsed to
      `id`, against the patients and identifier types it started from, for an
      entry with slots `slots` and source identifier `src`, leaving the store
      `ps`: the three error cases, the one matching patient or the created one
      with the source identifier added, and the enterprise identifier on the
      result. */
  ghost predicate Settled(settings: Settings, slots: seq<Slot>, src: Result<PatientId>, ps: seq<Patient>, r: Result<nat>,
                          id: PatientId, patients0: seq<Patient>, types0: seq<IdentifierType>,
                          parseDate: string -> Option<int>)
  {
    var res := ResolveIdentifierType(types0, settings.identifierMapping, id.domain);
    var found := MatchingPatients(patients0, id.value, res.idType.id);
    var c := CreatedPatient(slots, id.value, res.idType, res.types, settings, parseDate);
    (|found| > 1 ==> r == Err(AmbiguousPatient(id.value))) &&
    (found == {} && settings.autoCreatePatients.None? ==> r == Err(Runtime(NullPointer))) &&
    (found == {} && settings.autoCreatePatients.Some? && settings.autoCreatePatients.value != "true" ==>
       r == Err(UnknownPatientId(id.value))) &&
    (|found| == 1 ==> forall k :: k in found && k < |patients0| ==> LocalAdded(settings, src, ps, r, k, patients0[k], res.types)) &&
    (found == {} && settings.autoCreatePatients == Some("true") ==>
       (c.Err? ==> r == Err(c.error)) &&
       (c.Ok? ==> LocalAdded(settings, src, ps, r, |patients0|, c.value.patient, c.value.types))) &&
    (r.Ok? ==> r.value < |ps| && HasIdentifier(ps[r.value].identifiers, id.value, res.idType.id))
  }

  /** The lookup's outcome `k` (stores `ps0`, `types0` before it, `ps1`, `types1`
      after) followed by the source identifier's addition (store `ps2` after it)
      settles as `findOrCreatePatient` promises. */
  lemma TaggedSettles(settings: Settings, slots: seq<Slot>, src: Result<PatientId>, id: PatientId,
                      parseDate: string -> Option<int>, ps0: seq<Patient>, types0: seq<IdentifierType>,
                      ps1: seq<Patient>, types1: seq<IdentifierType>, k: Result<nat>, ps2: seq<Patient>, r: Result<nat>)
    requires var res := ResolveIdentifierType(types0, settings.identifierMapping, id.domain);
             var found := MatchingPatients(ps0, id.value, res.idType.id);
             var c := CreatedPatient(slots, id.value, res.idType, res.types, settings, parseDate);
             (|found| > 1 ==> k == Err(AmbiguousPatient(id.value))) &&
             (found == {} && settings.autoCreatePatients.None? ==> k == Err(Runtime(NullPointer))) &&
             (found == {} && settings.autoCreatePatients.Some? && settings.autoCreatePatients.value != "true" ==>
                k == Err(UnknownPatientId(id.value))) &&
             (k.Ok? ==> k.value < |ps1| && HasIdentifier(ps1[k.value].identifiers, id.value, res.idType.id)) &&
             (|found| == 1 ==> k.Ok? && found == {k.value} && types1 == res.types) &&
             (found == {} && settings.autoCreatePatients == Some("true") ==>
                (c.Err? ==> k == Err(c.error)) &&
                (c.Ok? ==> k == Ok(|ps0|) && ps1 == ps0 + [c.value.patient] && types1 == c.value.types)) &&
             ((k.Ok? && k.value < |ps0|) || k.Err? ==> ps1 == ps0)
    requires k.Err? ==> r == Err(k.error)
    requires k.Ok? && src.Err? ==> r == Err(src.error)
    requires k.Ok? && k.value < |ps1| && src.Ok? ==>
               var res := ResolveIdentifierType(types1, settings.identifierMapping, src.value.domain);
               r == Ok(k.value) &&
               ps2 == ps1[k.value := ps1[k.value].(identifiers :=
                 WithLocalIdentifier(ps1[k.value].identifiers, src.value.value, res.idType.id, settings.defaultLocation))]
    ensures Settled(settings, slots, src, ps2, r, id, ps0, types0, parseDate)
  {
    var res := ResolveIdentifierType(types0, settings.identifierMapping, id.domain);
    if r.Ok? {
      var s := ResolveIdentifierType(types1, settings.identifierMapping, src.value.domain);
      LocalIdentifierKeeps(ps1[k.value].identifiers, src.value.value, s.idType.id, settings.defaultLocation,
                           id.value, res.idType.id);
      if k.value < |ps0| {
        assert LocalAdded(settings, src, ps2, r, k.value, ps0[k.value], res.types);
      } else {
        var c := CreatedPatient(slots, id.value, res.idType, res.types, settings, parseDate);
        assert LocalAdded(settings, src, ps2, r, |ps0|, c.value.patient, c.value.types);
      }
    }
  }

  class Registry {
    var identifierTypes: seq<IdentifierType>
    var patients: seq<Patient>
    const settings: Settings

    ghost predicate Valid()
      reads this
    {
      TypesNumbered(identifierTypes)
    }

    constructor (settings: Settings)
      ensures Valid()
      ensures this.settings == settings && identifierTypes == [] && patients == []
    {
      this.settings := settings;
      identifierTypes := [];
      patients := [];
    }

    /** `getIdentifierType` together with `createIdentifierType`. */
    method GetIdentifierType(domain: string) returns (t: IdentifierType)
      requires Valid()
      modifies this
      ensures Valid()
      ensures Resolution(t, identifierTypes) == ResolveIdentifierType(old(identifierTypes), settings.identifierMapping, domain)
      ensures patients == old(patients)
    {
      var byUuid: Option<IdentifierType> := None;
      if domain in settings.identifierMapping {
        byUuid := TypeWithUuid(identifierTypes, settings.identifierMapping[domain]);
      }
      if byUuid.Some? {
        return byUuid.value;
      }
      var byName := TypeWithName(identifierTypes, domain);
      if byName.Some? {
        return byName.value;
      }
      t := IdentifierType(|identifierTypes|, None, domain);
      identifierTypes := identifierTypes + [t];
    }

    /** `createPatient`: walks the sourcePatientInfo values, then finishes the
        patient; the result is what `CreatedPatient` describes. */
    method CreatePatient(eot: DocumentEntry, patId: string, idType: IdentifierType, parseDate: string -> Option<int>)
      returns (r: Result<Patient>)
      requires Valid()
      modifies this
      ensures Valid()
      ensures patients == old(patients)
      ensures old(identifierTypes) <= identifierTypes
      ensures var spec := CreatedPatient(eot.slots, patId, idType, old(identifierTypes), settings, parseDate);
              r.Ok? == spec.Ok? && (r.Err? ==> r.error == spec.error) &&
              (r.Ok? ==> r.value == spec.value.patient && identifierTypes == spec.value.types)
    {
      var byName := SlotsByName(eot.slots);
      if byName.Err? {
        return Err(byName.error);
      }
      if SlotSourcePatientInfo !in byName.value {
        return Err(Runtime(NullPointer));
      }
      var values := byName.value[SlotSourcePatientInfo].values;
      ghost var init := Intake(EmptyPatient(), Some(settings.defaultLocation), identifierTypes);
      var location: Option<nat> := Some(settings.defaultLocation);
      var pat := EmptyPatient();
      assert values[..0] == [];
      for i := 0 to |values|
        invariant Valid() && patients == old(patients)
        invariant IntakeFold(values[..i], init, settings, parseDate) == Ok(Intake(pat, location, identifierTypes))
      {
        var val := values[i];
        ghost var before := Intake(pat, location, identifierTypes);
        assert values[..i + 1][..i] == values[..i];
        assert values[..i + 1][i] == val;
        if StartsWith(val, Pid3) {
          var v := ReplaceAll(val, Pid3, "");
          var id := ParsePatientIdentifier(v);
          if id.Err? {
            IntakeErrorSticks(values, i + 1, init, settings, parseDate);
            return Err(id.error);
          }
          var t := GetIdentifierType(id.value.domain);
          var pi := PatientIdentifier(id.value.value, t.id, settings.defaultLocation, t.name == "ECID");
          pat := pat.(identifiers := AddIdentifier(pat.identifiers, pi));
        } else if StartsWith(val, Pid5) {
          var pn := CreatePatientName(SplitAll(ReplaceAll(val, Pid5, ""), '^'));
          pat := pat.(names := pat.names + [pn]);
        } else if StartsWith(val, Pid7) {
          var v := ReplaceAll(val, Pid7, "");
          var dob := parseDate(v);
          if dob.None? {
            IntakeErrorSticks(values, i + 1, init, settings, parseDate);
            return Err(RepositoryMetadataError(BirthDateUnparseable(v)));
          }
          pat := pat.(birthdate := Some(dob.value));
        } else if StartsWith(val, Pid8) {
          var v := ReplaceAll(val, Pid8, "");
          if UnsupportedGenderCode(v) {
            IntakeErrorSticks(values, i + 1, init, settings, parseDate);
            return Err(UnsupportedGender(v));
          }
          pat := pat.(gender := Some(v));
        } else if StartsWith(val, Pid11) {
          var c := SplitAll(ReplaceAll(val, Pid11, ""), '^');
          location := LocationNamed(settings, c[0]);
          pat := pat.(addresses := pat.addresses + [CreatePatientAddress(c)]);
        }
        assert IntakeStep(before, val, settings, parseDate) == Ok(Intake(pat, location, identifierTypes));
      }
      assert values[..|values|] == values;
      ghost var done := Intake(pat, location, identifierTypes);
      if location.None? {
        location := Some(settings.defaultLocation);
      }
      pat := pat.(identifiers := AddIdentifier(pat.identifiers, PatientIdentifier(patId, idType.id, location.value, true)));
      if pat.gender.None? {
        pat := pat.(gender := Some("U"));
      }
      if |pat.names| == 0 {
        pat := pat.(names := [PlaceholderName]);
      }
      assert pat == FinishPatient(done, patId, idType, settings);
      return Ok(pat);
    }

    /** `addLocalIdentifierToPatient` on the patient at position `k`. */
    method AddLocalIdentifierToPatient(eot: DocumentEntry, k: nat) returns (r: Result<()>)
      requires Valid() && k < |patients|
      modifies this
      ensures Valid()
      ensures SourceId(eot).Err? ==>
                r == Err(SourceId(eot).error) && patients == old(patients) && identifierTypes == old(identifierTypes)
      ensures SourceId(eot).Ok? ==>
                var src := SourceId(eot).value;
                var res := ResolveIdentifierType(old(identifierTypes), settings.identifierMapping, src.domain);
                r == Ok(()) && identifierTypes == res.types &&
                patients == old(patients)[k := old(patients)[k].(identifiers :=
                  WithLocalIdentifier(old(patients)[k].identifiers, src.value, res.idType.id, settings.defaultLocation))]
    {
      var cx := GetSlotValue(eot.slots, SlotSourcePatientId);
      if cx.None? {
        return Err(Runtime(NullPointer));
      }
      var id := ParsePatientIdentifier(cx.value);
      if id.Err? {
        return Err(id.error);
      }
      var pit := GetIdentifierType(id.value.domain);
      var ids := patients[k].identifiers;
      var hasId := false;
      for i := 0 to |ids|
        invariant !hasId ==> forall j :: 0 <= j < i ==> !(ids[j].typeId == pit.id && ids[j].identifier == id.value.value)
        invariant hasId ==> HasIdentifier(ids, id.value.value, pit.id)
      {
        hasId := ids[i].typeId == pit.id && ids[i].identifier == id.value.value;
        if hasId {
          break;
        }
      }
      if !hasId {
        var pi := PatientIdentifier(id.value.value, pit.id, settings.defaultLocation, false);
        patients := patients[k := patients[k].(identifiers := ids + [pi])];
      }
      return Ok(());
    }

    /** The lookup half of `findOrCreatePatient` for a parsed enterprise id: the
        one patient carrying it, or a new one when none does and autocreation is
        on. */
    method FindPatient(eot: DocumentEntry, id: PatientId, parseDate: string -> Option<int>) returns (r: Result<nat>)
      requires Valid()
      modifies this
      ensures Valid()
      ensures var t := ResolveIdentifierType(old(identifierTypes), settings.identifierMapping, id.domain).idType;
              var found := MatchingPatients(old(patients), id.value, t.id);
              (|found| > 1 ==> r == Err(AmbiguousPatient(id.value))) &&
              (found == {} && settings.autoCreatePatients.None? ==> r == Err(Runtime(NullPointer))) &&
              (found == {} && settings.autoCreatePatients.Some? && settings.autoCreatePatients.value != "true" ==>
                 r == Err(UnknownPatientId(id.value))) &&
              (r.Ok? ==> r.value < |patients| && HasIdentifier(patients[r.value].identifiers, id.value, t.id)) &&
              (r.Ok? && r.value < |old(patients)| ==> found == {r.value}) &&
              (r.Ok? && r.value >= |old(patients)| ==> found == {} && settings.autoCreatePatients == Some("true"))
      ensures var res := ResolveIdentifierType(old(identifierTypes), settings.identifierMapping, id.domain);
              var found := MatchingPatients(old(patients), id.value, res.idType.id);
              var c := CreatedPatient(eot.slots, id.value, res.idType, res.types, settings, parseDate);
              (|found| == 1 ==> r.Ok? && found == {r.value} && identifierTypes == res.types) &&
              (found == {} && settings.autoCreatePatients == Some("true") ==>
                 (c.Err? ==> r == Err(c.error)) &&
                 (c.Ok? ==> r == Ok(|old(patients)|) && patients == old(patients) + [c.value.patient] &&
                            identifierTypes == c.value.types))
      ensures (r.Ok? && r.value < |old(patients)|) || r.Err? ==> patients == old(patients)
      ensures r.Ok? && r.value >= |old(patients)| ==>
                r.value == |old(patients)| && |patients| == |old(patients)| + 1 && patients[..r.value] == old(patients)
    {
      var idType := GetIdentifierType(id.domain);
      var found := MatchingPatients(patients, id.value, idType.id);
      if |found| > 1 {
        return Err(AmbiguousPatient(id.value));
      } else if |found| == 0 {
        if settings.autoCreatePatients.None? {
          return Err(Runtime(NullPointer));
        }
        if settings.autoCreatePatients.value != "true" {
          return Err(UnknownPatientId(id.value));
        }
        var created := CreatePatient(eot, id.value, idType, parseDate);
        if created.Err? {
          return Err(created.error);
        }
        patients := patients + [created.value];
        return Ok(|patients| - 1);
      } else {
        var k :| k in found;
        OnlyMember(found, k);
        return Ok(k);
      }
    }

    /** The lookup, creation and source-identifier steps of `findOrCreatePatient`
        for a parsed enterprise id. */
    method FindAndTag(eot: DocumentEntry, id: PatientId, parseDate: string -> Option<int>) returns (r: Result<nat>)
      requires Valid()
      modifies this
      ensures Valid()
      ensures |old(patients)| <= |patients| <= |old(patients)| + 1
      ensures Settled(settings, eot.slots, SourceId(eot), patients, r, id, old(patients), old(identifierTypes), parseDate)
      ensures r.Ok? ==> SourceId(eot).Ok? &&
                        (var src := SourceId(eot).value;
                         HasIdentifier(patients[r.value].identifiers, src.value,
                                       ResolveIdentifierType(identifierTypes, settings.identifierMapping, src.domain).idType.id))
      ensures forall j :: 0 <= j < |old(patients)| && (r.Err? || j != r.value) ==> patients[j] == old(patients)[j]
    {
      ghost var ps0, types0 := patients, identifierTypes;
      var k := FindPatient(eot, id, parseDate);
      ghost var ps1, types1 := patients, identifierTypes;
      if k.Err? {
        r := Err(k.error);
        TaggedSettles(settings, eot.slots, SourceId(eot), id, parseDate, ps0, types0, ps1, types1, k, patients, r);
        return;
      }
      var local := AddLocalIdentifierToPatient(eot, k.value);
      if local.Err? {
        r := Err(local.error);
      } else {
        r := Ok(k.value);
        ghost var src := SourceId(eot).value;
        ResolveStable(types1, settings.identifierMapping, src.domain);
      }
      TaggedSettles(settings, eot.slots, SourceId(eot), id, parseDate, ps0, types0, ps1, types1, k, patients, r);
    }

    /** `findOrCreatePatient`: the patient the entry's enterprise id names, created
        when unknown and autocreation is on, then given the source identifier. */
    method FindOrCreatePatient(eot: DocumentEntry, parseDate: string -> Option<int>) returns (r: Result<nat>)
      requires Valid()
      modifies this
      ensures Valid()
      ensures |old(patients)| <= |patients| <= |old(patients)| + 1
      ensures EnterpriseId(eot).Err? ==>
                r == Err(EnterpriseId(eot).error) && patients == old(patients) && identifierTypes == old(identifierTypes)
      ensures EnterpriseId(eot).Ok? ==>
                Settled(settings, eot.slots, SourceId(eot), patients, r, EnterpriseId(eot).value,
                        old(patients), old(identifierTypes), parseDate)
      ensures r.Ok? ==> SourceId(eot).Ok? &&
                        (var src := SourceId(eot).value;
                         HasIdentifier(patients[r.value].identifiers, src.value,
                                       ResolveIdentifierType(identifierTypes, settings.identifierMapping, src.domain).idType.id))
      ensures forall j :: 0 <= j < |old(patients)| && (r.Err? || j != r.value) ==> patients[j] == old(patients)[j]
    {
      var id := EnterpriseId(eot);
      if id.Err? {
        return Err(id.error);
      }
      r := FindAndTag(eot, id.value, parseDate);
    }
  }
}

=== FILE: patients.dfy ===
/**
 * Patients as the repository sees them: identifier types resolved per assigning
 * authority, demographics taken from the sourcePatientInfo slot (HL7 v2 PID
 * fields), and the find-or-create step that links a submission to a patient.
 */
module Patients {

  import opened Outcomes
  import opened Text
  import opened Entries
  import opened Identifiers

  /** A patient identifier type; `id` is its position in the registry's table. */
  datatype IdentifierType = IdentifierType(id: nat, uuid: Option<string>, name: string)

  /** One identifier of a patient, with the id of its type and of its location. */
  datatype PatientIdentifier = PatientIdentifier(identifier: string, typeId: nat, location: nat, preferred: bool)

  datatype PersonName = PersonName(familyName: string, givenName: string, middleName: Option<string>,
                                   familyNameSuffix: Option<string>, prefix: Option<string>, degree: Option<string>)

  datatype PersonAddress = PersonAddress(address1: Option<string>, address2: Option<string>, cityVillage: Option<string>,
                                         stateProvince: Option<string>, postalCode: Option<string>, country: Option<string>)

  datatype Patient = Patient(identifiers: seq<PatientIdentifier>, names: seq<PersonName>, gender: Option<string>,
                             birthdate: Option<int>, addresses: seq<PersonAddress>)

  /** Site configuration: the assigning-authority to identifier-type mapping, the
      autocreate global property (absent when unset), the default location and
      the locations known by name. */
  datatype Settings = Settings(identifierMapping: map<string, string>, autoCreatePatients: Option<string>,
                               defaultLocation: nat, locationsByName: map<string, nat>)

  /** Component `k` of a split value, absent past the end (the source catches the
      `ArrayIndexOutOfBoundsException` and stops filling). */
  function Nth(c: seq<string>, k: nat): Option<string>
  {
    if k < |c| then Some(c[k]) else None
  }

  /** What the source writes for a name part it does not have. */
  const Placeholder := "*"

  /** `createPatientName`: XPN components family, given, middle, suffix, prefix,
      degree; an empty family or given name becomes the placeholder. */
  function CreatePatientName(c: seq<string>): (pn: PersonName)
    ensures pn.familyName != "" && pn.givenName != ""
    ensures |c| > 0 && c[0] != "" ==> pn.familyName == c[0]
    ensures |c| > 1 && c[1] != "" ==> pn.givenName == c[1]
    ensures |c| == 0 || c[0] == "" ==> pn.familyName == Placeholder
    ensures |c| <= 1 || c[1] == "" ==> pn.givenName == Placeholder
    ensures |c| > 0 ==> pn.middleName == Nth(c, 2) && pn.familyNameSuffix == Nth(c, 3) &&
                        pn.prefix == Nth(c, 4) && pn.degree == Nth(c, 5)
  {
    if |c| == 0 then PersonName(Placeholder, Placeholder, Some(Placeholder), None, None, None)
    else
      PersonName(if c[0] == "" then Placeholder else c[0],
                 if |c| == 1 || c[1] == "" then Placeholder else c[1],
                 Nth(c, 2), Nth(c, 3), Nth(c, 4), Nth(c, 5))
  }

  /** A name written as an XPN field, the form a source system puts in PID-5. */
  function FormatXpn(family: string, given: string, middle: string, suffix: string, prefix: string, degree: string): string
  {
    JoinWith([family, given, middle, suffix, prefix, degree], '^')
  }

  /** Reading back a full XPN field gives every part that was written. */
  lemma NameRoundTrip(family: string, given: string, middle: string, suffix: string, prefix: string, degree: string)
    requires family != "" && given != ""
    requires '^' !in family && '^' !in given && '^' !in middle && '^' !in suffix && '^' !in prefix && '^' !in degree
    ensures CreatePatientName(SplitAll(FormatXpn(family, given, middle, suffix, prefix, degree), '^')) ==
            PersonName(family, given, Some(middle), Some(suffix), Some(prefix), Some(degree))
  {
    SplitAllJoin([family, given, middle, suffix, prefix, degree], '^');
  }

  /** A bare "family^given" field leaves the later parts unset. */
  lemma ShortNameRoundTrip(family: string, given: string)
    requires family != "" && given != "" && '^' !in family && '^' !in given
    ensures CreatePatientName(SplitAll(JoinWith([family, given], '^'), '^')) ==
            PersonName(family, given, None, None, None, None)
  {
    SplitAllJoin([family, given], '^');
  }

  /** `createPatientAddress`: XAD components street, other designation, city,
      state, postal code, country, each set while the components last. */
  function CreatePatientAddress(c: seq<string>): (pa: PersonAddress)
    ensures |c| > 0 ==> pa.address1 == Some(c[0])
    ensures |c| > 1 ==> pa.address2 == Some(c[1])
    ensures |c| > 2 ==> pa.cityVillage == Some(c[2])
    ensures |c| > 3 ==> pa.stateProvince == Some(c[3])
    ensures |c| > 4 ==> pa.postalCode == Some(c[4])
    ensures |c| > 5 ==> pa.country == Some(c[5])
    ensures |c| <= 5 ==> pa.country.None?
    ensures |c| <= 4 ==> pa.postalCode.None?
    ensures |c| <= 3 ==> pa.stateProvince.None?
    ensures |c| <= 2 ==> pa.cityVillage.None?
    ensures |c| <= 1 ==> pa.address2.None?
  {
    PersonAddress(Nth(c, 0), Nth(c, 1), Nth(c, 2), Nth(c, 3), Nth(c, 4), Nth(c, 5))
  }

  function FormatXad(street: string, other: string, city: string, state: string, postalCode: string, country: string): string
  {
    JoinWith([street, other, city, state, postalCode, country], '^')
  }

  /** Reading back a full XAD field gives every part that was written. */
  lemma AddressRoundTrip(street: string, other: string, city: string, state: string, postalCode: string, country: string)
    requires '^' !in street && '^' !in other && '^' !in city && '^' !in state && '^' !in postalCode && '^' !in country
    ensures CreatePatientAddress(SplitAll(FormatXad(street, other, city, state, postalCode, country), '^')) ==
            PersonAddress(Some(street), Some(other), Some(city), Some(state), Some(postalCode), Some(country))
  {
    SplitAllJoin([street, other, city, state, postalCode, country], '^');
  }

  /** A field with fewer components leaves the rest of the address unset. */
  lemma ShortAddress(c: seq<string>)
    requires |c| < 6
    ensures CreatePatientAddress(c).country.None?
    ensures |c| > 0 ==> CreatePatientAddress(c).address1 == Some(c[0])
  {
  }

  /** Every type sits at the position its id names. */
  ghost predicate TypesNumbered(types: seq<IdentifierType>)
  {
    forall k :: 0 <= k < |types| ==> types[k].id == k
  }

  /** `getPatientIdentifierTypeByUuid` */
  function TypeWithUuid(types: seq<IdentifierType>, uuid: string): (r: Option<IdentifierType>)
    ensures r.Some? ==> r.value in types && r.value.uuid == Some(uuid)
    ensures r.None? <==> forall k :: 0 <= k < |types| ==> types[k].uuid != Some(uuid)
  {
    match FirstIndex(types, (t: IdentifierType) => t.uuid == Some(uuid))
    case None => None
    case Some(i) => Some(types[i])
  }

  /** `getPatientIdentifierTypeByName` */
  function TypeWithName(types: seq<IdentifierType>, name: string): (r: Option<IdentifierType>)
    ensures r.Some? ==> r.value in types && r.value.name == name
    ensures r.None? <==> forall k :: 0 <= k < |types| ==> types[k].name != name
  {
    match FirstIndex(types, (t: IdentifierType) => t.name == name)
    case None => None
    case Some(i) => Some(types[i])
  }

  /** The identifier type chosen for an assigning authority, and the table after
      the choice. */
  datatype Resolution = Resolution(idType: IdentifierType, types: seq<IdentifierType>)

  /** `getIdentifierType`: the type the mapping names by uuid, else the type named
      after the domain, else a new type named after the domain. */
  function ResolveIdentifierType(types: seq<IdentifierType>, mapping: map<string, string>, domain: string): (r: Resolution)
    ensures r.types == types || r.types == types + [IdentifierType(|types|, None, domain)]
    ensures r.idType in r.types
    ensures r.types != types ==>
              TypeWithName(types, domain).None? && (domain !in mapping || TypeWithUuid(types, mapping[domain]).None?)
    ensures domain in mapping && TypeWithUuid(types, mapping[domain]).Some? ==>
              r.idType == TypeWithUuid(types, mapping[domain]).value && r.types == types
    ensures domain !in mapping || TypeWithUuid(types, mapping[domain]).None? ==> r.idType.name == domain
    ensures TypesNumbered(types) ==> TypesNumbered(r.types)
  {
    var byUuid := if domain in mapping then TypeWithUuid(types, mapping[domain]) else None;
    if byUuid.Some? then Resolution(byUuid.value, types)
    else
      match TypeWithName(types, domain)
      case Some(t) => Resolution(t, types)
      case None =>
        var t := IdentifierType(|types|, None, domain);
        Resolution(t, types + [t])
  }

  /** Resolving the same authority again finds the same type and creates nothing. */
  lemma ResolveStable(types: seq<IdentifierType>, mapping: map<string, string>, domain: string)
    ensures var r := ResolveIdentifierType(types, mapping, domain);
            ResolveIdentifierType(r.types, mapping, domain) == Resolution(r.idType, r.types)
  {
    var r := ResolveIdentifierType(types, mapping, domain);
    if r.types != types {
      var t := IdentifierType(|types|, None, domain);
      assert r.types == types + [t];
      assert domain in mapping ==> TypeWithUuid(r.types, mapping[domain]).None? by {
        if domain in mapping {
          forall k | 0 <= k < |r.types| ensures r.types[k].uuid != Some(mapping[domain]) {
            if k < |types| { assert r.types[k] == types[k]; }
          }
        }
      }
      var n := TypeWithName(r.types, domain);
      assert r.types[|types|].name == domain;
      assert n.Some?;
    }
  }

  /** The tags that open each supported sourcePatientInfo value. */
  const Pid3 := "PID-3|"
  const Pid5 := "PID-5|"
  const Pid7 := "PID-7|"
  const Pid8 := "PID-8|"
  const Pid11 := "PID-11|"

  /** The tags differ in their fifth character, so a value opens with at most
      one of them. */
  lemma TagsDisjoint(v: string)
    ensures StartsWith(v, Pid3) ==> !StartsWith(v, Pid5) && !StartsWith(v, Pid7) && !StartsWith(v, Pid8) && !StartsWith(v, Pid11)
    ensures StartsWith(v, Pid5) ==> !StartsWith(v, Pid7) && !StartsWith(v, Pid8) && !StartsWith(v, Pid11)
    ensures StartsWith(v, Pid7) ==> !StartsWith(v, Pid8) && !StartsWith(v, Pid11)
    ensures StartsWith(v, Pid8) ==> !StartsWith(v, Pid11)
  {
    if StartsWith(v, Pid3) { assert v[4] == Pid3[4]; }
    if StartsWith(v, Pid5) { assert v[4] == Pid5[4]; }
    if StartsWith(v, Pid7) { assert v[4] == Pid7[4]; }
    if StartsWith(v, Pid8) { assert v[4] == Pid8[4]; }
    if StartsWith(v, Pid11) { assert v[4] == Pid11[4]; }
  }

  /** Gender codes OpenMRS cannot store (other, unknown, ambiguous, not
      applicable), in either case. */
  function UnsupportedGenderCode(v: string): (b: bool)
    ensures b <==> |v| == 1 && v[0] in "OoUuAaNn"
  {
    EqualsIgnoreCase(v, "O") || EqualsIgnoreCase(v, "U") || EqualsIgnoreCase(v, "A") || EqualsIgnoreCase(v, "N")
  }

  /** `LocationService.getLocation(name)`: the location saved under that name,
      none when there is none. */
  function LocationNamed(settings: Settings, name: string): (r: Option<nat>)
    ensures r.None? <==> name !in settings.locationsByName
    ensures r.Some? ==> r.value in settings.locationsByName.Values
  {
    if name in settings.locationsByName then Some(settings.locationsByName[name]) else None
  }

  /** Whether a patient carries `value` under the type `typeId` at `location`:
      the content OpenMRS compares when an identifier is added. */
  predicate HasIdentifierAt(ids: seq<PatientIdentifier>, value: string, typeId: nat, location: nat)
  {
    exists k :: 0 <= k < |ids| && ids[k].identifier == value && ids[k].typeId == typeId && ids[k].location == location
  }

  /** `Patient.addIdentifier`: an identifier equal in value, type and location to
      one the patient has is dropped; any other is appended. */
  function AddIdentifier(ids: seq<PatientIdentifier>, pi: PatientIdentifier): (r: seq<PatientIdentifier>)
    ensures HasIdentifierAt(r, pi.identifier, pi.typeId, pi.location)
    ensures ids <= r && |r| <= |ids| + 1
    ensures HasIdentifierAt(ids, pi.identifier, pi.typeId, pi.location) ==> r == ids
    ensures !HasIdentifierAt(ids, pi.identifier, pi.typeId, pi.location) ==> r[|ids|] == pi
  {
    if HasIdentifierAt(ids, pi.identifier, pi.typeId, pi.location) then ids
    else
      var r := ids + [pi];
      assert r[|ids|] == pi;
      r
  }

  /** Adding the same identifier twice adds it once. */
  lemma AddIdentifierIdempotent(ids: seq<PatientIdentifier>, pi: PatientIdentifier)
    ensures AddIdentifier(AddIdentifier(ids, pi), pi) == AddIdentifier(ids, pi)
  {
  }

  /** The patient being assembled, the location the last address named, and the
      identifier-type table as it grows. */
  datatype Intake = Intake(patient: Patient, location: Option<nat>, types: seq<IdentifierType>)

  /** One pass of the sourcePatientInfo loop. */
  function IntakeStep(s: Intake, val: string, settings: Settings, parseDate: string -> Option<int>): (r: Result<Intake>)
    ensures r.Ok? ==> s.types <= r.value.types && s.patient.identifiers <= r.value.patient.identifiers
    ensures r.Ok? && TypesNumbered(s.types) ==> TypesNumbered(r.value.types)
  {
    if StartsWith(val, Pid3) then
      var v := ReplaceAll(val, Pid3, "");
      match ParsePatientIdentifier(v)
      case Err(e) => Err(e)
      case Ok(id) =>
        var res := ResolveIdentifierType(s.types, settings.identifierMapping, id.domain);
        var pi := PatientIdentifier(id.value, res.idType.id, settings.defaultLocation, res.idType.name == "ECID");
        Ok(Intake(s.patient.(identifiers := AddIdentifier(s.patient.identifiers, pi)), s.location, res.types))
    else if StartsWith(val, Pid5) then
      var pn := CreatePatientName(SplitAll(ReplaceAll(val, Pid5, ""), '^'));
      Ok(s.(patient := s.patient.(names := s.patient.names + [pn])))
    else if StartsWith(val, Pid7) then
      var v := ReplaceAll(val, Pid7, "");
      match parseDate(v)
      case None => Err(RepositoryMetadataError(BirthDateUnparseable(v)))
      case Some(d) => Ok(s.(patient := s.patient.(birthdate := Some(d))))
    else if StartsWith(val, Pid8) then
      var v := ReplaceAll(val, Pid8, "");
      if UnsupportedGenderCode(v) then Err(UnsupportedGender(v))
      else Ok(s.(patient := s.patient.(gender := Some(v))))
    else if StartsWith(val, Pid11) then
      var c := SplitAll(ReplaceAll(val, Pid11, ""), '^');
      Ok(Intake(s.patient.(addresses := s.patient.addresses + [CreatePatientAddress(c)]),
                LocationNamed(settings, c[0]), s.types))
    else Ok(s)
  }

  /** What one value adds: a PID-3 value that parses adds its identifier, under
      the type its domain resolves to, at the default location; a PID-5 value adds
      its name; a PID-11 value adds its address and sets the location its first
      component names; nothing else touches identifiers, names, addresses or the
      location. */
  lemma IntakeStepEffects(s: Intake, val: string, settings: Settings, parseDate: string -> Option<int>)
    ensures var r := IntakeStep(s, val, settings, parseDate);
            var id := ParsePatientIdentifier(ReplaceAll(val, Pid3, ""));
            StartsWith(val, Pid3) ==>
              (r.Ok? <==> id.Ok?) &&
              (r.Ok? ==> HasIdentifierAt(r.value.patient.identifiers, id.value.value,
                                         ResolveIdentifierType(s.types, settings.identifierMapping, id.value.domain).idType.id,
                                         settings.defaultLocation))
    ensures var r := IntakeStep(s, val, settings, parseDate);
            var id := ParsePatientIdentifier(ReplaceAll(val, Pid3, ""));
            StartsWith(val, Pid3) && id.Ok? ==>
              var t := ResolveIdentifierType(s.types, settings.identifierMapping, id.value.domain).idType;
              (HasIdentifierAt(s.patient.identifiers, id.value.value, t.id, settings.defaultLocation) ==>
                 r.value.patient.identifiers == s.patient.identifiers) &&
              (!HasIdentifierAt(s.patient.identifiers, id.value.value, t.id, settings.defaultLocation) ==>
                 r.value.patient.identifiers ==
                   s.patient.identifiers + [PatientIdentifier(id.value.value, t.id, settings.defaultLocation, t.name == "ECID")])
    ensures var r := IntakeStep(s, val, settings, parseDate);
            r.Ok? && !StartsWith(val, Pid3) ==> r.value.patient.identifiers == s.patient.identifiers && r.value.types == s.types
    ensures var r := IntakeStep(s, val, settings, parseDate);
            var v := ReplaceAll(val, Pid7, "");
            StartsWith(val, Pid7) ==>
              (parseDate(v).None? ==> r == Err(RepositoryMetadataError(BirthDateUnparseable(v)))) &&
              (parseDate(v).Some? ==> r.Ok? && r.value.patient.birthdate == parseDate(v))
    ensures var r := IntakeStep(s, val, settings, parseDate);
            var v := ReplaceAll(val, Pid8, "");
            StartsWith(val, Pid8) ==>
              (UnsupportedGenderCode(v) ==> r == Err(UnsupportedGender(v))) &&
              (!UnsupportedGenderCode(v) ==> r.Ok? && r.value.patient.gender == Some(v))
    ensures var r := IntakeStep(s, val, settings, parseDate);
            r.Err? <==> (StartsWith(val, Pid3) && ParsePatientIdentifier(ReplaceAll(val, Pid3, "")).Err?) ||
                        (StartsWith(val, Pid7) && parseDate(ReplaceAll(val, Pid7, "")).None?) ||
                        (StartsWith(val, Pid8) && UnsupportedGenderCode(ReplaceAll(val, Pid8, "")))
    ensures var r := IntakeStep(s, val, settings, parseDate);
            StartsWith(val, Pid5) ==>
              r.Ok? && r.value.patient.names == s.patient.names + [CreatePatientName(SplitAll(ReplaceAll(val, Pid5, ""), '^'))]
    ensures var r := IntakeStep(s, val, settings, parseDate);
            r.Ok? && !StartsWith(val, Pid5) ==> r.value.patient.names == s.patient.names
    ensures var r := IntakeStep(s, val, settings, parseDate);
            var c := SplitAll(ReplaceAll(val, Pid11, ""), '^');
            StartsWith(val, Pid11) ==>
              r.Ok? && r.value.patient.addresses == s.patient.addresses + [CreatePatientAddress(c)] &&
              r.value.location == LocationNamed(settings, c[0])
    ensures var r := IntakeStep(s, val, settings, parseDate);
            r.Ok? && !StartsWith(val, Pid11) ==> r.value.patient.addresses == s.patient.addresses && r.value.location == s.location
  {
    TagsDisjoint(val);
  }

  /** The whole sourcePatientInfo loop, value by value from the first; the first
      failing value ends it. */
  function IntakeFold(values: seq<string>, s0: Intake, settings: Settings, parseDate: string -> Option<int>): (r: Result<Intake>)
    ensures r.Ok? ==> s0.types <= r.value.types
    ensures r.Ok? && TypesNumbered(s0.types) ==> TypesNumbered(r.value.types)
    decreases |values|
  {
    if |values| == 0 then Ok(s0)
    else
      match IntakeFold(values[..|values| - 1], s0, settings, parseDate)
      case Err(e) => Err(e)
      case Ok(s) => IntakeStep(s, values[|values| - 1], settings, parseDate)
  }

  /** The names the PID-5 values carry, in the order of the values. */
  function Pid5Names(values: seq<string>): seq<PersonName>
  {
    if |values| == 0 then []
    else if StartsWith(values[0], Pid5) then
      [CreatePatientName(SplitAll(ReplaceAll(values[0], Pid5, ""), '^'))] + Pid5Names(values[1..])
    else Pid5Names(values[1..])
  }

  /** The addresses the PID-11 values carry, in the order of the values. */
  function Pid11Addresses(values: seq<string>): seq<PersonAddress>
  {
    if |values| == 0 then []
    else if StartsWith(values[0], Pid11) then
      [CreatePatientAddress(SplitAll(ReplaceAll(values[0], Pid11, ""), '^'))] + Pid11Addresses(values[1..])
    else Pid11Addresses(values[1..])
  }

  lemma {:induction false} Pid5NamesSnoc(values: seq<string>, v: string)
    ensures Pid5Names(values + [v]) == Pid5Names(values) + Pid5Names([v])
  {
    if |values| > 0 {
      assert (values + [v])[1..] == values[1..] + [v];
      Pid5NamesSnoc(values[1..], v);
    } else {
      assert values + [v] == [v];
    }
  }

  lemma {:induction false} Pid11AddressesSnoc(values: seq<string>, v: string)
    ensures Pid11Addresses(values + [v]) == Pid11Addresses(values) + Pid11Addresses([v])
  {
    if |values| > 0 {
      assert (values + [v])[1..] == values[1..] + [v];
      Pid11AddressesSnoc(values[1..], v);
    } else {
      assert values + [v] == [v];
    }
  }

  /** The loop adds one name per PID-5 value, in order, and no other name. */
  lemma {:induction false} IntakeNames(values: seq<string>, s0: Intake, settings: Settings, parseDate: string -> Option<int>)
    requires IntakeFold(values, s0, settings, parseDate).Ok?
    ensures IntakeFold(values, s0, settings, parseDate).value.patient.names == s0.patient.names + Pid5Names(values)
    decreases |values|
  {
    if |values| > 0 {
      var init := values[..|values| - 1];
      var last := values[|values| - 1];
      IntakeNames(init, s0, settings, parseDate);
      IntakeStepEffects(IntakeFold(init, s0, settings, parseDate).value, last, settings, parseDate);
      assert values == init + [last];
      Pid5NamesSnoc(init, last);
      assert [last][1..] == [];
    }
  }

  /** The loop adds one address per PID-11 value, in order, and no other
      address. */
  lemma {:induction false} IntakeAddresses(values: seq<string>, s0: Intake, settings: Settings, parseDate: string -> Option<int>)
    requires IntakeFold(values, s0, settings, parseDate).Ok?
    ensures IntakeFold(values, s0, settings, parseDate).value.patient.addresses == s0.patient.addresses + Pid11Addresses(values)
    decreases |values|
  {
    if |values| > 0 {
      var init := values[..|values| - 1];
      var last := values[|values| - 1];
      IntakeAddresses(init, s0, settings, parseDate);
      IntakeStepEffects(IntakeFold(init, s0, settings, parseDate).value, last, settings, parseDate);
      assert values == init + [last];
      Pid11AddressesSnoc(init, last);
      assert [last][1..] == [];
    }
  }

  /** The location kept is the one the first component of the last PID-11 value
      names (none when no location has that name). */
  lemma {:induction false} IntakeLocationIsLast(values: seq<string>, s0: Intake, settings: Settings, parseDate: string -> Option<int>)
    requires IntakeFold(values, s0, settings, parseDate).Ok?
    ensures var loc := IntakeFold(values, s0, settings, parseDate).value.location;
            match LastIndex(values, (v: string) => StartsWith(v, Pid11))
            case None => loc == s0.location
            case Some(k) => loc == LocationNamed(settings, SplitAll(ReplaceAll(values[k], Pid11, ""), '^')[0])
    decreases |values|
  {
    if |values| > 0 {
      var init := values[..|values| - 1];
      IntakeLocationIsLast(init, s0, settings, parseDate);
      IntakeStepEffects(IntakeFold(init, s0, settings, parseDate).value, values[|values| - 1], settings, parseDate);
    }
  }

  /** Some identifier of the list has this value at this location. */
  predicate HasValueAt(ids: seq<PatientIdentifier>, value: string, location: nat)
  {
    exists k :: 0 <= k < |ids| && ids[k].identifier == value && ids[k].location == location
  }

  lemma ValueAtGrows(ids: seq<PatientIdentifier>, more: seq<PatientIdentifier>, value: string, location: nat)
    requires HasValueAt(ids, value, location) && ids <= more
    ensures HasValueAt(more, value, location)
  {
    var k :| 0 <= k < |ids| && ids[k].identifier == value && ids[k].location == location;
    assert more[k] == ids[k];
  }

  /** Every PID-3 value parses, and the patient ends up holding its value at the
      default location; without PID-3 values the identifiers are untouched. */
  lemma {:induction false} IntakeIdentifiers(values: seq<string>, s0: Intake, settings: Settings, parseDate: string -> Option<int>)
    requires IntakeFold(values, s0, settings, parseDate).Ok?
    ensures var ids := IntakeFold(values, s0, settings, parseDate).value.patient.identifiers;
            s0.patient.identifiers <= ids &&
            ((forall k :: 0 <= k < |values| ==> !StartsWith(values[k], Pid3)) ==> ids == s0.patient.identifiers) &&
            forall k :: 0 <= k < |values| && StartsWith(values[k], Pid3) ==>
              ParsePatientIdentifier(ReplaceAll(values[k], Pid3, "")).Ok? &&
              HasValueAt(ids, ParsePatientIdentifier(ReplaceAll(values[k], Pid3, "")).value.value, settings.defaultLocation)
    decreases |values|
  {
    if |values| > 0 {
      var init := values[..|values| - 1];
      var last := values[|values| - 1];
      var s := IntakeFold(init, s0, settings, parseDate).value;
      var r := IntakeFold(values, s0, settings, parseDate).value;
      assert IntakeStep(s, last, settings, parseDate) == Ok(r);
      IntakeIdentifiers(init, s0, settings, parseDate);
      IntakeStepEffects(s, last, settings, parseDate);
      forall k | 0 <= k < |values| && StartsWith(values[k], Pid3)
        ensures ParsePatientIdentifier(ReplaceAll(values[k], Pid3, "")).Ok? &&
                HasValueAt(r.patient.identifiers, ParsePatientIdentifier(ReplaceAll(values[k], Pid3, "")).value.value,
                           settings.defaultLocation)
      {
        var id := ParsePatientIdentifier(ReplaceAll(values[k], Pid3, ""));
        if k < |values| - 1 {
          assert values[k] == init[k];
          ValueAtGrows(s.patient.identifiers, r.patient.identifiers, id.value.value, settings.defaultLocation);
        } else {
          var t := ResolveIdentifierType(s.types, settings.identifierMapping, id.value.domain).idType.id;
          var j :| 0 <= j < |r.patient.identifiers| && r.patient.identifiers[j].identifier == id.value.value &&
                   r.patient.identifiers[j].typeId == t && r.patient.identifiers[j].location == settings.defaultLocation;
        }
      }
      if forall k :: 0 <= k < |values| ==> !StartsWith(values[k], Pid3) {
        assert forall k :: 0 <= k < |init| ==> init[k] == values[k];
      }
    }
  }

  /** A patient is only created when no PID-8 value carries a gender OpenMRS
      cannot store. */
  lemma {:induction false} IntakeRejectsUnsupportedGender(values: seq<string>, s0: Intake, settings: Settings, parseDate: string -> Option<int>)
    requires IntakeFold(values, s0, settings, parseDate).Ok?
    ensures forall k :: 0 <= k < |values| && StartsWith(values[k], Pid8) ==>
              !UnsupportedGenderCode(ReplaceAll(values[k], Pid8, ""))
    decreases |values|
  {
    if |values| > 0 {
      var init := values[..|values| - 1];
      IntakeRejectsUnsupportedGender(init, s0, settings, parseDate);
      TagsDisjoint(values[|values| - 1]);
      forall k | 0 <= k < |values| - 1 ensures values[k] == init[k] { }
    }
  }

  /** A patient is only created when every PID-7 value is a date. */
  lemma {:induction false} IntakeBirthdatesParse(values: seq<string>, s0: Intake, settings: Settings, parseDate: string -> Option<int>)
    requires IntakeFold(values, s0, settings, parseDate).Ok?
    ensures forall k :: 0 <= k < |values| && StartsWith(values[k], Pid7) ==>
              parseDate(ReplaceAll(values[k], Pid7, "")).Some?
    decreases |values|
  {
    if |values| > 0 {
      var init := values[..|values| - 1];
      IntakeBirthdatesParse(init, s0, settings, parseDate);
      TagsDisjoint(values[|values| - 1]);
      forall k | 0 <= k < |values| - 1 ensures values[k] == init[k] { }
    }
  }

  /** The gender kept is the one the last PID-8 value carries. */
  lemma {:induction false} IntakeGenderIsLast(values: seq<string>, s0: Intake, settings: Settings, parseDate: string -> Option<int>)
    requires IntakeFold(values, s0, settings, parseDate).Ok?
    ensures var g := IntakeFold(values, s0, settings, parseDate).value.patient.gender;
            match LastIndex(values, (v: string) => StartsWith(v, Pid8))
            case None => g == s0.patient.gender
            case Some(k) => g == Some(ReplaceAll(values[k], Pid8, ""))
    decreases |values|
  {
    if |values| > 0 {
      IntakeGenderIsLast(values[..|values| - 1], s0, settings, parseDate);
      TagsDisjoint(values[|values| - 1]);
    }
  }

  /** The birth date kept is the one the last PID-7 value carries. */
  lemma {:induction false} IntakeBirthdateIsLast(values: seq<string>, s0: Intake, settings: Settings, parseDate: string -> Option<int>)
    requires IntakeFold(values, s0, settings, parseDate).Ok?
    ensures var b := IntakeFold(values, s0, settings, parseDate).value.patient.birthdate;
            match LastIndex(values, (v: string) => StartsWith(v, Pid7))
            case None => b == s0.patient.birthdate
            case Some(k) => parseDate(ReplaceAll(values[k], Pid7, "")).Some? &&
                            b == parseDate(ReplaceAll(values[k], Pid7, ""))
    decreases |values|
  {
    if |values| > 0 {
      IntakeBirthdateIsLast(values[..|values| - 1], s0, settings, parseDate);
      TagsDisjoint(values[|values| - 1]);
    }
  }

  function EmptyPatient(): Patient
  {
    Patient([], [], None, None, [])
  }

  /** The name a patient without a PID-5 value is given: `*` as family and given
      name, nothing else. */
  const PlaceholderName := PersonName(Placeholder, Placeholder, None, None, None, None)

  /** After the loop: the caller's identifier is added as preferred, at the last
      address's location or the default one (dropped when an equal identifier is
      already there); gender defaults to "U"; a patient without a name gets the
      placeholder name. */
  function FinishPatient(s: Intake, patId: string, idType: IdentifierType, settings: Settings): (p: Patient)
    ensures var loc := s.location.GetOr(settings.defaultLocation);
            HasIdentifierAt(p.identifiers, patId, idType.id, loc) &&
            s.patient.identifiers <= p.identifiers && |p.identifiers| <= |s.patient.identifiers| + 1 &&
            (!HasIdentifierAt(s.patient.identifiers, patId, idType.id, loc) ==>
               p.identifiers[|s.patient.identifiers|] == PatientIdentifier(patId, idType.id, loc, true))
    ensures s.patient.gender.None? ==> p.gender == Some("U")
    ensures s.patient.gender.Some? ==> p.gender == s.patient.gender
    ensures |s.patient.names| == 0 ==> p.names == [PlaceholderName]
    ensures |s.patient.names| > 0 ==> p.names == s.patient.names
    ensures p.birthdate == s.patient.birthdate && p.addresses == s.patient.addresses
  {
    var loc := s.location.GetOr(settings.defaultLocation);
    var ids := AddIdentifier(s.patient.identifiers, PatientIdentifier(patId, idType.id, loc, true));
    var names := if |s.patient.names| == 0 then [PlaceholderName] else s.patient.names;
    var gender := if s.patient.gender.None? then Some("U") else s.patient.gender;
    s.patient.(identifiers := ids, names := names, gender := gender)
  }

  /** A created patient and the identifier-type table after its creation. */
  datatype Created = Created(patient: Patient, types: seq<IdentifierType>)

  /** `createPatient` as a value: the sourcePatientInfo slot is looked up in the
      name-keyed slot map (duplicate names fail, a missing slot is a null
      dereference), its values folded, and the patient finished. */
  function CreatedPatient(slots: seq<Slot>, patId: string, idType: IdentifierType, types: seq<IdentifierType>,
                          settings: Settings, parseDate: string -> Option<int>): (r: Result<Created>)
    ensures !DistinctNames(slots) ==> r.Err? && r.error.SlotNameNotUnique?
    ensures DistinctNames(slots) && FindSlot(slots, SlotSourcePatientInfo).None? ==> r == Err(Runtime(NullPointer))
    ensures r.Ok? ==> types <= r.value.types && (TypesNumbered(types) ==> TypesNumbered(r.value.types))
    ensures r.Ok? ==> HasIdentifier(r.value.patient.identifiers, patId, idType.id)
    ensures r.Ok? ==> r.value.patient.gender.Some? && |r.value.patient.names| > 0
  {
    match SlotsByName(slots)
    case Err(e) => Err(e)
    case Ok(m) =>
      if SlotSourcePatientInfo !in m then Err(Runtime(NullPointer))
      else
        var init := Intake(EmptyPatient(), Some(settings.defaultLocation), types);
        match IntakeFold(m[SlotSourcePatientInfo].values, init, settings, parseDate)
        case Err(e) => Err(e)
        case Ok(s) =>
          var p := FinishPatient(s, patId, idType, settings);
          IdentifierAtIsHeld(p.identifiers, patId, idType.id, s.location.GetOr(settings.defaultLocation));
          Ok(Created(p, s.types))
  }

  /** The values of the sourcePatientInfo slot of a created patient. */
  function PatientInfoValues(slots: seq<Slot>): seq<string>
    requires FindSlot(slots, SlotSourcePatientInfo).Some?
  {
    FindSlot(slots, SlotSourcePatientInfo).value.values
  }

  /** Where a created patient's own identifier is kept: the location the last
      PID-11 value names, or the default location when there is no such value or
      no location by that name. */
  function PatientLocation(values: seq<string>, settings: Settings): nat
  {
    match LastIndex(values, (v: string) => StartsWith(v, Pid11))
    case None => settings.defaultLocation
    case Some(k) => LocationNamed(settings, SplitAll(ReplaceAll(values[k], Pid11, ""), '^')[0]).GetOr(settings.defaultLocation)
  }

  /** The sourcePatientInfo fold of a created patient, starting from an empty
      patient at the default location. */
  lemma CreatedFold(slots: seq<Slot>, patId: string, idType: IdentifierType, types: seq<IdentifierType>,
                    settings: Settings, parseDate: string -> Option<int>)
    requires DistinctNames(slots)
    requires FindSlot(slots, SlotSourcePatientInfo).Some?
    requires CreatedPatient(slots, patId, idType, types, settings, parseDate).Ok?
    ensures var init := Intake(EmptyPatient(), Some(settings.defaultLocation), types);
            var fold := IntakeFold(PatientInfoValues(slots), init, settings, parseDate);
            fold.Ok? &&
            CreatedPatient(slots, patId, idType, types, settings, parseDate).value.patient ==
              FinishPatient(fold.value, patId, idType, settings)
  {
    var m := SlotsByName(slots).value;
    var slot := FindSlot(slots, SlotSourcePatientInfo).value;
    var k :| 0 <= k < |slots| && slots[k] == slot;
    assert m[SlotSourcePatientInfo] == slot;
  }

  /** A patient created from demographics without a PID-8 value is stored with
      gender "U"; one with a PID-8 value keeps that value. */
  lemma CreatedGender(slots: seq<Slot>, patId: string, idType: IdentifierType, types: seq<IdentifierType>,
                      settings: Settings, parseDate: string -> Option<int>)
    requires DistinctNames(slots)
    requires FindSlot(slots, SlotSourcePatientInfo).Some?
    requires CreatedPatient(slots, patId, idType, types, settings, parseDate).Ok?
    ensures var values := PatientInfoValues(slots);
            var g := CreatedPatient(slots, patId, idType, types, settings, parseDate).value.patient.gender;
            match LastIndex(values, (v: string) => StartsWith(v, Pid8))
            case None => g == Some("U")
            case Some(k) => g == Some(ReplaceAll(values[k], Pid8, "")) && !UnsupportedGenderCode(g.value)
  {
    CreatedFold(slots, patId, idType, types, settings, parseDate);
    var init := Intake(EmptyPatient(), Some(settings.defaultLocation), types);
    IntakeGenderIsLast(PatientInfoValues(slots), init, settings, parseDate);
    IntakeRejectsUnsupportedGender(PatientInfoValues(slots), init, settings, parseDate);
  }

  /** A created patient carries the names of the PID-5 values in order (the
      placeholder name when there is none), the addresses of the PID-11 values
      in order, and the caller's identifier at the location of the last PID-11
      value or at the default location. */
  lemma CreatedDemographics(slots: seq<Slot>, patId: string, idType: IdentifierType, types: seq<IdentifierType>,
                            settings: Settings, parseDate: string -> Option<int>)
    requires DistinctNames(slots)
    requires FindSlot(slots, SlotSourcePatientInfo).Some?
    requires CreatedPatient(slots, patId, idType, types, settings, parseDate).Ok?
    ensures var values := PatientInfoValues(slots);
            var p := CreatedPatient(slots, patId, idType, types, settings, parseDate).value.patient;
            p.names == (if Pid5Names(values) == [] then [PlaceholderName] else Pid5Names(values)) &&
            p.addresses == Pid11Addresses(values) &&
            HasIdentifierAt(p.identifiers, patId, idType.id, PatientLocation(values, settings))
  {
    CreatedFold(slots, patId, idType, types, settings, parseDate);
    var values := PatientInfoValues(slots);
    var init := Intake(EmptyPatient(), Some(settings.defaultLocation), types);
    IntakeNames(values, init, settings, parseDate);
    IntakeAddresses(values, init, settings, parseDate);
    IntakeLocationIsLast(values, init, settings, parseDate);
  }

  /** Whether a patient already carries `value` under the type `typeId`. */
  predicate HasIdentifier(ids: seq<PatientIdentifier>, value: string, typeId: nat)
  {
    exists k :: 0 <= k < |ids| && ids[k].identifier == value && ids[k].typeId == typeId
  }

  /** An identifier held at some location is held. */
  lemma IdentifierAtIsHeld(ids: seq<PatientIdentifier>, value: string, typeId: nat, location: nat)
    requires HasIdentifierAt(ids, value, typeId, location)
    ensures HasIdentifier(ids, value, typeId)
  {
    var k :| 0 <= k < |ids| && ids[k].identifier == value && ids[k].typeId == typeId && ids[k].location == location;
  }

  /** `addLocalIdentifierToPatient` on the identifier list: the source identifier
      is added, not preferred, at the default location, unless it is there. */
  function WithLocalIdentifier(ids: seq<PatientIdentifier>, value: string, typeId: nat, location: nat): (r: seq<PatientIdentifier>)
    ensures HasIdentifier(r, value, typeId)
    ensures ids <= r && |r| <= |ids| + 1
    ensures HasIdentifier(ids, value, typeId) ==> r == ids
    ensures !HasIdentifier(ids, value, typeId) ==> r == ids + [PatientIdentifier(value, typeId, location, false)]
  {
    if HasIdentifier(ids, value, typeId) then ids
    else
      var r := ids + [PatientIdentifier(value, typeId, location, false)];
      assert r[|ids|].identifier == value && r[|ids|].typeId == typeId;
      r
  }

  /** Adding the source identifier twice adds it once. */
  lemma LocalIdentifierIdempotent(ids: seq<PatientIdentifier>, value: string, typeId: nat, location: nat)
    ensures var once := WithLocalIdentifier(ids, value, typeId, location);
            WithLocalIdentifier(once, value, typeId, location) == once
  {
  }

  /** Identifiers a patient already has survive the source identifier's addition. */
  lemma LocalIdentifierKeeps(ids: seq<PatientIdentifier>, value: string, typeId: nat, location: nat, other: string, otherType: nat)
    requires HasIdentifier(ids, other, otherType)
    ensures HasIdentifier(WithLocalIdentifier(ids, value, typeId, location), other, otherType)
  {
    var r := WithLocalIdentifier(ids, value, typeId, location);
    var k :| 0 <= k < |ids| && ids[k].identifier == other && ids[k].typeId == otherType;
    assert r[k] == ids[k];
  }
}

=== FILE: providers.dfy ===
/**
 * Providers and encounter roles: the author classifications of an entry are
 * matched to stored providers (by XCN identifier, else by name) or new ones,
 * and gathered into a map from encounter role to providers.
 */
module Providers {

  import opened Outcomes
  import opened Text
  import opened Entries

  /** An encounter role; `id` is its position in the role table. */
  datatype EncounterRole = EncounterRole(id: nat, name: string)

  /** A provider, its XCN identifier and the given and family names of its person;
      `id` is its position in the provider table. */
  datatype Provider = Provider(id: nat, identifier: string, givenName: string, familyName: string)

  /** The provider's name as OpenMRS renders a person name: the non-empty parts,
      given name first, separated by one space. */
  function DisplayName(p: Provider): string
  {
    if p.givenName == "" then p.familyName
    else if p.familyName == "" then p.givenName
    else p.givenName + " " + p.familyName
  }

  /** `getEncounterRoleByName`: the first role whose name equals `name` exactly. */
  function GetEncounterRoleByName(roles: seq<EncounterRole>, name: string): (r: Option<EncounterRole>)
    ensures r.None? <==> forall k :: 0 <= k < |roles| ==> roles[k].name != name
    ensures r.Some? ==> exists k :: 0 <= k < |roles| && roles[k] == r.value && r.value.name == name &&
                                    forall j :: 0 <= j < k ==> roles[j].name != name
  {
    match FirstIndex(roles, (role: EncounterRole) => role.name == name)
    case None => None
    case Some(i) => Some(roles[i])
  }

  /** Roles added later never hide a role that was already found by name. */
  lemma RoleLookupStable(roles: seq<EncounterRole>, more: seq<EncounterRole>, name: string)
    requires GetEncounterRoleByName(roles, name).Some?
    ensures GetEncounterRoleByName(roles + more, name) == GetEncounterRoleByName(roles, name)
  {
    var all := roles + more;
    var r := GetEncounterRoleByName(roles, name).value;
    var k :| 0 <= k < |roles| && roles[k] == r && r.name == name && forall j :: 0 <= j < k ==> roles[j].name != name;
    assert all[k] == roles[k];
    var s := GetEncounterRoleByName(all, name).value;
    var m :| 0 <= m < |all| && all[m] == s && s.name == name && forall j :: 0 <= j < m ==> all[j].name != name;
    assert m <= k;
  }

  /** `getProviderByIdentifier`: the first provider with this identifier. */
  function ProviderWithIdentifier(ps: seq<Provider>, identifier: string): (r: Option<Provider>)
    ensures r.None? <==> forall k :: 0 <= k < |ps| ==> ps[k].identifier != identifier
    ensures r.Some? ==> exists k :: 0 <= k < |ps| && ps[k] == r.value && r.value.identifier == identifier &&
                                    forall j :: 0 <= j < k ==> ps[j].identifier != identifier
  {
    match FirstIndex(ps, (p: Provider) => p.identifier == identifier)
    case None => None
    case Some(i) => Some(ps[i])
  }

  /** The name test of the fallback scan: the rendered name starts with the XCN
      given name and contains the XCN family name. */
  predicate NameMatches(p: Provider, family: string, given: string)
  {
    StartsWith(DisplayName(p), given) && Contains(DisplayName(p), family)
  }

  /** The first provider passing the name test. */
  function NameScan(ps: seq<Provider>, family: string, given: string): (r: Option<Provider>)
    ensures r.None? <==> forall k :: 0 <= k < |ps| ==> !NameMatches(ps[k], family, given)
    ensures r.Some? ==> exists k :: 0 <= k < |ps| && ps[k] == r.value && NameMatches(r.value, family, given) &&
                                    forall j :: 0 <= j < k ==> !NameMatches(ps[j], family, given)
  {
    match FirstIndex(ps, (p: Provider) => NameMatches(p, family, given))
    case None => None
    case Some(i) => Some(ps[i])
  }

  /** Whether an XCN carries both a family name (component 1) and a given name
      (component 2). */
  predicate XcnNamed(xcn: seq<string>)
  {
    |xcn| >= 3 && xcn[2] != "" && xcn[1] != ""
  }

  /** `createProvider`: identified by component 0, and named by the XCN's given
      and family names, or by the identifier for both when one is missing. */
  function CreateProvider(xcn: seq<string>, id: nat): (p: Provider)
    requires |xcn| >= 1
    ensures p.id == id && p.identifier == xcn[0]
    ensures XcnNamed(xcn) ==> p.givenName == xcn[2] && p.familyName == xcn[1]
    ensures !XcnNamed(xcn) ==> p.givenName == xcn[0] && p.familyName == xcn[0]
  {
    if XcnNamed(xcn) then Provider(id, xcn[0], xcn[2], xcn[1])
    else Provider(id, xcn[0], xcn[0], xcn[0])
  }

  /** What `findOrCreateProvider` settles on for one author classification. */
  datatype ProviderChoice = NoAuthor | Found(id: nat) | Created(provider: Provider)

  /** The XCN of the classification's authorPerson, split keeping empty fields. */
  function AuthorXcn(slotMap: map<string, Slot>): seq<string>
    requires SlotAuthorPerson in slotMap && |slotMap[SlotAuthorPerson].values| > 0
  {
    SplitAll(slotMap[SlotAuthorPerson].values[0], '^')
  }

  /** `findOrCreateProvider` as a value: no authorPerson slot gives no provider;
      an empty value list fails on `get(0)`; a non-empty identifier is looked up;
      an empty one makes the name scan, which reads component 2 as soon as there
      is one provider to test; when nothing is found a provider is created. */
  function ChooseProvider(ps: seq<Provider>, slotMap: map<string, Slot>): (r: Result<ProviderChoice>)
    ensures SlotAuthorPerson !in slotMap <==> r == Ok(NoAuthor)
    ensures r.Err? ==> r.error == Runtime(IndexOutOfBounds)
    ensures r.Ok? && r.value.Found? ==> exists k :: 0 <= k < |ps| && ps[k].id == r.value.id
    ensures SlotAuthorPerson in slotMap && |slotMap[SlotAuthorPerson].values| > 0 && AuthorXcn(slotMap)[0] != "" &&
            ProviderWithIdentifier(ps, AuthorXcn(slotMap)[0]).Some? ==>
              r == Ok(Found(ProviderWithIdentifier(ps, AuthorXcn(slotMap)[0]).value.id))
    ensures SlotAuthorPerson in slotMap && |slotMap[SlotAuthorPerson].values| > 0 && AuthorXcn(slotMap)[0] == "" &&
            |ps| > 0 && |AuthorXcn(slotMap)| >= 3 && NameScan(ps, AuthorXcn(slotMap)[1], AuthorXcn(slotMap)[2]).Some? ==>
              r == Ok(Found(NameScan(ps, AuthorXcn(slotMap)[1], AuthorXcn(slotMap)[2]).value.id))
    ensures r.Ok? && r.value.Found? ==>
              SlotAuthorPerson in slotMap && |slotMap[SlotAuthorPerson].values| > 0 &&
              (AuthorXcn(slotMap)[0] != "" ==> ProviderWithIdentifier(ps, AuthorXcn(slotMap)[0]).Some?) &&
              (AuthorXcn(slotMap)[0] == "" ==>
                 |ps| > 0 && |AuthorXcn(slotMap)| >= 3 && NameScan(ps, AuthorXcn(slotMap)[1], AuthorXcn(slotMap)[2]).Some?)
    ensures r.Err? <==> SlotAuthorPerson in slotMap &&
                        (|slotMap[SlotAuthorPerson].values| == 0 ||
                         (AuthorXcn(slotMap)[0] == "" && |ps| > 0 && |AuthorXcn(slotMap)| < 3))
    ensures r.Ok? && r.value.Created? ==>
              SlotAuthorPerson in slotMap && |slotMap[SlotAuthorPerson].values| > 0 &&
              r.value.provider == CreateProvider(AuthorXcn(slotMap), |ps|) &&
              (AuthorXcn(slotMap)[0] != "" ==> ProviderWithIdentifier(ps, AuthorXcn(slotMap)[0]).None?) &&
              (AuthorXcn(slotMap)[0] == "" && |ps| > 0 ==>
                 |AuthorXcn(slotMap)| >= 3 && NameScan(ps, AuthorXcn(slotMap)[1], AuthorXcn(slotMap)[2]).None?)
  {
    if SlotAuthorPerson !in slotMap then Ok(NoAuthor)
    else if |slotMap[SlotAuthorPerson].values| == 0 then Err(Runtime(IndexOutOfBounds))
    else
      var xcn := AuthorXcn(slotMap);
      if xcn[0] != "" then
        match ProviderWithIdentifier(ps, xcn[0])
        case Some(p) => Ok(Found(p.id))
        case None => Ok(Created(CreateProvider(xcn, |ps|)))
      else if |ps| == 0 then Ok(Created(CreateProvider(xcn, |ps|)))
      else if |xcn| < 3 then Err(Runtime(IndexOutOfBounds))
      else
        match NameScan(ps, xcn[1], xcn[2])
        case Some(p) => Ok(Found(p.id))
        case None => Ok(Created(CreateProvider(xcn, |ps|)))
  }

  /** A provider created from a named XCN passes the name test for that XCN. */
  lemma CreatedNameMatches(xcn: seq<string>, id: nat)
    requires XcnNamed(xcn)
    ensures NameMatches(CreateProvider(xcn, id), xcn[1], xcn[2])
  {
    var p := CreateProvider(xcn, id);
    var name := DisplayName(p);
    assert name == xcn[2] + " " + xcn[1];
    assert name[..|xcn[2]|] == xcn[2];
    assert name[|xcn[2]| + 1..|xcn[2]| + 1 + |xcn[1]|] == xcn[1];
    assert OccursAt(name, xcn[1], |xcn[2]| + 1);
  }

  /** Every provider sits at the position its id names. */
  ghost predicate ProvidersNumbered(ps: seq<Provider>)
  {
    forall k :: 0 <= k < |ps| ==> ps[k].id == k
  }

  /** A second submission with the same author finds the provider the first one
      created, as long as the XCN carries an identifier or both names. */
  lemma ProviderFoundAgain(ps: seq<Provider>, slotMap: map<string, Slot>)
    requires ChooseProvider(ps, slotMap).Ok? && ChooseProvider(ps, slotMap).value.Created?
    requires AuthorXcn(slotMap)[0] != "" || XcnNamed(AuthorXcn(slotMap))
    ensures var p := ChooseProvider(ps, slotMap).value.provider;
            ChooseProvider(ps + [p], slotMap) == Ok(Found(p.id))
  {
    var xcn := AuthorXcn(slotMap);
    var p := ChooseProvider(ps, slotMap).value.provider;
    var all := ps + [p];
    if xcn[0] != "" {
      var q := ProviderWithIdentifier(all, xcn[0]);
      assert all[|ps|] == p;
      assert q.Some?;
    } else {
      CreatedNameMatches(xcn, |ps|);
      assert all[|ps|] == p;
      var q := NameScan(all, xcn[1], xcn[2]);
      assert q.Some?;
    }
  }

  /** An author given only by a family name (or only a given name) gets a
      provider whose rendered name is empty, which the name scan never matches:
      each later submission with that author creates another provider. */
  lemma NamelessAuthorCreatedAgain(ps: seq<Provider>, slotMap: map<string, Slot>)
    requires ChooseProvider(ps, slotMap).Ok? && ChooseProvider(ps, slotMap).value.Created?
    requires AuthorXcn(slotMap)[0] == "" && |AuthorXcn(slotMap)| >= 3
    requires AuthorXcn(slotMap)[1] != "" && AuthorXcn(slotMap)[2] == ""
    ensures var p := ChooseProvider(ps, slotMap).value.provider;
            ChooseProvider(ps + [p], slotMap) == Ok(Created(CreateProvider(AuthorXcn(slotMap), |ps| + 1)))
  {
    var xcn := AuthorXcn(slotMap);
    var p := ChooseProvider(ps, slotMap).value.provider;
    var all := ps + [p];
    assert DisplayName(p) == "";
    assert !Contains(DisplayName(p), xcn[1]);
    forall k | 0 <= k < |all| ensures !NameMatches(all[k], xcn[1], xcn[2]) {
      if k < |ps| {
        assert all[k] == ps[k];
      }
    }
  }

  /** The provider id an author classification contributes (none when it names
      no author). */
  function PickedId(c: ProviderChoice): Option<nat>
  {
    match c
    case NoAuthor => None
    case Found(id) => Some(id)
    case Created(p) => Some(p.id)
  }

  /** The provider table after a choice: a created provider is appended. */
  function WithChoice(ps: seq<Provider>, c: ProviderChoice): seq<Provider>
  {
    if c.Created? then ps + [c.provider] else ps
  }

  /** Every role sits at the position its id names. */
  ghost predicate RolesNumbered(roles: seq<EncounterRole>)
  {
    forall k :: 0 <= k < |roles| ==> roles[k].id == k
  }

  /** No two roles share a name. */
  ghost predicate RoleNamesDistinct(roles: seq<EncounterRole>)
  {
    forall i, j :: 0 <= i < j < |roles| ==> roles[i].name != roles[j].name
  }

  /** A role found by name, and the role table once a missing one is created. */
  datatype RoleResolution = RoleResolution(role: EncounterRole, roles: seq<EncounterRole>)

  /** Find the encounter role by name, or save a new one under that name. */
  function ResolveRole(roles: seq<EncounterRole>, name: string): (r: RoleResolution)
    ensures r.role.name == name
    ensures r.roles == roles || r.roles == roles + [r.role]
    ensures r.roles == roles <==> GetEncounterRoleByName(roles, name).Some?
    ensures GetEncounterRoleByName(r.roles, name) == Some(r.role)
    ensures RolesNumbered(roles) ==> RolesNumbered(r.roles) && r.role.id < |r.roles|
    ensures RoleNamesDistinct(roles) ==> RoleNamesDistinct(r.roles)
  {
    match GetEncounterRoleByName(roles, name)
    case Some(role) => RoleResolution(role, roles)
    case None =>
      var role := EncounterRole(|roles|, name);
      assert (roles + [role])[|roles|] == role;
      RoleResolution(role, roles + [role])
  }

  /** The providers gathered per role so far, with the role and provider tables. */
  datatype Gathering = Gathering(byRole: map<nat, set<Option<nat>>>, roles: seq<EncounterRole>, providers: seq<Provider>)

  /** Every bucket of `m` survives in `m'`, holding at least what it held. */
  ghost predicate Grows(m: map<nat, set<Option<nat>>>, m': map<nat, set<Option<nat>>>)
  {
    forall role :: role in m ==> role in m' && m[role] <= m'[role]
  }

  /** Add `x` to the bucket of `key`, opening the bucket when it is new. */
  function AddToBucket(m: map<nat, set<Option<nat>>>, key: nat, x: Option<nat>): (r: map<nat, set<Option<nat>>>)
    ensures r.Keys == m.Keys + {key}
    ensures x in r[key] && r[key] - {x} <= (if key in m then m[key] else {})
    ensures Grows(m, r)
    ensures forall role :: role in m && role != key ==> r[role] == m[role]
  {
    if key in m then m[key := m[key] + {x}] else m[key := {x}]
  }

  /** Tables numbered and every bucket non-empty, keyed by
      a stored role and holding only stored providers (or no provider). */
  ghost predicate WellFormed(g: Gathering)
  {
    RolesNumbered(g.roles) && ProvidersNumbered(g.providers) &&
    forall role :: role in g.byRole ==>
      role < |g.roles| && g.byRole[role] != {} &&
      forall x :: x in g.byRole[role] ==> x.None? || x.value < |g.providers|
  }

  /** The role called `name` exists and has a bucket. */
  ghost predicate Keyed(g: Gathering, name: string)
  {
    GetEncounterRoleByName(g.roles, name).Some? &&
    GetEncounterRoleByName(g.roles, name).value.id in g.byRole
  }

  /** The role called `name` exists and its bucket holds `pid`. */
  ghost predicate Covered(g: Gathering, name: string, pid: Option<nat>)
  {
    Keyed(g, name) && pid in g.byRole[GetEncounterRoleByName(g.roles, name).value.id]
  }

  /** Coverage survives appended roles and growing buckets. */
  lemma CoveredStable(g: Gathering, h: Gathering, name: string, pid: Option<nat>)
    requires Covered(g, name, pid)
    requires g.roles <= h.roles && Grows(g.byRole, h.byRole)
    ensures Covered(h, name, pid)
  {
    assert h.roles == g.roles + h.roles[|g.roles|..];
    RoleLookupStable(g.roles, h.roles[|g.roles|..], name);
  }

  /** Adding a stored provider (or none) to the bucket of a stored role keeps the
      gathering well formed. */
  lemma BucketKeepsWellFormed(g: Gathering, key: nat, pid: Option<nat>)
    requires WellFormed(g) && key < |g.roles| && (pid.None? || pid.value < |g.providers|)
    ensures WellFormed(g.(byRole := AddToBucket(g.byRole, key, pid)))
  {
    var r := g.(byRole := AddToBucket(g.byRole, key, pid));
    forall role | role in r.byRole
      ensures role < |r.roles| && r.byRole[role] != {} &&
              forall x :: x in r.byRole[role] ==> x.None? || x.value < |r.providers|
    {
      if role != key {
        assert r.byRole[role] == g.byRole[role];
      }
    }
  }

  /** The inner loop over an author's roles: each role is found or created and
      the author's provider goes into its bucket. */
  function RolesFold(g: Gathering, names: seq<string>, pid: Option<nat>): (r: Gathering)
    ensures g.roles <= r.roles && r.providers == g.providers && Grows(g.byRole, r.byRole)
    decreases |names|
  {
    if |names| == 0 then g
    else
      var h := RolesFold(g, names[..|names| - 1], pid);
      var res := ResolveRole(h.roles, names[|names| - 1]);
      Gathering(AddToBucket(h.byRole, res.role.id, pid), res.roles, h.providers)
  }

  /** The fold over one more role name takes one more filing step. */
  lemma RolesFoldSnoc(g: Gathering, names: seq<string>, j: nat, pid: Option<nat>)
    requires j < |names|
    ensures var h := RolesFold(g, names[..j], pid);
            var res := ResolveRole(h.roles, names[j]);
            RolesFold(g, names[..j + 1], pid) == Gathering(AddToBucket(h.byRole, res.role.id, pid), res.roles, h.providers)
  {
    assert names[..j + 1][..j] == names[..j];
  }

  /** Filing under roles keeps the gathering well formed. */
  lemma {:induction false} RolesFoldWellFormed(g: Gathering, names: seq<string>, pid: Option<nat>)
    requires WellFormed(g) && (pid.None? || pid.value < |g.providers|)
    ensures WellFormed(RolesFold(g, names, pid))
    decreases |names|
  {
    if |names| > 0 {
      var h := RolesFold(g, names[..|names| - 1], pid);
      RolesFoldWellFormed(g, names[..|names| - 1], pid);
      var res := ResolveRole(h.roles, names[|names| - 1]);
      BucketKeepsWellFormed(h.(roles := res.roles), res.role.id, pid);
    }
  }

  /** Every role named ends up with the provider in its bucket. */
  lemma {:induction false} RolesFoldCovers(g: Gathering, names: seq<string>, pid: Option<nat>)
    ensures forall k :: 0 <= k < |names| ==> Covered(RolesFold(g, names, pid), names[k], pid)
    decreases |names|
  {
    if |names| > 0 {
      var init := names[..|names| - 1];
      var last := names[|names| - 1];
      var h := RolesFold(g, init, pid);
      RolesFoldCovers(g, init, pid);
      forall k | 0 <= k < |names|
        ensures Covered(RolesFold(g, names, pid), names[k], pid)
      {
        if k < |names| - 1 {
          assert names[k] == init[k];
        }
        CoveredAfterFiling(h, last, pid, names[k]);
      }
    }
  }

  /** Filing under one role covers that role and keeps what was covered. */
  lemma CoveredAfterFiling(h: Gathering, name: string, pid: Option<nat>, other: string)
    ensures var res := ResolveRole(h.roles, name);
            var r := Gathering(AddToBucket(h.byRole, res.role.id, pid), res.roles, h.providers);
            Covered(r, name, pid) && (Covered(h, other, pid) ==> Covered(r, other, pid))
  {
    var res := ResolveRole(h.roles, name);
    var r := Gathering(AddToBucket(h.byRole, res.role.id, pid), res.roles, h.providers);
    assert GetEncounterRoleByName(r.roles, name) == Some(res.role);
    if Covered(h, other, pid) {
      CoveredStable(h, r, other, pid);
    }
  }

  /** One iteration of `findOrCreateProvidersByRole`: pick the author's provider,
      then file it under each of its roles, or under the unknown role when the
      classification names none. */
  function AuthorStep(g: Gathering, slotMap: map<string, Slot>, unknown: nat): (r: Result<Gathering>)
    ensures r.Err? <==> ChooseProvider(g.providers, slotMap).Err?
    ensures r.Err? ==> r.error == ChooseProvider(g.providers, slotMap).error
    ensures r.Ok? ==> r.value.providers == WithChoice(g.providers, ChooseProvider(g.providers, slotMap).value)
    ensures r.Ok? ==> g.roles <= r.value.roles && Grows(g.byRole, r.value.byRole)
  {
    match ChooseProvider(g.providers, slotMap)
    case Err(e) => Err(e)
    case Ok(c) =>
      var g' := g.(providers := WithChoice(g.providers, c));
      if SlotAuthorRole in slotMap then
        Ok(RolesFold(g', slotMap[SlotAuthorRole].values, PickedId(c)))
      else
        Ok(g'.(byRole := AddToBucket(g.byRole, unknown, PickedId(c))))
  }

  /** Where one author's provider is filed: under every role the classification
      names, or under the unknown role when it names none. */
  lemma AuthorStepFiles(g: Gathering, slotMap: map<string, Slot>, unknown: nat)
    requires AuthorStep(g, slotMap, unknown).Ok?
    ensures var r := AuthorStep(g, slotMap, unknown).value;
            var pid := PickedId(ChooseProvider(g.providers, slotMap).value);
            (SlotAuthorRole in slotMap ==>
               forall k :: 0 <= k < |slotMap[SlotAuthorRole].values| ==>
                 Covered(r, slotMap[SlotAuthorRole].values[k], pid)) &&
            (SlotAuthorRole !in slotMap ==>
               unknown in r.byRole && pid in r.byRole[unknown] && r.roles == g.roles)
  {
    var c := ChooseProvider(g.providers, slotMap).value;
    if SlotAuthorRole in slotMap {
      RolesFoldCovers(g.(providers := WithChoice(g.providers, c)), slotMap[SlotAuthorRole].values, PickedId(c));
    }
  }

  /** One author's step keeps the gathering well formed. */
  lemma AuthorStepWellFormed(g: Gathering, slotMap: map<string, Slot>, unknown: nat)
    requires AuthorStep(g, slotMap, unknown).Ok? && WellFormed(g) && unknown < |g.roles|
    ensures WellFormed(AuthorStep(g, slotMap, unknown).value)
  {
    var c := ChooseProvider(g.providers, slotMap).value;
    var g' := g.(providers := WithChoice(g.providers, c));
    assert PickedId(c).None? || PickedId(c).value < |g'.providers|;
    assert WellFormed(g');
    if SlotAuthorRole in slotMap {
      RolesFoldWellFormed(g', slotMap[SlotAuthorRole].values, PickedId(c));
    } else {
      BucketKeepsWellFormed(g', unknown, PickedId(c));
    }
  }

  /** `findOrCreateProvidersByRole` over the author classifications, in order. */
  function ProvidersByRole(slotMaps: seq<map<string, Slot>>, g0: Gathering, unknown: nat): (r: Result<Gathering>)
    ensures r.Ok? ==> g0.roles <= r.value.roles && g0.providers <= r.value.providers && Grows(g0.byRole, r.value.byRole)
    decreases |slotMaps|
  {
    if |slotMaps| == 0 then Ok(g0)
    else
      match ProvidersByRole(slotMaps[..|slotMaps| - 1], g0, unknown)
      case Err(e) => Err(e)
      case Ok(g) => AuthorStep(g, slotMaps[|slotMaps| - 1], unknown)
  }

  /** The whole gathering stays well formed: buckets keyed by stored roles and
      holding stored providers, tables numbered. */
  lemma {:induction false} ProvidersByRoleWellFormed(slotMaps: seq<map<string, Slot>>, g0: Gathering, unknown: nat)
    requires ProvidersByRole(slotMaps, g0, unknown).Ok? && WellFormed(g0) && unknown < |g0.roles|
    ensures WellFormed(ProvidersByRole(slotMaps, g0, unknown).value)
    decreases |slotMaps|
  {
    if |slotMaps| > 0 {
      var init := slotMaps[..|slotMaps| - 1];
      var h := ProvidersByRole(init, g0, unknown).value;
      ProvidersByRoleWellFormed(init, g0, unknown);
      AuthorStepWellFormed(h, slotMaps[|slotMaps| - 1], unknown);
    }
  }

  /** Once an author classification fails, the whole gathering fails with its
      error. */
  lemma {:induction false} ByRoleErrorSticks(slotMaps: seq<map<string, Slot>>, i: nat, g0: Gathering, unknown: nat)
    requires i <= |slotMaps|
    requires ProvidersByRole(slotMaps[..i], g0, unknown).Err?
    ensures ProvidersByRole(slotMaps, g0, unknown) == ProvidersByRole(slotMaps[..i], g0, unknown)
    decreases |slotMaps| - i
  {
    if i < |slotMaps| {
      assert slotMaps[..i + 1][..i] == slotMaps[..i];
      ByRoleErrorSticks(slotMaps, i + 1, g0, unknown);
    } else {
      assert slotMaps[..i] == slotMaps;
    }
  }

  /** A gathering that succeeds succeeded up to its last author classification. */
  lemma ByRolePrefixOk(slotMaps: seq<map<string, Slot>>, g0: Gathering, unknown: nat)
    requires |slotMaps| > 0 && ProvidersByRole(slotMaps, g0, unknown).Ok?
    ensures ProvidersByRole(slotMaps[..|slotMaps| - 1], g0, unknown).Ok?
  {
  }

  /** Every role an author names ends up, found or created, as a key of the
      result. */
  lemma {:induction false} EveryNamedRoleIsKey(slotMaps: seq<map<string, Slot>>, g0: Gathering, unknown: nat)
    requires ProvidersByRole(slotMaps, g0, unknown).Ok?
    ensures forall k, name :: 0 <= k < |slotMaps| && SlotAuthorRole in slotMaps[k] &&
                              name in slotMaps[k][SlotAuthorRole].values ==>
              Keyed(ProvidersByRole(slotMaps, g0, unknown).value, name)
    decreases |slotMaps|
  {
    if |slotMaps| > 0 {
      var init := slotMaps[..|slotMaps| - 1];
      var last := slotMaps[|slotMaps| - 1];
      ByRolePrefixOk(slotMaps, g0, unknown);
      EveryNamedRoleIsKey(init, g0, unknown);
      forall k, name | 0 <= k < |slotMaps| && SlotAuthorRole in slotMaps[k] &&
                       name in slotMaps[k][SlotAuthorRole].values
        ensures Keyed(ProvidersByRole(slotMaps, g0, unknown).value, name)
      {
        NamedRoleStep(slotMaps, g0, unknown, name);
        if k < |slotMaps| - 1 {
          assert slotMaps[k] == init[k];
        }
      }
    }
  }

  /** A role keyed before the last author classification stays keyed, and the
      roles that classification names become keys. */
  lemma NamedRoleStep(slotMaps: seq<map<string, Slot>>, g0: Gathering, unknown: nat, name: string)
    requires |slotMaps| > 0 && ProvidersByRole(slotMaps, g0, unknown).Ok?
    ensures var init := ProvidersByRole(slotMaps[..|slotMaps| - 1], g0, unknown);
            var last := slotMaps[|slotMaps| - 1];
            init.Ok? &&
            ((Keyed(init.value, name) || (SlotAuthorRole in last && name in last[SlotAuthorRole].values)) ==>
               Keyed(ProvidersByRole(slotMaps, g0, unknown).value, name))
  {
    var h := ProvidersByRole(slotMaps[..|slotMaps| - 1], g0, unknown).value;
    var last := slotMaps[|slotMaps| - 1];
    var g := ProvidersByRole(slotMaps, g0, unknown).value;
    assert AuthorStep(h, last, unknown) == Ok(g);
    if SlotAuthorRole in last && name in last[SlotAuthorRole].values {
      LastAuthorKeyed(h, last, unknown, name);
    } else if Keyed(h, name) {
      KeyedStable(h, g, name);
    }
  }

  /** The roles of the author just handled are keys. */
  lemma LastAuthorKeyed(h: Gathering, last: map<string, Slot>, unknown: nat, name: string)
    requires AuthorStep(h, last, unknown).Ok?
    requires SlotAuthorRole in last && name in last[SlotAuthorRole].values
    ensures Keyed(AuthorStep(h, last, unknown).value, name)
  {
    var i :| 0 <= i < |last[SlotAuthorRole].values| && last[SlotAuthorRole].values[i] == name;
    AuthorStepFiles(h, last, unknown);
    assert Covered(AuthorStep(h, last, unknown).value, last[SlotAuthorRole].values[i],
                   PickedId(ChooseProvider(h.providers, last).value));
  }

  /** Keys survive appended roles and growing buckets. */
  lemma KeyedStable(g: Gathering, h: Gathering, name: string)
    requires Keyed(g, name)
    requires g.roles <= h.roles && Grows(g.byRole, h.byRole)
    ensures Keyed(h, name)
  {
    assert h.roles == g.roles + h.roles[|g.roles|..];
    RoleLookupStable(g.roles, h.roles[|g.roles|..], name);
  }

  /** The last author classification keeps the unknown role's bucket, and
      opens it when it names no role. */
  lemma UnknownRoleStep(slotMaps: seq<map<string, Slot>>, g0: Gathering, unknown: nat)
    requires |slotMaps| > 0 && ProvidersByRole(slotMaps, g0, unknown).Ok?
    ensures var init := ProvidersByRole(slotMaps[..|slotMaps| - 1], g0, unknown);
            init.Ok? &&
            ((unknown in init.value.byRole || SlotAuthorRole !in slotMaps[|slotMaps| - 1]) ==>
               unknown in ProvidersByRole(slotMaps, g0, unknown).value.byRole)
  {
    var h := ProvidersByRole(slotMaps[..|slotMaps| - 1], g0, unknown).value;
    assert AuthorStep(h, slotMaps[|slotMaps| - 1], unknown) == ProvidersByRole(slotMaps, g0, unknown);
    AuthorStepFiles(h, slotMaps[|slotMaps| - 1], unknown);
  }

  /** The unknown role is a key as soon as one author classification carries no
      authorRole slot. */
  lemma {:induction false} UnknownRoleUsed(slotMaps: seq<map<string, Slot>>, g0: Gathering, unknown: nat, k: nat)
    requires ProvidersByRole(slotMaps, g0, unknown).Ok?
    requires k < |slotMaps| && SlotAuthorRole !in slotMaps[k]
    ensures unknown in ProvidersByRole(slotMaps, g0, unknown).value.byRole
    decreases |slotMaps|
  {
    var init := slotMaps[..|slotMaps| - 1];
    UnknownRoleStep(slotMaps, g0, unknown);
    if k < |slotMaps| - 1 {
      assert slotMaps[k] == init[k];
      UnknownRoleUsed(init, g0, unknown, k);
    }
  }

  /** Where an author's provider `pid` belongs in `g`: in the bucket of every
      role its classification names, or in the unknown role's bucket when it
      names none. */
  ghost predicate FiledIn(g: Gathering, slotMap: map<string, Slot>, pid: Option<nat>, unknown: nat)
  {
    (SlotAuthorRole in slotMap ==>
       forall j :: 0 <= j < |slotMap[SlotAuthorRole].values| ==> Covered(g, slotMap[SlotAuthorRole].values[j], pid)) &&
    (SlotAuthorRole !in slotMap ==> unknown in g.byRole && pid in g.byRole[unknown])
  }

  /** Filing survives appended roles and growing buckets. */
  lemma FiledStable(g: Gathering, h: Gathering, slotMap: map<string, Slot>, pid: Option<nat>, unknown: nat)
    requires FiledIn(g, slotMap, pid, unknown)
    requires g.roles <= h.roles && Grows(g.byRole, h.byRole)
    ensures FiledIn(h, slotMap, pid, unknown)
  {
    if SlotAuthorRole in slotMap {
      forall j | 0 <= j < |slotMap[SlotAuthorRole].values|
        ensures Covered(h, slotMap[SlotAuthorRole].values[j], pid)
      {
        CoveredStable(g, h, slotMap[SlotAuthorRole].values[j], pid);
      }
    }
  }

  /** Author classification `k` was handled: the classifications before it
      succeeded, its provider was chosen against the providers they left, and
      that provider is filed in `g`. */
  ghost predicate FiledAt(slotMaps: seq<map<string, Slot>>, g0: Gathering, unknown: nat, k: nat, g: Gathering)
    requires k < |slotMaps|
  {
    var before := ProvidersByRole(slotMaps[..k], g0, unknown);
    before.Ok? && ChooseProvider(before.value.providers, slotMaps[k]).Ok? &&
    FiledIn(g, slotMaps[k], PickedId(ChooseProvider(before.value.providers, slotMaps[k]).value), unknown)
  }

  /** The result of `findOrCreateProvidersByRole` holds every author's provider
      under every role that author names, or under the unknown role when it
      names none. */
  lemma {:induction false} ProvidersByRoleFiles(slotMaps: seq<map<string, Slot>>, g0: Gathering, unknown: nat)
    requires ProvidersByRole(slotMaps, g0, unknown).Ok?
    ensures forall k :: 0 <= k < |slotMaps| ==> FiledAt(slotMaps, g0, unknown, k, ProvidersByRole(slotMaps, g0, unknown).value)
    decreases |slotMaps|
  {
    if |slotMaps| > 0 {
      var n := |slotMaps| - 1;
      var init := slotMaps[..n];
      var h := ProvidersByRole(init, g0, unknown).value;
      var g := ProvidersByRole(slotMaps, g0, unknown).value;
      assert AuthorStep(h, slotMaps[n], unknown) == Ok(g);
      ProvidersByRoleFiles(init, g0, unknown);
      AuthorStepFiles(h, slotMaps[n], unknown);
      forall k | 0 <= k < |slotMaps|
        ensures FiledAt(slotMaps, g0, unknown, k, g)
      {
        if k < n {
          assert init[..k] == slotMaps[..k];
          assert init[k] == slotMaps[k];
          assert FiledAt(init, g0, unknown, k, h);
          var before := ProvidersByRole(slotMaps[..k], g0, unknown).value;
          FiledStable(h, g, slotMaps[k], PickedId(ChooseProvider(before.providers, slotMaps[k]).value), unknown);
        }
      }
    }
  }

  /** The encounter roles and providers the repository keeps, with the role used
      for authors that name none. */
  class ProviderRegistry {
    var roles: seq<EncounterRole>
    var providers: seq<Provider>
    const unknownRole: nat

    ghost predicate Valid()
      reads this
    {
      RolesNumbered(roles) && ProvidersNumbered(providers) &&
      unknownRole < |roles|
    }

    constructor(initialRoles: seq<EncounterRole>, unknown: nat)
      requires RolesNumbered(initialRoles) && unknown < |initialRoles|
      ensures Valid()
      ensures roles == initialRoles && providers == [] && unknownRole == unknown
    {
      roles := initialRoles;
      providers := [];
      unknownRole := unknown;
    }

    /** `findOrCreateProvider`: the provider chosen for one author
        classification, saving a new one when none matches. */
    method FindOrCreateProvider(slotMap: map<string, Slot>) returns (r: Result<Option<nat>>)
      requires Valid()
      modifies this
      ensures Valid() && roles == old(roles)
      ensures var spec := ChooseProvider(old(providers), slotMap);
              (spec.Err? ==> r == Err(spec.error) && providers == old(providers)) &&
              (spec.Ok? ==> r == Ok(PickedId(spec.value)) && providers == WithChoice(old(providers), spec.value))
    {
      if SlotAuthorPerson !in slotMap {
        return Ok(None);
      }
      var values := slotMap[SlotAuthorPerson].values;
      if |values| == 0 {
        return Err(Runtime(IndexOutOfBounds));
      }
      var xcn := SplitAll(values[0], '^');
      assert xcn == AuthorXcn(slotMap);
      if xcn[0] != "" {
        var pro := ProviderWithIdentifier(providers, xcn[0]);
        if pro.Some? {
          assert ChooseProvider(providers, slotMap) == Ok(Found(pro.value.id));
          return Ok(Some(pro.value.id));
        }
        assert ChooseProvider(providers, slotMap) == Ok(Created(CreateProvider(xcn, |providers|)));
      } else {
        for i := 0 to |providers|
          invariant i > 0 ==> |xcn| >= 3
          invariant |xcn| >= 3 ==> forall j :: 0 <= j < i ==> !NameMatches(providers[j], xcn[1], xcn[2])
        {
          if |xcn| < 3 {
            assert ChooseProvider(providers, slotMap) == Err(Runtime(IndexOutOfBounds));
            return Err(Runtime(IndexOutOfBounds));
          }
          if NameMatches(providers[i], xcn[1], xcn[2]) {
            assert NameScan(providers, xcn[1], xcn[2]) == Some(providers[i]);
            assert ChooseProvider(providers, slotMap) == Ok(Found(providers[i].id));
            return Ok(Some(providers[i].id));
          }
        }
        assert |providers| > 0 ==> |xcn| >= 3 && NameScan(providers, xcn[1], xcn[2]).None?;
        assert ChooseProvider(providers, slotMap) == Ok(Created(CreateProvider(xcn, |providers|)));
      }
      var p := CreateProvider(xcn, |providers|);
      providers := providers + [p];
      r := Ok(Some(p.id));
    }

    /** The inner loop of `findOrCreateProvidersByRole`: file the author's
        provider under each named role, creating the roles that are missing. */
    method FileUnderRoles(byRole: map<nat, set<Option<nat>>>, names: seq<string>, pid: Option<nat>)
      returns (result: map<nat, set<Option<nat>>>)
      requires Valid()
      modifies this
      ensures Valid() && providers == old(providers)
      ensures RolesFold(Gathering(byRole, old(roles), providers), names, pid) == Gathering(result, roles, providers)
    {
      ghost var start := Gathering(byRole, roles, providers);
      result := byRole;
      assert names[..0] == [];
      for j := 0 to |names|
        invariant Valid() && providers == old(providers)
        invariant RolesFold(start, names[..j], pid) == Gathering(result, roles, providers)
      {
        RolesFoldSnoc(start, names, j, pid);
        ghost var res := ResolveRole(roles, names[j]);
        var found := GetEncounterRoleByName(roles, names[j]);
        var role: EncounterRole;
        if found.Some? {
          role := found.value;
        } else {
          role := EncounterRole(|roles|, names[j]);
          roles := roles + [role];
        }
        assert role == res.role && roles == res.roles;
        result := AddToBucket(result, role.id, pid);
      }
      assert names[..|names|] == names;
    }

    /** One pass of the outer loop of `findOrCreateProvidersByRole`. */
    method GatherAuthor(byRole: map<nat, set<Option<nat>>>, slotMap: map<string, Slot>)
      returns (r: Result<map<nat, set<Option<nat>>>>)
      requires Valid()
      modifies this
      ensures Valid() && old(roles) <= roles && old(providers) <= providers
      ensures var spec := AuthorStep(Gathering(byRole, old(roles), old(providers)), slotMap, unknownRole);
              (spec.Err? ==> r == Err(spec.error)) &&
              (spec.Ok? ==> r == Ok(spec.value.byRole) && roles == spec.value.roles && providers == spec.value.providers)
    {
      var provider := FindOrCreateProvider(slotMap);
      if provider.Err? {
        return Err(provider.error);
      }
      var pid := provider.value;
      var m;
      if SlotAuthorRole in slotMap {
        m := FileUnderRoles(byRole, slotMap[SlotAuthorRole].values, pid);
      } else {
        m := AddToBucket(byRole, unknownRole, pid);
      }
      r := Ok(m);
    }

    /** `findOrCreateProvidersByRole`: the providers of the entry's author
        classifications, grouped by encounter role. */
    method FindOrCreateProvidersByRole(eot: DocumentEntry) returns (r: Result<map<nat, set<Option<nat>>>>)
      requires Valid()
      modifies this
      ensures Valid()
      ensures var slots := GetClassificationSlotsFromExtrinsicObject(eot.classifications, AuthorScheme);
              (slots.Err? ==> r == Err(slots.error) && roles == old(roles) && providers == old(providers)) &&
              (slots.Ok? ==> Gathered(r, slots.value, old(roles), old(providers)))
      ensures var slots := GetClassificationSlotsFromExtrinsicObject(eot.classifications, AuthorScheme);
              slots.Ok? && r.Ok? ==>
                forall k :: 0 <= k < |slots.value| ==>
                  FiledAt(slots.value, Gathering(map[], old(roles), old(providers)), unknownRole, k, Gathering(r.value, roles, providers))
    {
      var slots := GetClassificationSlotsFromExtrinsicObject(eot.classifications, AuthorScheme);
      if slots.Err? {
        return Err(slots.error);
      }
      ghost var g0 := Gathering(map[], roles, providers);
      r := GatherAuthors(slots.value);
      if r.Ok? {
        ProvidersByRoleFiles(slots.value, g0, unknownRole);
      }
    }

    /** The outcome and the new tables are those of `ProvidersByRole`. */
    ghost predicate Gathered(r: Result<map<nat, set<Option<nat>>>>, slotMaps: seq<map<string, Slot>>,
                             roles0: seq<EncounterRole>, providers0: seq<Provider>)
      reads this
    {
      var spec := ProvidersByRole(slotMaps, Gathering(map[], roles0, providers0), unknownRole);
      r.Ok? == spec.Ok? && (r.Err? ==> r.error == spec.error) &&
      (r.Ok? ==> r.value == spec.value.byRole && roles == spec.value.roles && providers == spec.value.providers)
    }

    /** The outer loop of `findOrCreateProvidersByRole`. */
    method GatherAuthors(slotMaps: seq<map<string, Slot>>) returns (r: Result<map<nat, set<Option<nat>>>>)
      requires Valid()
      modifies this
      ensures Valid()
      ensures Gathered(r, slotMaps, old(roles), old(providers))
    {
      ghost var g0 := Gathering(map[], roles, providers);
      var byRole: map<nat, set<Option<nat>>> := map[];
      assert slotMaps[..0] == [];
      for i := 0 to |slotMaps|
        invariant Valid()
        invariant ProvidersByRole(slotMaps[..i], g0, unknownRole) == Ok(Gathering(byRole, roles, providers))
      {
        assert slotMaps[..i + 1][..i] == slotMaps[..i];
        assert slotMaps[..i + 1][i] == slotMaps[i];
        var step := GatherAuthor(byRole, slotMaps[i]);
        if step.Err? {
          ByRoleErrorSticks(slotMaps, i + 1, g0, unknownRole);
          assert slotMaps[..|slotMaps|] == slotMaps;
          return Err(step.error);
        }
        byRole := step.value;
      }
      assert slotMaps[..|slotMaps|] == slotMaps;
      r := Ok(byRole);
    }
  }
}

=== FILE: queue.dfy ===
/**
 * The discrete-data processing queue: items are queued, handed out one at a
 * time for processing, and completed as successful or failed. The store keeps
 * items in the order they were queued and hands out the earliest queued one.
 */
module IngestionQueue {

  import opened Outcomes

  datatype Status = Queued | Processing | Successful | Failed

  /** A queue item as far as the service touches it: `id` is its position in
      the store, the dates are instants supplied by the caller's clock. */
  datatype QueueItem = QueueItem(id: nat, status: Status, dateAdded: Option<int>, dateUpdated: Option<int>)

  /** The earliest item still waiting to be processed. */
  function NextQueued(items: seq<QueueItem>): (r: Option<nat>)
    ensures r.None? <==> forall k :: 0 <= k < |items| ==> items[k].status != Queued
    ensures r.Some? ==> r.value < |items| && items[r.value].status == Queued &&
                        forall j :: 0 <= j < r.value ==> items[j].status != Queued
  {
    FirstIndex(items, (q: QueueItem) => q.status == Queued)
  }

  /** How many items wait to be processed. */
  function CountQueued(items: seq<QueueItem>): (n: nat)
    ensures n <= |items|
  {
    if |items| == 0 then 0
    else CountQueued(items[..|items| - 1]) + (if items[|items| - 1].status == Queued then 1 else 0)
  }

  /** Replacing one item changes the waiting count by the change in that item's
      status alone. */
  lemma {:induction false} CountQueuedUpdate(items: seq<QueueItem>, k: nat, q: QueueItem)
    requires k < |items|
    ensures CountQueued(items[k := q]) + (if items[k].status == Queued then 1 else 0) ==
            CountQueued(items) + (if q.status == Queued then 1 else 0)
    decreases |items|
  {
    var n := |items|;
    var updated := items[k := q];
    if k < n - 1 {
      assert updated[..n - 1] == items[..n - 1][k := q];
      CountQueuedUpdate(items[..n - 1], k, q);
    } else {
      assert updated[..n - 1] == items[..n - 1];
    }
  }

  /** Appending an item adds one to the waiting count exactly when it is
      queued. */
  lemma CountQueuedAppend(items: seq<QueueItem>, q: QueueItem)
    ensures CountQueued(items + [q]) == CountQueued(items) + (if q.status == Queued then 1 else 0)
  {
    assert (items + [q])[..|items|] == items;
  }

  /** The item handed out for processing is no longer queued, so the next
      hand-out picks another one (or none). */
  lemma {:induction false} DequeueMovesOn(items: seq<QueueItem>, now: int)
    requires NextQueued(items).Some?
    ensures var k := NextQueued(items).value;
            var after := items[k := items[k].(status := Processing, dateUpdated := Some(now))];
            CountQueued(after) + 1 == CountQueued(items) &&
            (NextQueued(after).None? || NextQueued(after).value > k)
  {
    var k := NextQueued(items).value;
    var after := items[k := items[k].(status := Processing, dateUpdated := Some(now))];
    CountQueuedUpdate(items, k, after[k]);
  }

  /** Every item sits at the position its id names. */
  ghost predicate Numbered(items: seq<QueueItem>)
  {
    forall k :: 0 <= k < |items| ==> items[k].id == k
  }

  /** The queue store (the data-access object behind the service). */
  class DiscreteDataQueue {
    var items: seq<QueueItem>

    ghost predicate Valid()
      reads this
    {
      Numbered(items)
    }

    constructor()
      ensures Valid() && items == []
    {
      items := [];
    }

    /** `queueDiscreteDataProcessing`: the item is stored as queued, stamped
        with the time it was added. */
    method Queue(qi: QueueItem, now: int) returns (stored: QueueItem)
      requires Valid()
      modifies this
      ensures Valid()
      ensures stored == qi.(id := |old(items)|, status := Queued, dateAdded := Some(now))
      ensures items == old(items) + [stored]
      ensures CountQueued(items) == CountQueued(old(items)) + 1
    {
      stored := qi.(id := |items|, status := Queued, dateAdded := Some(now));
      CountQueuedAppend(items, stored);
      items := items + [stored];
    }

    /** `dequeueNextDiscreteDataForProcessing`: none when nothing waits;
        otherwise the earliest queued item, now processing. */
    method Dequeue(now: int) returns (r: Option<QueueItem>)
      requires Valid()
      modifies this
      ensures Valid()
      ensures r.None? <==> NextQueued(old(items)).None?
      ensures r.None? ==> items == old(items)
      ensures r.Some? ==>
                var k := NextQueued(old(items)).value;
                r.value == old(items)[k].(status := Processing, dateUpdated := Some(now)) &&
                items == old(items)[k := r.value] &&
                CountQueued(items) + 1 == CountQueued(old(items))
    {
      var next := NextQueued(items);
      if next.None? {
        return None;
      }
      DequeueMovesOn(items, now);
      var qi := items[next.value].(status := Processing, dateUpdated := Some(now));
      items := items[next.value := qi];
      r := Some(qi);
    }

    /** `completeQueueItem`: successful or failed as the caller says, stamped
        with the update time; an item the store does not hold is saved as a new
        one. */
    method Complete(qi: QueueItem, successful: bool, now: int) returns (stored: QueueItem)
      requires Valid()
      modifies this
      ensures Valid()
      ensures stored.status == (if successful then Successful else Failed)
      ensures stored.dateUpdated == Some(now)
      ensures qi.id < |old(items)| ==> stored == qi.(status := stored.status, dateUpdated := Some(now)) &&
                                       items == old(items)[qi.id := stored]
      ensures qi.id >= |old(items)| ==> stored == qi.(id := |old(items)|, status := stored.status, dateUpdated := Some(now)) &&
                                        items == old(items) + [stored]
      ensures CountQueued(items) <= CountQueued(old(items))
    {
      var status := if successful then Successful else Failed;
      if qi.id < |items| {
        stored := qi.(status := status, dateUpdated := Some(now));
        CountQueuedUpdate(items, qi.id, stored);
        items := items[qi.id := stored];
      } else {
        stored := qi.(id := |items|, status := status, dateUpdated := Some(now));
        CountQueuedAppend(items, stored);
        items := items + [stored];
      }
    }
  }
}

=== FILE: roleprovidermap.dfy ===
/**
 * The text form in which the encounter's role-to-providers map is stored:
 * `role:provider,provider|role:provider`, using numeric ids.
 */
module RoleProviderMap {

  import opened Outcomes
  import opened Text

  /** One role of the map with its providers, in the order the map's iterators
      yield them; a provider may be null. */
  datatype RoleEntry = RoleEntry(role: nat, providers: seq<Option<nat>>)

  /** A role and the ids of its providers. */
  datatype RoleIds = RoleIds(role: nat, providers: seq<nat>)

  predicate AllPresent(ps: seq<Option<nat>>)
  {
    forall j :: 0 <= j < |ps| ==> ps[j].Some?
  }

  predicate NoNullProvider(es: seq<RoleEntry>)
  {
    forall i :: 0 <= i < |es| ==> AllPresent(es[i].providers)
  }

  function ProviderIds(ps: seq<Option<nat>>): (r: seq<nat>)
    requires AllPresent(ps)
    ensures |r| == |ps| && forall j :: 0 <= j < |ps| ==> ps[j] == Some(r[j])
  {
    if |ps| == 0 then [] else ProviderIds(ps[..|ps| - 1]) + [ps[|ps| - 1].value]
  }

  function IdsOf(es: seq<RoleEntry>): (r: seq<RoleIds>)
    requires NoNullProvider(es)
    ensures |r| == |es|
    ensures forall i :: 0 <= i < |es| ==> r[i] == RoleIds(es[i].role, ProviderIds(es[i].providers))
  {
    if |es| == 0 then []
    else
      var e := es[|es| - 1];
      IdsOf(es[..|es| - 1]) + [RoleIds(e.role, ProviderIds(e.providers))]
  }

  function IdStrings(ids: seq<nat>): (r: seq<string>)
    ensures |r| == |ids| && forall k :: 0 <= k < |ids| ==> r[k] == NatToString(ids[k])
  {
    if |ids| == 0 then [] else IdStrings(ids[..|ids| - 1]) + [NatToString(ids[|ids| - 1])]
  }

  lemma ProviderIdsSnoc(ps: seq<Option<nat>>, k: nat)
    requires k < |ps| && AllPresent(ps[..k + 1])
    ensures ProviderIds(ps[..k + 1]) == ProviderIds(ps[..k]) + [ps[k].value]
  {
    assert ps[..k + 1][..k] == ps[..k];
  }

  lemma IdStringsSnoc(ids: seq<nat>, v: nat)
    ensures IdStrings(ids + [v]) == IdStrings(ids) + [NatToString(v)]
  {
    assert (ids + [v])[..|ids|] == ids;
  }

  function Segment(e: RoleIds): string
  {
    NatToString(e.role) + ":" + JoinWith(IdStrings(e.providers), ',')
  }

  function Segments(es: seq<RoleIds>): (r: seq<string>)
    ensures |r| == |es| && forall k :: 0 <= k < |es| ==> r[k] == Segment(es[k])
  {
    if |es| == 0 then [] else Segments(es[..|es| - 1]) + [Segment(es[|es| - 1])]
  }

  lemma NoNullSnoc(es: seq<RoleEntry>, i: nat)
    requires i < |es| && NoNullProvider(es[..i]) && AllPresent(es[i].providers)
    ensures NoNullProvider(es[..i + 1])
  {
    assert es[..i + 1] == es[..i] + [es[i]];
  }

  lemma IdsOfSnoc(es: seq<RoleEntry>, i: nat)
    requires i < |es| && NoNullProvider(es[..i + 1])
    ensures IdsOf(es[..i + 1]) == IdsOf(es[..i]) + [RoleIds(es[i].role, ProviderIds(es[i].providers))]
  {
    assert es[..i + 1][..i] == es[..i];
  }

  lemma SegmentsSnoc(es: seq<RoleIds>, e: RoleIds)
    ensures Segments(es + [e]) == Segments(es) + [Segment(e)]
  {
    assert (es + [e])[..|es|] == es;
  }

  /** The stored form of a role-to-providers map. */
  function Serialize(es: seq<RoleIds>): string
  {
    JoinWith(Segments(es), '|')
  }

  /** One pass of a loop that appends a piece and then, unless it was the last,
      a delimiter. */
  lemma JoinStep(before: seq<string>, x: string, d: char, first: bool, tail: string)
    requires first <==> |before| == 0
    ensures JoinWith(before + [x], d) + tail == JoinWith(before, d) + (if first then "" else [d]) + x + tail
  {
    if !first {
      JoinSnoc(before, x, d);
    } else {
      assert before + [x] == [x];
    }
  }

  /** The provider ids, comma separated. */
  function IdList(ps: seq<Option<nat>>): string
    requires AllPresent(ps)
  {
    JoinWith(IdStrings(ProviderIds(ps)), ',')
  }

  /** One pass of the provider-id loop below. */
  lemma JoinIdsStep(ps: seq<Option<nat>>, k: nat)
    requires k < |ps| && AllPresent(ps[..k]) && ps[k].Some?
    ensures AllPresent(ps[..k + 1])
    ensures var comma := if k + 1 < |ps| then "," else "";
            IdList(ps[..k]) + (if 0 < k < |ps| then "," else "") + NatToString(ps[k].value) + comma ==
            IdList(ps[..k + 1]) + comma
  {
    assert ps[..k + 1][..k] == ps[..k];
    assert AllPresent(ps[..k + 1]) by {
      forall j | 0 <= j < k + 1 ensures ps[j].Some? {
        if j < k { assert ps[..k][j] == ps[j]; }
      }
    }
    var before := IdStrings(ProviderIds(ps[..k]));
    var comma := if k + 1 < |ps| then "," else "";
    ProviderIdsSnoc(ps, k);
    IdStringsSnoc(ProviderIds(ps[..k]), ps[k].value);
    JoinStep(before, NatToString(ps[k].value), ',', k == 0, comma);
  }

  /** The inner loop of `stringifyRoleProvidersMap`: the provider ids with a
      comma after every one but the last; a null provider is dereferenced. */
  method JoinProviderIds(ps: seq<Option<nat>>) returns (r: Result<string>)
    ensures r.Err? <==> !AllPresent(ps)
    ensures r.Err? ==> r.error == Runtime(NullPointer)
    ensures r.Ok? ==> r.value == IdList(ps)
  {
    var sb := "";
    for k := 0 to |ps|
      invariant AllPresent(ps[..k])
      invariant sb == IdList(ps[..k]) + (if 0 < k < |ps| then "," else "")
    {
      if ps[k].None? {
        return Err(Runtime(NullPointer));
      }
      var id := NatToString(ps[k].value);
      var comma := if k + 1 < |ps| then "," else "";
      JoinIdsStep(ps, k);
      sb := sb + id + comma;
    }
    assert ps[..|ps|] == ps;
    return Ok(sb);
  }

  /** One pass of the role loop below. */
  lemma StringifyStep(es: seq<RoleEntry>, i: nat)
    requires i < |es| && NoNullProvider(es[..i]) && AllPresent(es[i].providers)
    ensures NoNullProvider(es[..i + 1])
    ensures var bar := if i + 1 < |es| then "|" else "";
            Serialize(IdsOf(es[..i])) + (if 0 < i < |es| then "|" else "") +
              (NatToString(es[i].role) + ":" + IdList(es[i].providers)) + bar ==
            Serialize(IdsOf(es[..i + 1])) + bar
  {
    NoNullSnoc(es, i);
    var e := es[i];
    var before := Segments(IdsOf(es[..i]));
    var segment := NatToString(e.role) + ":" + IdList(e.providers);
    assert segment == Segment(RoleIds(e.role, ProviderIds(e.providers)));
    IdsOfSnoc(es, i);
    SegmentsSnoc(IdsOf(es[..i]), RoleIds(e.role, ProviderIds(e.providers)));
    var bar := if i + 1 < |es| then "|" else "";
    JoinStep(before, segment, '|', i == 0, bar);
  }

  /** `stringifyRoleProvidersMap`: appends `role:` and the provider list for
      every role, with a bar after every role but the last. */
  method StringifyRoleProvidersMap(es: seq<RoleEntry>) returns (r: Result<string>)
    ensures r.Err? <==> !NoNullProvider(es)
    ensures r.Err? ==> r.error == Runtime(NullPointer)
    ensures r.Ok? ==> r.value == Serialize(IdsOf(es))
  {
    var sb := "";
    for i := 0 to |es|
      invariant NoNullProvider(es[..i])
      invariant sb == Serialize(IdsOf(es[..i])) + (if 0 < i < |es| then "|" else "")
    {
      var e := es[i];
      var list := JoinProviderIds(e.providers);
      if list.Err? {
        return Err(Runtime(NullPointer));
      }
      var segment := NatToString(e.role) + ":" + list.value;
      var bar := if i + 1 < |es| then "|" else "";
      StringifyStep(es, i);
      sb := sb + segment + bar;
    }
    assert es[..|es|] == es;
    return Ok(sb);
  }

  /** A digit string holds none of the map's separators. */
  lemma DigitsAvoid(s: string, c: char)
    requires AllDigits(s) && !IsDigit(c)
    ensures c !in s
  {
  }

  /** The provider list of a segment holds no ':' and no '|'. */
  lemma IdListAvoids(ids: seq<nat>)
    ensures ':' !in JoinWith(IdStrings(ids), ',') && '|' !in JoinWith(IdStrings(ids), ',')
    ensures forall k :: 0 <= k < |ids| ==> ',' !in IdStrings(ids)[k]
  {
    var strs := IdStrings(ids);
    forall k | 0 <= k < |strs| ensures ':' !in strs[k] && '|' !in strs[k] && ',' !in strs[k] {
      DigitsAvoid(strs[k], ':');
      DigitsAvoid(strs[k], '|');
      DigitsAvoid(strs[k], ',');
    }
    JoinAvoids(strs, ',', ':');
    JoinAvoids(strs, ',', '|');
  }

  lemma SegmentAvoidsBar(e: RoleIds)
    ensures '|' !in Segment(e)
  {
    IdListAvoids(e.providers);
    DigitsAvoid(NatToString(e.role), '|');
  }

  /** For a non-empty map the text splits on '|' into exactly one segment per
      role, so it holds one bar fewer than there are roles; an empty map is
      the empty text. */
  lemma SerializeSegments(es: seq<RoleIds>)
    ensures |es| == 0 ==> Serialize(es) == ""
    ensures |es| >= 1 ==> SplitAll(Serialize(es), '|') == Segments(es)
    ensures |es| >= 1 ==> Count(Serialize(es), '|') == |es| - 1
  {
    if |es| >= 1 {
      var segs := Segments(es);
      forall k | 0 <= k < |segs| ensures '|' !in segs[k] {
        SegmentAvoidsBar(es[k]);
      }
      SplitAllJoin(segs, '|');
      SplitAllFields(Serialize(es), '|');
    }
  }

  /** Reads a comma-separated list of decimal ids. */
  function ParseIds(fields: seq<string>): Option<seq<nat>>
  {
    if |fields| == 0 then Some([])
    else
      var last := fields[|fields| - 1];
      if last == "" || !AllDigits(last) then None
      else
        match ParseIds(fields[..|fields| - 1])
        case None => None
        case Some(ids) => Some(ids + [DigitsValue(last)])
  }

  /** Reads one `role:provider,...` segment. */
  function ParseSegment(s: string): Option<RoleIds>
  {
    var parts := SplitAll(s, ':');
    if |parts| != 2 || parts[0] == "" || !AllDigits(parts[0]) then None
    else
      match ParseIds(SplitAll(parts[1], ','))
      case None => None
      case Some(ids) => Some(RoleIds(DigitsValue(parts[0]), ids))
  }

  function ParseSegments(segs: seq<string>): Option<seq<RoleIds>>
  {
    if |segs| == 0 then Some([])
    else
      match ParseSegments(segs[..|segs| - 1])
      case None => None
      case Some(es) =>
        match ParseSegment(segs[|segs| - 1])
        case None => None
        case Some(e) => Some(es + [e])
  }

  /** Reads the stored form back into roles and provider ids. */
  function ParseRoleProviders(s: string): Option<seq<RoleIds>>
  {
    if s == "" then Some([]) else ParseSegments(SplitAll(s, '|'))
  }

  lemma {:induction false} ParseIdStrings(ids: seq<nat>)
    ensures ParseIds(IdStrings(ids)) == Some(ids)
  {
    if |ids| > 0 {
      var init := ids[..|ids| - 1];
      ParseIdStrings(init);
      DigitsValueOfNatToString(ids[|ids| - 1]);
      assert IdStrings(ids)[..|ids| - 1] == IdStrings(init);
      assert init + [ids[|ids| - 1]] == ids;
    }
  }

  lemma ParseSegmentOf(e: RoleIds)
    requires |e.providers| >= 1
    ensures ParseSegment(Segment(e)) == Some(e)
  {
    var head := NatToString(e.role);
    var list := JoinWith(IdStrings(e.providers), ',');
    IdListAvoids(e.providers);
    DigitsAvoid(head, ':');
    assert Segment(e) == JoinWith([head, list], ':');
    SplitAllJoin([head, list], ':');
    SplitAllJoin(IdStrings(e.providers), ',');
    ParseIdStrings(e.providers);
    DigitsValueOfNatToString(e.role);
  }

  lemma {:induction false} ParseSegmentsOf(es: seq<RoleIds>)
    requires forall i :: 0 <= i < |es| ==> |es[i].providers| >= 1
    ensures ParseSegments(Segments(es)) == Some(es)
  {
    if |es| > 0 {
      var init := es[..|es| - 1];
      var last := es[|es| - 1];
      assert init + [last] == es;
      var segs := Segments(es);
      assert segs[..|segs| - 1] == Segments(init);
      assert segs[|segs| - 1] == Segment(last);
      ParseSegmentsOf(init);
      ParseSegmentOf(last);
      assert ParseSegments(segs) == Some(init + [last]);
    }
  }

  /** Every map whose roles all have providers is read back from its stored
      form exactly. */
  lemma SerializeRoundTrip(es: seq<RoleIds>)
    requires forall i :: 0 <= i < |es| ==> |es[i].providers| >= 1
    ensures ParseRoleProviders(Serialize(es)) == Some(es)
  {
    SerializeSegments(es);
    if |es| > 0 {
      var s := Segment(es[0]);
      assert |NatToString(es[0].role)| >= 1;
      assert Serialize(es) != "" by {
        if |es| == 1 {
          assert Serialize(es) == s;
        } else {
          assert Serialize(es) == Segments(es)[0] + ['|'] + JoinWith(Segments(es)[1..], '|');
        }
      }
      ParseSegmentsOf(es);
    }
  }
}

=== FILE: submission.dfy ===
/**
 * The repository side of a submission: the per-entry metadata processing, the
 * duplicate check against the documents already registered, the patch of the
 * repository's unique id into every entry before the metadata goes to the
 * registry, and the recording of content handlers once the registry accepts.
 */
module Submission {

  import opened Outcomes
  import opened Entries
  import opened Integrity
  import opened Metadata
  import opened Hex

  /** The ebXML registry status of a successful registration. */
  const StatusSuccess: string := "urn:oasis:names:tc:ebxml-regrep:ResponseStatusType:Success"

  /** The registry's answer, reduced to its status. */
  datatype RegistryResponse = RegistryResponse(status: string)

  /** The audit event of the export: ITI-42 (Register Document Set-b) or ITI-61
      (Register On-Demand Document Entry). */
  datatype EventCode = Iti42 | Iti61

  /** `getDocumentUniqueId`: the entry's unique id, refused when a handler is
      already recorded for it. */
  function GetDocumentUniqueId(eot: DocumentEntry, handlers: map<string, string>): (r: Result<Option<string>>)
    ensures var id := ExternalIdentifierValue(eot.externalIdentifiers, UniqueIdScheme);
            (r.Err? <==> id.Some? && id.value in handlers) &&
            (r.Err? ==> r.error == DocumentUniqueIdDuplicate(id.value)) &&
            (r.Ok? ==> r.value == id)
  {
    var id := ExternalIdentifierValue(eot.externalIdentifiers, UniqueIdScheme);
    if id.Some? && id.value in handlers then Err(DocumentUniqueIdDuplicate(id.value)) else Ok(id)
  }

  /** The event code chosen for the export: ITI-61 as soon as one entry is not a
      stable document entry. */
  function EventFor(entries: seq<DocumentEntry>): (e: EventCode)
    ensures e == Iti61 <==> exists k :: 0 <= k < |entries| && entries[k].objectType != DocumentEntryType
  {
    if |entries| == 0 then Iti42
    else if entries[|entries| - 1].objectType != DocumentEntryType then Iti61
    else EventFor(entries[..|entries| - 1])
  }

  lemma EventForSnoc(entries: seq<DocumentEntry>, i: nat)
    requires i < |entries|
    ensures EventFor(entries[..i + 1]) ==
            if entries[i].objectType != DocumentEntryType then Iti61 else EventFor(entries[..i])
  {
    assert entries[..i + 1][..i] == entries[..i];
  }

  /** Whether the entry at `k` also appears among the first `i` entries. */
  predicate SeenBefore(entries: seq<DocumentEntry>, i: nat, k: nat)
    requires i <= |entries| && k < |entries|
  {
    entries[k] in entries[..i]
  }

  lemma SeenStep(entries: seq<DocumentEntry>, i: nat)
    requires i < |entries|
    ensures forall k :: 0 <= k < |entries| ==>
              (SeenBefore(entries, i + 1, k) <==> SeenBefore(entries, i, k) || entries[k] == entries[i])
  {
    assert entries[..i + 1] == entries[..i] + [entries[i]];
  }

  lemma SeenAll(entries: seq<DocumentEntry>)
    ensures forall k :: 0 <= k < |entries| ==> SeenBefore(entries, |entries|, k)
  {
    forall k | 0 <= k < |entries|
      ensures SeenBefore(entries, |entries|, k)
    {
      assert entries[..|entries|][k] == entries[k];
    }
  }

  /** The entries the metadata patch may change. */
  function EntrySet(entries: seq<DocumentEntry>): set<DocumentEntry>
  {
    set k | 0 <= k < |entries| :: entries[k]
  }

  /** What `processDocumentMetaData` decides for an entry: its unique id, or
      the first failure among the metadata check, the duplicate check, the
      content object and the content's agreement with the hash and size slots. */
  function ProcessOutcome(eot: DocumentEntry, documents: map<string, Bytes>, handlers: map<string, string>,
                          digest: seq<JByte> -> seq<JByte>): (r: Result<Content>)
    reads eot
    ensures ValidateMetadata(eot).Err? ==> r == Err(ValidateMetadata(eot).error)
    ensures ValidateMetadata(eot).Ok? && GetDocumentUniqueId(eot, handlers).Err? ==>
              r == Err(GetDocumentUniqueId(eot, handlers).error)
    ensures ValidateMetadata(eot).Ok? && GetDocumentUniqueId(eot, handlers).Ok? ==>
              var content := BuildContentObjectFromDocument(GetDocumentUniqueId(eot, handlers).value.value, eot, documents);
              (content.Err? ==> r == Err(content.error)) &&
              (content.Ok? ==> r == (if ValidateContent(eot.slots, content.value.payload, digest).Ok? then content
                                     else Err(ValidateContent(eot.slots, content.value.payload, digest).error)))
    ensures r.Ok? ==>
              ValidateMetadata(eot).Ok? &&
              Some(r.value.uniqueId) == ExternalIdentifierValue(eot.externalIdentifiers, UniqueIdScheme) &&
              r.value.uniqueId !in handlers &&
              r.value.payload == documents[eot.id] &&
              ValidateContent(eot.slots, r.value.payload, digest).Ok?
  {
    match ValidateMetadata(eot)
    case Err(e) => Err(e)
    case Ok(_) =>
      match GetDocumentUniqueId(eot, handlers)
      case Err(e) => Err(e)
      case Ok(id) =>
        match BuildContentObjectFromDocument(id.value, eot, documents)
        case Err(e) => Err(e)
        case Ok(content) =>
          match ValidateContent(eot.slots, content.payload, digest)
          case Err(e) => Err(e)
          case Ok(_) => Ok(content)
  }

  /** An entry that passed processing still validates against its content
      once its hash and size slots are filled in. */
  lemma ProcessedEntryValidates(eot: DocumentEntry, documents: map<string, Bytes>, handlers: map<string, string>,
                                digest: seq<JByte> -> seq<JByte>)
    requires ProcessOutcome(eot, documents, handlers, digest).Ok?
    ensures var content := ProcessOutcome(eot, documents, handlers, digest).value;
            var filled := WithSizeSlot(WithHashSlot(eot.slots, content.payload, digest), content.payload);
            ValidateContent(filled, content.payload, digest).Ok?
  {
    var content := ProcessOutcome(eot, documents, handlers, digest).value;
    FilledContentValidates(eot.slots, content.payload, digest);
  }

  /** `processDocumentMetaData`: the outcome above, and on success the hash and
      size slots filled in; on failure the entry is left as it was. */
  method ProcessDocumentMetadata(eot: DocumentEntry, documents: map<string, Bytes>, handlers: map<string, string>,
                                 digest: seq<JByte> -> seq<JByte>)
    returns (r: Result<string>)
    modifies eot
    ensures var outcome := old(ProcessOutcome(eot, documents, handlers, digest));
            (outcome.Err? ==> r == Err(outcome.error) && eot.slots == old(eot.slots)) &&
            (outcome.Ok? ==> r == Ok(outcome.value.uniqueId) &&
                             eot.slots == WithSizeSlot(WithHashSlot(old(eot.slots), outcome.value.payload, digest),
                                                       outcome.value.payload))
  {
    var outcome := ProcessOutcome(eot, documents, handlers, digest);
    if outcome.Err? {
      return Err(outcome.error);
    }
    var payload := outcome.value.payload;
    AddHashSlot(eot, payload, digest);
    AddSizeSlot(eot, payload);
    r := Ok(outcome.value.uniqueId);
  }

  /** The repository's record of which content handler serves each registered
      document, and its own unique id. */
  class DocumentRepository {
    var handlers: map<string, string>
    const repositoryUniqueId: string

    constructor(repositoryUniqueId: string)
      ensures handlers == map[] && this.repositoryUniqueId == repositoryUniqueId
    {
      handlers := map[];
      this.repositoryUniqueId := repositoryUniqueId;
    }

    /** The export loop of `sendMetadataToRegistry`: every entry gets (or has
        overwritten) the repositoryUniqueId slot, and the event code is chosen
        from the entries' object types. An entry listed twice is patched twice,
        which is the same as once. */
    method PatchEntries(entries: seq<DocumentEntry>) returns (event: EventCode)
      modifies EntrySet(entries)
      ensures forall k :: 0 <= k < |entries| ==> entries[k].slots == WithRepositoryId(old(entries[k].slots), repositoryUniqueId)
      ensures event == EventFor(entries)
    {
      event := Iti42;
      for i := 0 to |entries|
        invariant event == EventFor(entries[..i])
        invariant forall k :: 0 <= k < |entries| ==>
                    entries[k].slots == (if SeenBefore(entries, i, k) then WithRepositoryId(old(entries[k].slots), repositoryUniqueId)
                                         else old(entries[k].slots))
      {
        var eot := entries[i];
        EventForSnoc(entries, i);
        if eot.objectType != DocumentEntryType {
          event := Iti61;
        }
        PatchIdempotent(old(eot.slots), repositoryUniqueId);
        eot.slots := WithRepositoryId(eot.slots, repositoryUniqueId);
        SeenStep(entries, i);
      }
      assert entries[..|entries|] == entries;
      SeenAll(entries);
    }

    /** `sendMetadataToRegistry`: the export loop, then the registry's answer
        passed on; no answer means the registry could not be reached. */
    method SendMetadataToRegistry(entries: seq<DocumentEntry>, outcome: Option<RegistryResponse>)
      returns (r: Result<RegistryResponse>, event: EventCode)
      modifies EntrySet(entries)
      ensures forall k :: 0 <= k < |entries| ==>
                entries[k].slots == AddOrOverwriteSlot(old(entries[k].slots), SlotRepositoryUniqueId, repositoryUniqueId)
      ensures forall k :: 0 <= k < |entries| ==> GetSlotValue(entries[k].slots, SlotRepositoryUniqueId) == Some(repositoryUniqueId)
      ensures event == EventFor(entries)
      ensures outcome.None? ==> r == Err(RegistryNotAvailable)
      ensures outcome.Some? ==> r == Ok(outcome.value)
    {
      event := PatchEntries(entries);
      if outcome.None? {
        return Err(RegistryNotAvailable), event;
      }
      r := Ok(outcome.value);
    }

    /** `registerDocuments`: the handlers are recorded only when the registry
        answers with success. */
    method RegisterDocuments(contentHandlers: map<string, string>, entries: seq<DocumentEntry>, outcome: Option<RegistryResponse>)
      returns (r: Result<RegistryResponse>, event: EventCode)
      modifies this, EntrySet(entries)
      ensures forall k :: 0 <= k < |entries| ==>
                entries[k].slots == AddOrOverwriteSlot(old(entries[k].slots), SlotRepositoryUniqueId, repositoryUniqueId)
      ensures event == EventFor(entries)
      ensures outcome.None? ==> r == Err(RegistryNotAvailable)
      ensures outcome.Some? ==> r == Ok(outcome.value)
      ensures handlers == if r.Ok? && r.value.status == StatusSuccess then old(handlers) + contentHandlers else old(handlers)
    {
      r, event := SendMetadataToRegistry(entries, outcome);
      if r.Ok? && r.value.status == StatusSuccess {
        handlers := handlers + contentHandlers;
      }
    }

    /** `registerDocument`: the same for a single document. */
    method RegisterDocument(uniqueId: string, contentHandler: string, entries: seq<DocumentEntry>, outcome: Option<RegistryResponse>)
      returns (r: Result<RegistryResponse>, event: EventCode)
      modifies this, EntrySet(entries)
      ensures forall k :: 0 <= k < |entries| ==>
                entries[k].slots == AddOrOverwriteSlot(old(entries[k].slots), SlotRepositoryUniqueId, repositoryUniqueId)
      ensures event == EventFor(entries)
      ensures outcome.None? ==> r == Err(RegistryNotAvailable)
      ensures outcome.Some? ==> r == Ok(outcome.value)
      ensures handlers == if r.Ok? && r.value.status == StatusSuccess then old(handlers)[uniqueId := contentHandler] else old(handlers)
    {
      r, event := SendMetadataToRegistry(entries, outcome);
      if r.Ok? && r.value.status == StatusSuccess {
        handlers := handlers[uniqueId := contentHandler];
      }
    }
  }

  /** Once registered, a document's unique id is refused as a duplicate by the
      next submission that carries it. */
  lemma RegisteredIdsAreDuplicates(eot: DocumentEntry, handlers: map<string, string>, contentHandlers: map<string, string>)
    requires ExternalIdentifierValue(eot.externalIdentifiers, UniqueIdScheme).Some?
    requires ExternalIdentifierValue(eot.externalIdentifiers, UniqueIdScheme).value in contentHandlers
    ensures GetDocumentUniqueId(eot, handlers + contentHandlers) ==
            Err(DocumentUniqueIdDuplicate(ExternalIdentifierValue(eot.externalIdentifiers, UniqueIdScheme).value))
  {
  }

  /** The slots with the repositoryUniqueId slot added or overwritten. */
  function WithRepositoryId(slots: seq<Slot>, repositoryUniqueId: string): seq<Slot>
  {
    AddOrOverwriteSlot(slots, SlotRepositoryUniqueId, repositoryUniqueId)
  }

  /** Patching the repository id twice is patching it once, so an entry listed
      twice in a submission ends up as if listed once. */
  lemma PatchIdempotent(slots: seq<Slot>, repositoryUniqueId: string)
    ensures WithRepositoryId(WithRepositoryId(slots, repositoryUniqueId), repositoryUniqueId) ==
            WithRepositoryId(slots, repositoryUniqueId)
  {
    AddOrOverwriteIdempotent(slots, SlotRepositoryUniqueId, repositoryUniqueId);
  }
}

=== FILE: text.dfy ===
/**
 * The pieces of java.lang.String and java.lang.Integer that the repository
 * service relies on, written out for single-character delimiters and ASCII text.
 */
module Text {

  import opened Outcomes

  /** `s.split(d, -1)`: every field, empty ones included. */
  function SplitAll(s: string, d: char): (r: seq<string>)
    ensures |r| >= 1
    decreases |s|
  {
    if |s| == 0 then [""]
    else
      var rest := SplitAll(s[1..], d);
      if s[0] == d then [""] + rest
      else [[s[0]] + rest[0]] + rest[1..]
  }

  /** Joins fields with one delimiter between neighbours. */
  function JoinWith(pieces: seq<string>, d: char): (r: string)
  {
    if |pieces| == 0 then ""
    else if |pieces| == 1 then pieces[0]
    else pieces[0] + [d] + JoinWith(pieces[1..], d)
  }

  /** Joining pieces free of `c` on a delimiter other than `c` gives text free of `c`. */
  lemma {:induction false} JoinAvoids(pieces: seq<string>, d: char, c: char)
    requires c != d
    requires forall k :: 0 <= k < |pieces| ==> c !in pieces[k]
    ensures c !in JoinWith(pieces, d)
  {
    if |pieces| > 1 {
      JoinAvoids(pieces[1..], d, c);
    }
  }

  /** Joining one more piece adds one delimiter and the piece at the end. */
  lemma {:induction false} JoinSnoc(pieces: seq<string>, x: string, d: char)
    requires |pieces| >= 1
    ensures JoinWith(pieces + [x], d) == JoinWith(pieces, d) + [d] + x
    decreases |pieces|
  {
    if |pieces| > 1 {
      assert (pieces + [x])[1..] == pieces[1..] + [x];
      JoinSnoc(pieces[1..], x, d);
    }
  }

  /** `s.split(d)` with Java's default limit: trailing empty fields are dropped,
      and a string without the delimiter is returned whole. */
  function SplitJava(s: string, d: char): (r: seq<string>)
    ensures d !in s ==> r == [s]
    ensures d in s ==> |r| == 0 || r[|r| - 1] != ""
  {
    if d !in s then [s] else DropTrailingEmpty(SplitAll(s, d))
  }

  function DropTrailingEmpty(p: seq<string>): (r: seq<string>)
    ensures |r| <= |p| && r == p[..|r|]
    ensures |r| == 0 || r[|r| - 1] != ""
    ensures forall k :: |r| <= k < |p| ==> p[k] == ""
  {
    if |p| > 0 && p[|p| - 1] == "" then DropTrailingEmpty(p[..|p| - 1]) else p
  }

  /** Field `k` of a split, or "" past its end. */
  function FieldOr(fields: seq<string>, k: nat): string
  {
    if k < |fields| then fields[k] else ""
  }

  /** Java's split keeps the fields of the keep-everything split up to the last
      non-empty one, so reading any field (as "" past the end) gives the same. */
  lemma SplitJavaFieldOr(s: string, d: char, k: nat)
    ensures FieldOr(SplitJava(s, d), k) == FieldOr(SplitAll(s, d), k)
  {
    if d !in s {
      SplitAllNoDelimiter(s, d);
    }
  }

  /** Java's split has more than `k` fields exactly when some field from `k`
      on is non-empty in the keep-everything split (or when there is no
      delimiter and `k` is 0). */
  lemma SplitJavaLength(s: string, d: char, k: nat)
    requires d in s
    ensures |SplitJava(s, d)| > k <==> exists j :: k <= j < |SplitAll(s, d)| && SplitAll(s, d)[j] != ""
  {
    var p := SplitAll(s, d);
    var r := SplitJava(s, d);
    assert r == DropTrailingEmpty(p);
    if |r| > k {
      var j := |r| - 1;
      assert p[j] == r[j];
      assert k <= j < |SplitAll(s, d)| && SplitAll(s, d)[j] != "";
    } else {
      forall j | k <= j < |p| ensures p[j] == "" {
        assert |r| <= j;
      }
    }
  }

  /** Number of occurrences of `d` in `s`. */
  function Count(s: string, d: char): nat
  {
    if |s| == 0 then 0 else (if s[0] == d then 1 else 0) + Count(s[1..], d)
  }

  lemma {:induction false} CountAppend(a: string, b: string, d: char)
    ensures Count(a + b, d) == Count(a, d) + Count(b, d)
  {
    if |a| > 0 {
      assert (a + b)[1..] == a[1..] + b;
      CountAppend(a[1..], b, d);
    } else {
      assert a + b == b;
    }
  }

  lemma {:induction false} CountAbsent(s: string, d: char)
    requires d !in s
    ensures Count(s, d) == 0
  {
    if |s| > 0 {
      assert d !in s[1..];
      CountAbsent(s[1..], d);
    }
  }

  /** No field produced by `split(d, -1)` contains the delimiter, and there is
      one more field than there are delimiters. */
  lemma {:induction false} SplitAllFields(s: string, d: char)
    ensures forall k :: 0 <= k < |SplitAll(s, d)| ==> d !in SplitAll(s, d)[k]
    ensures |SplitAll(s, d)| == Count(s, d) + 1
  {
    if |s| > 0 {
      SplitAllFields(s[1..], d);
    }
  }

  /** Splitting and joining on the same delimiter gives back the input. */
  lemma {:induction false} JoinSplitAll(s: string, d: char)
    ensures JoinWith(SplitAll(s, d), d) == s
  {
    if |s| > 0 {
      var rest := SplitAll(s[1..], d);
      JoinSplitAll(s[1..], d);
      if s[0] == d {
        assert SplitAll(s, d)[1..] == rest;
        assert JoinWith(SplitAll(s, d), d) == "" + [d] + JoinWith(rest, d);
        assert s == [s[0]] + s[1..];
      } else {
        var r := SplitAll(s, d);
        if |rest| == 1 {
          assert JoinWith(r, d) == [s[0]] + rest[0];
        } else {
          assert r[1..] == rest[1..];
          assert JoinWith(r, d) == [s[0]] + rest[0] + [d] + JoinWith(rest[1..], d);
          assert JoinWith(rest, d) == rest[0] + [d] + JoinWith(rest[1..], d);
        }
        assert s == [s[0]] + s[1..];
      }
    }
  }

  /** Joining delimiter-free fields and splitting again gives back the fields. */
  lemma {:induction false} SplitAllJoin(pieces: seq<string>, d: char)
    requires |pieces| >= 1
    requires forall k :: 0 <= k < |pieces| ==> d !in pieces[k]
    ensures SplitAll(JoinWith(pieces, d), d) == pieces
  {
    if |pieces| == 1 {
      SplitAllNoDelimiter(pieces[0], d);
    } else {
      SplitAllJoin(pieces[1..], d);
      SplitAllPrefix(pieces[0], JoinWith(pieces[1..], d), d);
      assert pieces == [pieces[0]] + pieces[1..];
    }
  }

  /** The two facts about `split(d, -1)` most callers need together. */
  lemma SplitAllShape(s: string, d: char)
    ensures forall k :: 0 <= k < |SplitAll(s, d)| ==> d !in SplitAll(s, d)[k]
    ensures d !in s ==> SplitAll(s, d) == [s]
  {
    SplitAllFields(s, d);
    if d !in s {
      SplitAllNoDelimiter(s, d);
    }
  }

  lemma {:induction false} SplitAllNoDelimiter(s: string, d: char)
    requires d !in s
    ensures SplitAll(s, d) == [s]
  {
    if |s| > 0 {
      assert d !in s[1..];
      SplitAllNoDelimiter(s[1..], d);
      assert s == [s[0]] + s[1..];
    }
  }

  /** A delimiter-free field followed by the delimiter splits off as one field. */
  lemma {:induction false} SplitAllPrefix(a: string, b: string, d: char)
    requires d !in a
    ensures SplitAll(a + [d] + b, d) == [a] + SplitAll(b, d)
  {
    if |a| == 0 {
      assert a + [d] + b == [d] + b;
      assert ([d] + b)[1..] == b;
    } else {
      assert (a + [d] + b)[1..] == a[1..] + [d] + b;
      assert d !in a[1..];
      SplitAllPrefix(a[1..], b, d);
      assert [a[0]] + a[1..] == a;
    }
  }

  /** `s.startsWith(p)` */
  predicate StartsWith(s: string, p: string)
  {
    |p| <= |s| && s[..|p|] == p
  }

  /** `p` occurs in `s` starting at index `i`. */
  predicate OccursAt(s: string, p: string, i: int)
  {
    0 <= i && i + |p| <= |s| && s[i..i + |p|] == p
  }

  /** `s.contains(p)` */
  predicate Contains(s: string, p: string)
  {
    exists i :: 0 <= i <= |s| - |p| && OccursAt(s, p, i)
  }

  /** `s.replace(pat, rep)`: every non-overlapping occurrence, scanning from the left. */
  function ReplaceAll(s: string, pat: string, rep: string): string
    requires |pat| > 0
    decreases |s|
  {
    if |s| < |pat| then s
    else if s[..|pat|] == pat then rep + ReplaceAll(s[|pat|..], pat, rep)
    else [s[0]] + ReplaceAll(s[1..], pat, rep)
  }

  /** Replacing a pattern that does not occur changes nothing. */
  lemma {:induction false} ReplaceAbsent(s: string, pat: string, rep: string)
    requires |pat| > 0
    requires !Contains(s, pat)
    ensures ReplaceAll(s, pat, rep) == s
    decreases |s|
  {
    if |s| >= |pat| {
      assert !OccursAt(s, pat, 0);
      assert s[0..|pat|] == s[..|pat|];
      assert !Contains(s[1..], pat) by {
        forall i | OccursAt(s[1..], pat, i)
          ensures false
        {
          assert s[1..][i..i + |pat|] == s[i + 1..i + 1 + |pat|];
          assert OccursAt(s, pat, i + 1);
        }
      }
      ReplaceAbsent(s[1..], pat, rep);
      assert s == [s[0]] + s[1..];
    }
  }

  /** Stripping a tag with `replace(tag, "")` leaves exactly the rest of the
      fragment when the tag occurs only as its prefix. */
  lemma StripTagPrefixOnly(tag: string, v: string)
    requires |tag| > 0
    requires !Contains(v, tag)
    ensures ReplaceAll(tag + v, tag, "") == v
  {
    assert (tag + v)[..|tag|] == tag;
    assert (tag + v)[|tag|..] == v;
    ReplaceAbsent(v, tag, "");
  }

  /** ASCII lower-casing, as `Character.toLowerCase` does on ASCII letters. */
  function LowerAscii(c: char): char
  {
    if 'A' <= c <= 'Z' then (c as int - 'A' as int + 'a' as int) as char else c
  }

  /** `a.equalsIgnoreCase(b)` for ASCII text. */
  predicate EqualsIgnoreCase(a: string, b: string)
  {
    |a| == |b| && forall i :: 0 <= i < |a| ==> LowerAscii(a[i]) == LowerAscii(b[i])
  }

  predicate IsDigit(c: char)
  {
    '0' <= c <= '9'
  }

  predicate AllDigits(s: string)
  {
    forall i :: 0 <= i < |s| ==> IsDigit(s[i])
  }

  /** Value of a decimal digit string, most significant digit first. */
  function DigitsValue(s: string): nat
    requires AllDigits(s)
  {
    if |s| == 0 then 0
    else DigitsValue(s[..|s| - 1]) * 10 + (s[|s| - 1] as int - '0' as int)
  }

  function DigitChar(n: nat): (c: char)
    requires n < 10
    ensures IsDigit(c) && c as int - '0' as int == n
  {
    ('0' as int + n) as char
  }

  /** `String.format("%d", n)` for a non-negative `n`. */
  function NatToString(n: nat): (r: string)
    ensures |r| >= 1 && AllDigits(r)
  {
    if n < 10 then [DigitChar(n)] else NatToString(n / 10) + [DigitChar(n % 10)]
  }

  lemma {:induction false} DigitsValueOfNatToString(n: nat)
    ensures DigitsValue(NatToString(n)) == n
  {
    if n >= 10 {
      var s := NatToString(n);
      DigitsValueOfNatToString(n / 10);
      assert s[..|s| - 1] == NatToString(n / 10);
    }
  }

  const IntMin: int := -0x8000_0000
  const IntMax: int := 0x7FFF_FFFF

  /** `Integer.parseInt(s)`: an optional sign, then one or more ASCII digits,
      within the 32-bit range; None where Java throws NumberFormatException. */
  function ParseInt(s: string): (r: Option<int>)
    ensures r.Some? ==> IntMin <= r.value <= IntMax
  {
    if |s| == 0 then None
    else
      var neg := s[0] == '-';
      var body := if s[0] == '-' || s[0] == '+' then s[1..] else s;
      if |body| == 0 || !AllDigits(body) then None
      else
        var v := if neg then -(DigitsValue(body) as int) else DigitsValue(body) as int;
        if IntMin <= v <= IntMax then Some(v) else None
  }

  /** What `String.format("%d", n)` writes, `Integer.parseInt` reads back. */
  lemma ParseFormatted(n: nat)
    requires n <= IntMax
    ensures ParseInt(NatToString(n)) == Some(n)
  {
    DigitsValueOfNatToString(n);
  }
}
